=== FILE: README.md ===
# Strength Studio: workout extraction and conversion, modelled in Dafny

Strength Studio is a mobile gym app with an AI coach. The coach is a chat
backed by a language model. When the model proposes a workout plan, it ends
the reply with the question "🔥 QUER QUE EU ADICIONE AO APP?". If the user
answers `sim`, the app turns that text into a plan and saves it. The plan
becomes a training program, its library exercises and one routine per
training day.

This project models that pipeline:

- **The generator endpoint** (`GeneratorIndex`): decides between confirming
  and calling the model. It forwards at most the last six history messages.
- **The server-side extractor** (`ServerExtractor`): reads a fenced JSON
  block, or else scans the reply line by line. The scan tracks the name,
  objective, duration, routines, a de-duplicated exercise list and notes.
- **The client-side extractor** (`ClientExtractor`): finds the offering
  message in the history, cuts the notes and the text after the question,
  and splits the content into routine sections.
- **The two exercise classifiers** (`ExerciseUtils`, and the client's own
  copy): muscle group and exercise type by keywords, in a fixed order.
- **The conversion service** (`Conversion`): a class recording every
  backend request. It creates the program, resolves or creates exercises
  through a name map in insertion order, then creates the routines, with a
  Monday fallback routine.
- **The routines service** (`RoutinesService`): tables of routine rows and
  routine-exercise rows. Create, update and fetch are modelled, along with
  the write-then-read round trip.
- **The video cache of the YouTube service** (`VideoCache`): a class with a
  24-hour TTL and at most 100 entries, evicting the oldest. Plus the
  YouTube search endpoint (`YoutubeSearch`): the embeddable filter and the
  ISO-8601 duration label.
- **`getTodayRoutine` of the gym context** (`GymContext`) and the upload
  checks of the file-processing service (`FileProcessing`).

Network calls, the database, the clock and the language model never
appear as code. They are parameters: the answer they gave. In the
conversion service they are the functions of a `Backend` value.

Modules, one per file: `Common` (Option, Result), `Text` (string helpers
with JavaScript semantics), `Regex` (a backtracking matcher for the
patterns the extractors use), `Plan` (the extracted plan), then one module
per source file as listed above.

## Model

| member | source | states |
|---|---|---|
| ExerciseUtils.DetermineMuscleGroup | supabase/functions/ai-workout-generator/exercise-utils.ts:5-37 | a group other than Geral has one of its keywords in the lower-cased name, and no group checked earlier has any |
| ExerciseUtils.KeywordTestIsContainsAny | supabase/functions/ai-workout-generator/exercise-utils.ts:8-34 | each group's test is exactly "the name contains one of the group's keywords" |
| ExerciseUtils.MuscleGroupIsFirstMatch | supabase/functions/ai-workout-generator/exercise-utils.ts:8-36 | the result is the first group, in test order, whose keyword list matches |
| ExerciseUtils.GeneralIffNoKeyword | supabase/functions/ai-workout-generator/exercise-utils.ts:36 | Geral is returned exactly when no group's keyword occurs in the name |
| ExerciseUtils.MuscleGroupIgnoresCase | supabase/functions/ai-workout-generator/exercise-utils.ts:6 | lower-casing the name first does not change the group |
| ExerciseUtils.ChestBeforeBack | supabase/functions/ai-workout-generator/exercise-utils.ts:8-14 | a name mentioning both `supino` and `remada` is a chest exercise, because chest is checked first |
| ExerciseUtils.DetermineExerciseType | supabase/functions/ai-workout-generator/exercise-utils.ts:40-53 | cardio iff a cardio keyword occurs; flexibility iff no cardio keyword but a flexibility one; strength iff neither |
| ExerciseUtils.ExerciseTypeIgnoresCase | supabase/functions/ai-workout-generator/exercise-utils.ts:41 | lower-casing the name first does not change the type |
| ExerciseUtils.CardioBeforeFlexibility | supabase/functions/ai-workout-generator/exercise-utils.ts:43-50 | a name with both `burpee` and `yoga` is cardio |
| Plan.AddToLast | supabase/functions/ai-workout-generator/workout-extractor.ts:155-157 | only the last routine changes: the exercise is appended to it, so the flattened exercise list grows by exactly that exercise |
| Plan.FlattenAppend | supabase/functions/ai-workout-generator/workout-extractor.ts:79 | opening a routine appends its exercises to the flattened list |
| ServerExtractor.PlanName | supabase/functions/ai-workout-generator/workout-extractor.ts:39-42 | a recognised plan-name line always yields a non-empty name |
| ServerExtractor.ObjectiveText | supabase/functions/ai-workout-generator/workout-extractor.ts:45-48 | a recognised objective line always yields a non-empty objective |
| ServerExtractor.RoutineName | supabase/functions/ai-workout-generator/workout-extractor.ts:69 | a routine's name always contains `Treino` |
| ServerExtractor.MatchRoutine | supabase/functions/ai-workout-generator/workout-extractor.ts:59-83 | a matched routine header has a `Treino` name and a trimmed day and focus |
| ServerExtractor.RoutineDayIsNormalised | supabase/functions/ai-workout-generator/workout-extractor.ts:73 | the day of a matched header is trimmed and lower-case |
| ServerExtractor.ExerciseFrom | supabase/functions/ai-workout-generator/workout-extractor.ts:113-151 | weight 0; muscle group and type from the shared classifiers; the instruction text from sets, reps and rest; for the superset patterns the counter's group and the sub-number as order, otherwise no group and order 0 |
| ServerExtractor.NameGroup | supabase/functions/ai-workout-generator/workout-extractor.ts:113-136 | the name sits in group 2 for the numbered patterns, 3 for the superset patterns and 1 for the bullet patterns, so group 1 exactly for the bullets |
| ServerExtractor.ExerciseFromGroups | supabase/functions/ai-workout-generator/workout-extractor.ts:113-138 | the name is the trimmed name group; sets and reps are the two groups after it; the rest is the next group's number, or 60 when that group is absent |
| ServerExtractor.CleanLines | supabase/functions/ai-workout-generator/workout-extractor.ts:18-33 | every line handed to the scan is trimmed |
| ServerExtractor.SupersetPatternsNeverMatch | supabase/functions/ai-workout-generator/workout-extractor.ts:99-101 | the three superset patterns need leading whitespace, so they never match a trimmed line |
| ServerExtractor.LinesHaveNoSupersets | supabase/functions/ai-workout-generator/workout-extractor.ts:33 | no scanned line of any reply is read as a superset exercise |
| ServerExtractor.TrimmedLineExercise | supabase/functions/ai-workout-generator/workout-extractor.ts:93-151 | on a trimmed line the exercise does not depend on the superset counter and has no superset group |
| ServerExtractor.DedupCI | supabase/functions/ai-workout-generator/workout-extractor.ts:160-162 | de-duplication never grows the list |
| ServerExtractor.DedupDistinct | supabase/functions/ai-workout-generator/workout-extractor.ts:160-162 | no two kept exercises have the same name up to case |
| ServerExtractor.DedupCovers | supabase/functions/ai-workout-generator/workout-extractor.ts:160-162 | every recorded exercise's name is kept, up to case |
| ServerExtractor.DedupSubset | supabase/functions/ai-workout-generator/workout-extractor.ts:160-162 | only recorded exercises are kept |
| ServerExtractor.FirstCI | supabase/functions/ai-workout-generator/workout-extractor.ts:160 | like `.find`: a found exercise is the first in the list with the searched name up to case, and none is found only when no exercise has it |
| ServerExtractor.DedupKeepsFirst | supabase/functions/ai-workout-generator/workout-extractor.ts:160-162 | each kept exercise is the first recorded one with its name |
| ServerExtractor.RecordedNeverSuperset | supabase/functions/ai-workout-generator/workout-extractor.ts:146-150 | without superset lines, no recorded exercise has a superset group or order |
| ServerExtractor.RoutedAreRecorded | supabase/functions/ai-workout-generator/workout-extractor.ts:155-162 | every exercise filed under a routine was also recorded in the plan's list |
| ServerExtractor.ListOpenIff | supabase/functions/ai-workout-generator/workout-extractor.ts:77-90 | exercises are accepted exactly after the first routine header or list marker |
| ServerExtractor.NothingRecordedBeforeOpening | supabase/functions/ai-workout-generator/workout-extractor.ts:110 | before any header or marker, no exercise is recorded |
| ServerExtractor.DurationIsLastNumber | supabase/functions/ai-workout-generator/workout-extractor.ts:51-56 | the duration is the number on the last duration line, and 45 when there is none |
| ServerExtractor.OpenRoutine | supabase/functions/ai-workout-generator/workout-extractor.ts:71-79 | exactly one new routine with the header's name, day and focus and no exercises is appended; the earlier routines are unchanged |
| ServerExtractor.FileExercise | supabase/functions/ai-workout-generator/workout-extractor.ts:155-162 | the exercise is pushed onto the last routine, if any, leaving the others unchanged; it joins the plan's list unless its name is already there up to case |
| ServerExtractor.FileLine | supabase/functions/ai-workout-generator/workout-extractor.ts:65-163 | on a non-blank line: a header opens a routine and the list, a list marker opens the list and ends the line, and an exercise is filed into the newest routine and the list once the list is open |
| ServerExtractor.ReadLines | supabase/functions/ai-workout-generator/workout-extractor.ts:32-174 | the loop's name, objective, duration, notes, routines and de-duplicated exercises equal the line-by-line specification; each routine holds exactly the exercises it should, in order |
| ServerExtractor.RoutineCount | supabase/functions/ai-workout-generator/workout-extractor.ts:71-79 | one routine per routine header line |
| ServerExtractor.RoutinesHoldTheirExercises | supabase/functions/ai-workout-generator/workout-extractor.ts:71-157 | routine k carries header k and holds exactly the exercises recorded from header k up to the next header, in line order |
| ServerExtractor.RoutinesAfterHeaders | supabase/functions/ai-workout-generator/workout-extractor.ts:71-79 | the routines carry the routine headers, in order |
| ServerExtractor.RoutinesAfterFlatten | supabase/functions/ai-workout-generator/workout-extractor.ts:155-157 | read routine after routine, the routines hold exactly the exercises recorded after the first header, in line order |
| ServerExtractor.ReadLineFields | supabase/functions/ai-workout-generator/workout-extractor.ts:36-90 | how one more line changes the name, objective, duration, notes, open list and headers |
| ServerExtractor.ReadLineExercises | supabase/functions/ai-workout-generator/workout-extractor.ts:106-164 | how one more line changes the recorded, routed and de-duplicated exercises |
| ServerExtractor.ExtractFromText | supabase/functions/ai-workout-generator/workout-extractor.ts:18-198 | null exactly when the reply has neither a routine nor an exercise. Otherwise the plan has the defaults for name and objective, 45 minutes by default, and de-duplicated non-superset exercises. Its routines are those of the headers, each holding the exercises up to the next header, or one Monday routine holding every exercise |
| ServerExtractor.ExtractWorkoutData | supabase/functions/ai-workout-generator/workout-extractor.ts:6-203 | a fenced JSON block decides the result by itself; otherwise the text scan above applies, including which routine holds which exercise |
| ClientExtractor.SectionFrom | src/hooks/useAIChat.tsx:322-327 | finds the first notes heading at or after a position, or reports that there is none |
| ClientExtractor.CutSection | src/hooks/useAIChat.tsx:322-327 | the content is cut right before the first notes heading, and kept whole without one |
| ClientExtractor.CutSections | src/hooks/useAIChat.tsx:322-327 | cutting every notes heading leaves a prefix of the content |
| ClientExtractor.CutAfterQuestion | src/hooks/useAIChat.tsx:330-337 | the text after the question's closing words is dropped; without the question nothing changes |
| ClientExtractor.CleanContent | src/hooks/useAIChat.tsx:318-337 | the cleaned content is a prefix of the message |
| ClientExtractor.CleanEndsWithClosing | src/hooks/useAIChat.tsx:330-337 | when the question and its closing words remain, the cleaned content ends with the closing words |
| ClientExtractor.NameOf | src/hooks/useAIChat.tsx:343-344 | the plan-name field, or `Treino Personalizado` when there is none |
| ClientExtractor.ObjectiveOf | src/hooks/useAIChat.tsx:347-348 | the trimmed objective field, or empty when the field is missing |
| ClientExtractor.DurationOf | src/hooks/useAIChat.tsx:351-353 | the first number of the duration field; 45 when the field has no number |
| ClientExtractor.DefaultDurationIs45 | src/hooks/useAIChat.tsx:351-353 | without a duration field the duration is 45 |
| ClientExtractor.ClientMuscleGroup | src/hooks/useAIChat.tsx:358-390 | the client's classifier also returns the first group, in its own test order, whose keyword matches |
| ClientExtractor.ClientKeywordTestIsContainsAny | src/hooks/useAIChat.tsx:360-387 | each client test is "the name contains one of the client's keywords for the group" |
| ClientExtractor.ClientMuscleGroupIsFirstMatch | src/hooks/useAIChat.tsx:358-390 | the result is the first group whose keyword list matches, and only Geral without a match |
| ClientExtractor.ClassifiersAgreeWithoutDifferingKeywords | src/hooks/useAIChat.tsx:376-379 | the client and server classifiers agree on every name without `puxada`, `desenvolvimento` or `pull`, the keywords on which their lists differ |
| ClientExtractor.FindDay | src/hooks/useAIChat.tsx:441-443 | finds the first weekday named in a header, case-insensitively, or reports that none is named |
| ClientExtractor.HeaderInfo | src/hooks/useAIChat.tsx:422-431 | the header's information exists exactly when the header pattern matches, and is trimmed |
| ClientExtractor.SectionHeader | src/hooks/useAIChat.tsx:433-459 | the day is the first weekday named, or else the section's place in the week; the focus is never empty |
| ClientExtractor.ClientExercise | src/hooks/useAIChat.tsx:490-504 | the trimmed name, sets, reps and rest come from the match, and the instructions repeat the digits as written; the muscle group uses the client's keyword table and the type uses the shared classifier; no weight and no superset |
| ClientExtractor.LineExercise | src/hooks/useAIChat.tsx:474-510 | skipped lines give no exercise; a kept one matched the exercise pattern, has no weight or superset, and is classified with the client's keyword table |
| ClientExtractor.SectionExercises | src/hooks/useAIChat.tsx:464-511 | every exercise of a section is plain: no weight, no superset |
| ClientExtractor.ReadSection | src/hooks/useAIChat.tsx:464-511 | the lines loop yields exactly the section's specified exercises |
| ClientExtractor.SectionRoutine | src/hooks/useAIChat.tsx:421-523 | a section gives a routine exactly when its header matches: named by its number, on a weekday, with a focus and the section's exercises |
| ClientExtractor.ReadSectionRoutine | src/hooks/useAIChat.tsx:416-523 | one iteration of the sections loop builds the specified routine |
| ClientExtractor.RoutineExercisesPlain | src/hooks/useAIChat.tsx:490-506 | no exercise of any routine carries a weight or superset, and each is classified with the client's keyword table |
| ClientExtractor.ChatPlanClassifiedLikeServer | src/hooks/useAIChat.tsx:499-500 | an exercise of the chat screen's plan has the server classifier's muscle group whenever its name avoids `puxada`, `desenvolvimento` and `pull` |
| ClientExtractor.RoutinesNamedAndScheduled | src/hooks/useAIChat.tsx:433-523 | every routine is on a weekday, has a focus and is named after a section number |
| ClientExtractor.ReadSections | src/hooks/useAIChat.tsx:409-524 | the loop's routines are the specified ones, and its exercise list is their concatenation |
| ClientExtractor.ExtractWorkoutFromContent | src/hooks/useAIChat.tsx:313-547 | the plan keeps the cleaned content (a prefix of the message), its name, objective, duration and routines, and all their exercises in order, with no notes |
| ClientExtractor.FindWorkoutContent | src/hooks/useAIChat.tsx:235-243 | the content of the latest assistant message offering a workout, or empty when no message offers one |
| Conversion.NameMap.Set | src/services/aiWorkoutConversionService.ts:76-78 | a new key goes last and an existing key keeps its place; the map stays well formed |
| Conversion.NameMap.Values | src/services/aiWorkoutConversionService.ts:180 | the values are listed in key insertion order |
| Conversion.FindKnown | src/services/aiWorkoutConversionService.ts:50-52 | like `.find`: a found library exercise is the first with the name up to case; none is found only when no library exercise has it |
| Conversion.ProcessStepOutcomes | src/services/aiWorkoutConversionService.ts:46-79 | a known name is entered with the library's exercise, without requests; an unknown name already in the map changes nothing; otherwise the service asks for a video and then the exercise, and enters the answer under the lower-cased name, or leaves the map as it was when creation fails |
| Conversion.ProcessAllValues | src/services/aiWorkoutConversionService.ts:46-79 | every exercise in the map was there before, or was entered for a processed exercise with that lower-cased name: the library's exercise or the one `addExercise` answered |
| Conversion.ProcessAllKeys | src/services/aiWorkoutConversionService.ts:27-29 | processing a list keeps every mapped name and adds only names from the list |
| Conversion.KnownExercisesResolved | src/services/aiWorkoutConversionService.ts:50-77 | every exercise already in the library ends up in the map |
| Conversion.CreatesOnlyUnknown | src/services/aiWorkoutConversionService.ts:54-67 | exercises are created only for names the library does not know, with at most two requests per exercise |
| Conversion.RoutineExercisesOnlyWhenEmpty | src/services/aiWorkoutConversionService.ts:19-44 | routine exercises are processed only when the general list resolved nothing |
| Conversion.ValidAfterCreate | src/services/aiWorkoutConversionService.ts:19-44 | the name map built from a plan is well formed |
| Conversion.CreateExercisesValues | src/services/aiWorkoutConversionService.ts:19-44 | every exercise in the map built from a plan was entered for an exercise of the plan with that lower-cased name, from the library or from `addExercise` |
| Conversion.Entry | src/services/aiWorkoutConversionService.ts:137-145 | the id of the resolved exercise; sets, reps and rest as planned; weight 0 by default; the plan's superset group when it is non-zero, otherwise none |
| Conversion.NoEntriesIffNoneResolved | src/services/aiWorkoutConversionService.ts:133-149 | a routine has no entries exactly when none of its exercises were resolved |
| Conversion.EntriesAreResolved | src/services/aiWorkoutConversionService.ts:133-147 | the entries are those of the resolved exercises, in order |
| Conversion.DurationOr45 | src/services/aiWorkoutConversionService.ts:156 | the plan's duration when it is non-zero, and 45 when it is zero |
| Conversion.RoutineDraftFor | src/services/aiWorkoutConversionService.ts:150-158 | the plan routine's name, `focus - objective` as objective, the translated day, the given entries, the plan's notes or `Treino focado em` the focus, the duration with its default, and the program id |
| Conversion.CreateRoutine | src/services/aiWorkoutConversionService.ts:125-171 | a routine is requested exactly when some of its exercises resolve, and then it is the draft built from those entries; the answer is the backend's, and nothing is saved without a request |
| Conversion.FindInPlan | src/services/aiWorkoutConversionService.ts:181-183 | like `.find`: a found plan exercise is the first with the name up to case; none is found only when no plan exercise has it |
| Conversion.FallbackEntries | src/services/aiWorkoutConversionService.ts:178-196 | at most one entry per mapped exercise, each referring to a mapped exercise |
| Conversion.FallbackEntriesSound | src/services/aiWorkoutConversionService.ts:180-195 | each fallback entry is built from a mapped exercise and the first plan exercise with its name |
| Conversion.FallbackEntriesComplete | src/services/aiWorkoutConversionService.ts:180-195 | every mapped exercise that the plan's list names gets its entry |
| Conversion.FallbackEntriesNonEmpty | src/services/aiWorkoutConversionService.ts:180-198 | there are fallback entries exactly when the plan's list names a mapped exercise |
| Conversion.CreateFallback | src/services/aiWorkoutConversionService.ts:173-220 | no request when there are no entries; otherwise one request for the fallback routine |
| Conversion.RoutineFromDataSubmitsOnce | src/services/aiWorkoutConversionService.ts:149-170 | each routine of the plan makes at most one well-formed request |
| Conversion.LoopRequestsSubmittable | src/services/aiWorkoutConversionService.ts:108-113 | the routines loop makes at most one well-formed request per plan routine |
| Conversion.LoopKeepsAnswers | src/services/aiWorkoutConversionService.ts:108-113 | the routines kept are exactly the successful answers, in request order |
| Conversion.RoutinesAreSuccesses | src/services/aiWorkoutConversionService.ts:98-123 | routine creation makes well-formed requests only, and returns exactly the successful answers |
| Conversion.FallbackOnMonday | src/services/aiWorkoutConversionService.ts:114-120 | a plan without routines gets at most one routine, on Monday, using only mapped exercises |
| Conversion.FallbackHoldsNamedExercises | src/services/aiWorkoutConversionService.ts:173-220 | for a plan without routines, the fallback is requested exactly when a mapped exercise is named by the plan, and it holds the entry of every such exercise |
| Conversion.ProgramRequestFor | src/services/aiWorkoutConversionService.ts:81-88 | the plan's name, or `Programa IA - ` with the objective (or `Treino`) and the month; the plan's objective, or `Programa criado pela IA`; created by `ai` |
| Conversion.Convert | src/services/aiWorkoutConversionService.ts:223-245 | the program is always requested first. The conversion fails exactly when that request fails, and then nothing else is requested. Otherwise every routine request carries the new program's id, and the returned routines are exactly the successful `addRoutine` answers, in order |
| Conversion.ProcessAllRequestsExercises | src/services/aiWorkoutConversionService.ts:46-79 | processing exercises only searches videos and adds exercises |
| Conversion.ExercisesMakeNoRoutineRequests | src/services/aiWorkoutConversionService.ts:19-44 | creating the exercises never requests a routine |
| Conversion.ConversionService.constructor | src/services/aiWorkoutConversionService.ts:13-18 | a fresh service over its backend, with no requests yet |
| Conversion.ConversionService.ProcessExercise | src/services/aiWorkoutConversionService.ts:46-79 | the new map and the requests made are those of one processing step |
| Conversion.ConversionService.ProcessList | src/services/aiWorkoutConversionService.ts:27-29 | the loop's map and requests equal processing the list in order |
| Conversion.ConversionService.ProcessRoutines | src/services/aiWorkoutConversionService.ts:33-41 | processing the routines one by one equals processing all their exercises in order |
| Conversion.ConversionService.CreateExercisesFromWorkout | src/services/aiWorkoutConversionService.ts:19-44 | the map and requests are the specified ones |
| Conversion.ConversionService.CreateWorkoutProgram | src/services/aiWorkoutConversionService.ts:81-96 | one program request; the answer is the backend's |
| Conversion.ConversionService.CreateRoutineFromData | src/services/aiWorkoutConversionService.ts:125-171 | the routine and requests are the specified ones |
| Conversion.ConversionService.CreateFallbackRoutine | src/services/aiWorkoutConversionService.ts:173-220 | the fallback routine and requests are the specified ones |
| Conversion.ConversionService.CreateEachRoutine | src/services/aiWorkoutConversionService.ts:108-113 | the loop's routines and requests equal the specified ones |
| Conversion.ConversionService.CreateRoutinesFromWorkout | src/services/aiWorkoutConversionService.ts:98-123 | the routines and requests are the specified ones |
| Conversion.ConversionService.ConvertAIWorkoutToRoutines | src/services/aiWorkoutConversionService.ts:223-245 | the result and the requests equal the specified conversion |
| RoutinesService.ToRow | src/services/routinesService.ts:70-80 | the row carries the routine id, the position as order, and the exercise's values, with falsy optional values stored as null |
| RoutinesService.FromRow | src/services/routinesService.ts:25-33 | the read exercise takes the row's values, with weight and superset order 0 when falsy |
| RoutinesService.ExerciseRows | src/services/routinesService.ts:69-80 | one row per exercise, numbered by position |
| RoutinesService.RowRoundTrip | src/services/routinesService.ts:25-33 | writing an exercise and reading it back returns it, up to the falsy-to-default normalisation |
| RoutinesService.RowsOfSelects | src/services/routinesService.ts:17-21 | a routine's rows are exactly the rows with its id |
| RoutinesService.RowsOfAppend | src/services/routinesService.ts:17-21 | selecting distributes over concatenation |
| RoutinesService.InsertByOrder | src/services/routinesService.ts:21 | inserting adds exactly the one row |
| RoutinesService.InsertBounded | src/services/routinesService.ts:21 | inserting keeps an upper bound on the order |
| RoutinesService.InsertKeepsSorted | src/services/routinesService.ts:21 | inserting keeps the rows in order |
| RoutinesService.SortByOrder | src/services/routinesService.ts:21 | sorting gives a permutation in ascending order |
| RoutinesService.SortKeepsAscending | src/services/routinesService.ts:21 | rows already strictly ascending stay as they are |
| RoutinesService.FetchExercises | src/services/routinesService.ts:17-33 | one exercise per row of the routine |
| RoutinesService.WriteThenRead | src/services/routinesService.ts:69-87 | the exercises written for a new routine are read back in the same order |
| RoutinesService.OwnRows | src/services/routinesService.ts:17-21 | rows that all belong to the routine are all selected |
| RoutinesService.TextOrNone | src/services/routinesService.ts:95-97 | empty or missing text is read back as missing, any other text as itself |
| RoutinesService.RoutineFromRow | src/services/routinesService.ts:25-44 | a routine row reads back with its id, name, objective, days and duration, its exercise rows in order, and notes and program id kept only when not empty |
| RoutinesService.RoutinesOf | src/services/routinesService.ts:6-49 | exactly the user's rows are read back: each fetched routine is the reading of one of the user's rows, and every row of the user is fetched |
| RoutinesService.UpdatedRows | src/services/routinesService.ts:102-115 | only the user's row with the routine's id is rewritten |
| RoutinesService.RowsNotOf | src/services/routinesService.ts:118-123 | the delete removes exactly the routine's rows |
| RoutinesService.RowsNotOfKeepsOthers | src/services/routinesService.ts:118-123 | other routines' rows are untouched by the delete |
| RoutinesService.OtherRowsOf | src/services/routinesService.ts:126-137 | the rows written for one routine belong to no other |
| RoutinesService.UpdateReplacesList | src/services/routinesService.ts:101-145 | after an update other routines read the same rows, and the routine reads back its new list in order |
| RoutinesService.RoutineTables.constructor | src/services/routinesService.ts:5 | the tables start with the given rows |
| RoutinesService.RoutineTables.FetchRoutines | src/services/routinesService.ts:6-49 | fails exactly when the routines query, or the exercise query of one of the user's routines, reports an error. Otherwise each fetched routine is the reading of one of the user's rows, and every row of the user is fetched |
| RoutinesService.RoutineTables.CreateRoutine | src/services/routinesService.ts:51-99 | a failed routine insert changes nothing; otherwise the row is appended and its exercise rows follow unless that insert fails, and the result is the saved routine |
| RoutinesService.RoutineTables.UpdateRoutine | src/services/routinesService.ts:101-145 | a failed update changes nothing; otherwise the row is rewritten, the old exercise rows are deleted and the new ones inserted, with the error when a step fails |
| VideoCache.SizeIsKeyCount | src/services/youtubeService.ts:19 | the cache size is the number of distinct keys |
| VideoCache.Put | src/services/youtubeService.ts:49-57 | storing keeps the cache well formed |
| VideoCache.Search | src/services/youtubeService.ts:22-69 | a search keeps the cache well formed |
| VideoCache.CacheKeyIgnoresCaseAndSpace | src/services/youtubeService.ts:25 | names differing in case or surrounding space share a cache entry |
| VideoCache.HitSkipsSearch | src/services/youtubeService.ts:28-32 | a fresh entry is answered from the cache, which stays unchanged |
| VideoCache.MissWithoutVideoChangesNothing | src/services/youtubeService.ts:35-42 | a failed or empty search returns null and stores nothing |
| VideoCache.MissStoresFirstVideo | src/services/youtubeService.ts:44-62 | a search with results returns and caches the first video's url with the save time, and other entries are kept |
| VideoCache.PutKeepsKey | src/services/youtubeService.ts:49-57 | the stored key maps to the new entry, and the other surviving entries are unchanged |
| VideoCache.OverflowEvictsOldest | src/services/youtubeService.ts:55-57 | a new key stored in a full cache evicts exactly the oldest key |
| VideoCache.SearchKeepsBound | src/services/youtubeService.ts:44-57 | the cache never holds more than 100 entries |
| VideoCache.StatsListEveryEntry | src/services/youtubeService.ts:78-87 | the statistics list every cached entry once, with its url, and report their number |
| VideoCache.VideoCache.constructor | src/services/youtubeService.ts:19 | the cache starts empty |
| VideoCache.VideoCache.SearchVideo | src/services/youtubeService.ts:22-69 | the new cache and the answer are those of the specified search |
| VideoCache.VideoCache.ClearCache | src/services/youtubeService.ts:72-75 | the cache is empty afterwards |
| VideoCache.VideoCache.GetCacheStats | src/services/youtubeService.ts:78-87 | the statistics of the current cache |
| YoutubeSearch.FindPTIsIndexOf | supabase/functions/youtube-search/index.ts:89 | the unanchored match starts at the first `PT` |
| YoutubeSearch.EmptyLabelIffNoPT | supabase/functions/youtube-search/index.ts:89-90 | the label is empty exactly when the duration has no `PT` |
| YoutubeSearch.FormatDuration | supabase/functions/youtube-search/index.ts:88-101 | the method computes the specified label |
| YoutubeSearch.Pad2Pads | supabase/functions/youtube-search/index.ts:98 | padding left-fills with zeros to two characters and keeps the text |
| YoutubeSearch.GroupsOfTail | supabase/functions/youtube-search/index.ts:89-94 | the optional hour, minute and second groups read back the numbers written |
| YoutubeSearch.MatchIso | supabase/functions/youtube-search/index.ts:89-94 | matching an ISO-8601 duration recovers its hours, minutes and seconds |
| YoutubeSearch.LabelOfIso | supabase/functions/youtube-search/index.ts:88-101 | the label of an ISO-8601 duration: hours with a colon if present, then two-digit minutes and seconds |
| YoutubeSearch.FourMinutesThirteen | supabase/functions/youtube-search/index.ts:96-98 | four minutes thirteen seconds is `04:13` |
| YoutubeSearch.OneHourTwoMinutesThree | supabase/functions/youtube-search/index.ts:96-98 | one hour two minutes three seconds is `1:02:03` |
| YoutubeSearch.ToVideos | supabase/functions/youtube-search/index.ts:62-69 | one video per item, in order |
| YoutubeSearch.KeepEmbeddableSelects | supabase/functions/youtube-search/index.ts:61 | the filter keeps exactly the embeddable items |
| YoutubeSearch.KeepEmbeddableAppend | supabase/functions/youtube-search/index.ts:61 | the filter distributes over concatenation |
| YoutubeSearch.EmbeddableVideosAreEmbeddable | supabase/functions/youtube-search/index.ts:60-69 | every listed video comes from an embeddable item, with its watch url, and every embeddable item is listed |
| YoutubeSearch.JoinCommaEmpty | supabase/functions/youtube-search/index.ts:46-48 | the joined ids are empty exactly for no ids or a single empty id |
| YoutubeSearch.HandleOutcome | supabase/functions/youtube-search/index.ts:28-85 | videos exactly with a key and a successful search; none when there are no ids; otherwise the embeddable videos; every failure is a 500 |
| GymContext.ProgramRoutines | src/contexts/GymContext.tsx:144-146 | the filter keeps only the program's routines scheduled for today |
| GymContext.TodayRoutine | src/contexts/GymContext.tsx:122-149 | without an active program, the hook's answer; with one, only a routine of that program scheduled for today, and none on an unknown day |
| GymContext.ProgramRoutinesStartWithFirst | src/contexts/GymContext.tsx:144-148 | the filter is empty exactly when nothing qualifies, and otherwise starts with the first routine that does |
| GymContext.TodayRoutineIsFirstScheduled | src/contexts/GymContext.tsx:141-148 | today's routine is the first qualifying routine in list order, and there is none exactly when none qualifies |
| GymContext.DayKeyOfWeekdays | src/contexts/GymContext.tsx:131-141 | exactly the seven weekday names have a day key, each its unaccented short name |
| FileProcessing.Failure | src/services/fileProcessingService.ts:44-61 | a failure has its message and no content |
| FileProcessing.ProcessTextFile | src/services/fileProcessingService.ts:11-27 | success exactly when the text was read; then the text, the file's name and type `text`; otherwise the read error |
| FileProcessing.ProcessPdfFile | src/services/fileProcessingService.ts:30-35 | PDF processing always fails with the disabled message |
| FileProcessing.ProcessUploadedFile | src/services/fileProcessingService.ts:37-62 | a file over 5 MiB fails with the size error; success exactly for a readable text upload within the limit, carrying its text; every failure has an error and no content |
| FileProcessing.UploadErrors | src/services/fileProcessingService.ts:52-61 | the error for an unreadable text upload, for a PDF, and for any other type |
| FileProcessing.DispatchIgnoresCase | src/services/fileProcessingService.ts:38-39 | the dispatch does not depend on the case of the MIME type or the name |
| FileProcessing.FormatFileContentForAI | src/services/fileProcessingService.ts:64-74 | nothing for a failed or empty upload; otherwise the prompt built from the content |
| FileProcessing.PromptOnlyFromReadableText | src/services/fileProcessingService.ts:37-74 | a prompt comes only from a readable, non-empty text upload within the limit, and such an upload always gives one |
| GeneratorIndex.LastAssistant | supabase/functions/ai-workout-generator/index.ts:35-37 | the message found is the assistant's |
| GeneratorIndex.LastAssistantIsLatest | supabase/functions/ai-workout-generator/index.ts:35-37 | it is the latest assistant message, and there is none exactly when the assistant never spoke |
| GeneratorIndex.NoAssistantNoConfirmation | supabase/functions/ai-workout-generator/index.ts:35-40 | a history without assistant messages is never confirmed |
| GeneratorIndex.Forwarded | supabase/functions/ai-workout-generator/index.ts:58 | the last six messages, or all of them when there are fewer |
| GeneratorIndex.Turns | supabase/functions/ai-workout-generator/index.ts:58-61 | one chat turn per forwarded message, in order |
| GeneratorIndex.ModelRequestShape | supabase/functions/ai-workout-generator/index.ts:52-62 | the model gets the system prompt, the last at most six messages in order, then the user's message |
| GeneratorIndex.Handle | supabase/functions/ai-workout-generator/index.ts:18-97 | the reply is a 200 or the catch-all 500, and a generated workout never comes with a model call |
| GeneratorIndex.WorkoutGeneratedIffConfirmed | supabase/functions/ai-workout-generator/index.ts:35-46 | a workout is reported generated exactly for a well-formed `sim` after an offer, with the fixed reply |
| GeneratorIndex.ModelCalledUnlessConfirmed | supabase/functions/ai-workout-generator/index.ts:42-67 | the model is called, with those messages, exactly for a well-formed request that does not confirm |
| GeneratorIndex.FailuresAndEmptyAnswers | supabase/functions/ai-workout-generator/index.ts:18-97 | a 500 exactly for a missing key, body or message, or a model call that threw; an empty answer becomes the fixed error text |

## Left out

- Network and database access are left out. The Supabase tables, the language model, the YouTube API and the conversion backend appear only as their answers, passed in as parameters (`WriteErrors`, `ModelAnswer`, `SearchAnswer`, `Backend`).
- The HTTP framing of both edge functions is left out: `serve`, the CORS headers and the OPTIONS preflight are transport.
- `JSON.parse` of the fenced block in the server extractor is the `parseJson` parameter of `ServerExtractor.ExtractWorkoutData`. Its outcome, a plan or a thrown error, is all that the function uses.
- Parsing of the request body is left out: `req.json()` is given as its outcome (`GeneratorIndex.Handle`'s `body`). The YouTube endpoint does not model a body-parse failure, which ends in the same 500 as any other error.
- The clock and the locale are parameters: `Date.now()` in the video cache, today's weekday name in `getTodayRoutine`, and the month and year in the program name.
- The ISO date string of the cache statistics is left out. The entry's saved time is reported as a number.
- The search and details URLs, `encodeURIComponent` and `maxResults` are left out: they only build the request.
- Video titles, thumbnails and channel names are carried as plain fields.
- `createExerciseFromAI` is not part of this model, so it is the `Backend.fromAI` parameter.
- `mapDayToPortuguese` is not part of this model, so it is the `Backend.dayToPortuguese` parameter.
- `extractWorkoutInfoFromFile` and `generatePromptFromFileInfo` are not part of this model. They are the parameters of `FileProcessing.FormatFileContentForAI`.
- The system-prompt generator of the workout endpoint is not part of this model; the prompt text is a parameter.
- The `useRoutines` hook's own `getTodayRoutine` is not part of this model. It is the `fallback` parameter of `GymContext.TodayRoutine`.
- Case folding covers ASCII and Latin-1 letters only, through `Text.Lower`. JavaScript's full Unicode `toLowerCase` is not modelled.
- Regular expressions run on `Regex`, a backtracking matcher for the constructs the extractors use. It is not the JavaScript engine.
- `YoutubeSearch.FormatDuration` models its one pattern with a hand-written matcher.
- React state, toasts and navigation are left out; only the data each hook computes is modelled.
- RoutinesService.RoutinesOf: the `Promise.all` of `fetchRoutines` is left out. The exercises of each routine are read one routine at a time, and the result is the same because the reads do not change the tables.
- Console logging is left out: it has no effect on results.
- The `dayMap` lookup in `getTodayRoutine` answers only for the seven weekday names. JavaScript would also find inherited object keys such as `constructor`; a locale never prints those.
- VideoCache.Search: its own contract only states that the cache stays well formed; the hit, failed and successful searches are stated by VideoCache.HitSkipsSearch, VideoCache.MissWithoutVideoChangesNothing and VideoCache.MissStoresFirstVideo.
- VideoCache.Put: its own contract only states that the cache stays well formed; what it stores and evicts is stated by VideoCache.PutKeepsKey and VideoCache.OverflowEvictsOldest.
- ServerExtractor.DedupCI: its own contract only bounds the length; distinctness, coverage and first-occurrence are the lemmas beside it.
- RoutinesService.RoutineTables.FetchRoutines: the order of the routines, newest first by `created_at`, is taken as the reverse of the table's order, and is not stated in the contract.
- RoutinesService.RoutinesOf: the same newest-first order is not stated in its contract either.

=== FILE: client_extractor.dfy ===
/**
 * The chat screen's own extractor (`extractWorkoutFromContent`): the reply is
 * first cut short (notes sections, and everything after the closing
 * question), the plan fields are read with single patterns, and the text is
 * split into sections at each `**Treino N` heading; every section with a
 * header line gives one routine named after its position, and its exercise
 * lines (with an explicit rest) give its exercises. Unlike the server-side
 * extractor, it does not de-duplicate and never marks a superset.
 */
module ClientExtractor {
  import opened Common
  import opened Text
  import opened Regex
  import opened ExerciseUtils
  import opened Plan

  /** The words that end that question. */
  const Closing: string := "alteração primeiro."

  // ---------------------------------------------------------------------
  // Cleaning the reply
  // ---------------------------------------------------------------------

  /** The labels whose sections are removed, in the order they are removed. */
  const NoteLabels: seq<string> :=
    ["Observações:", "**Observações:**", "Dicas:", "**Dicas:**", "Notas:", "**Notas:**"]

  /**
   * `\n\s*<heading>` matches at `p`: a line break, then whitespace, then the
   * heading (which starts with a non-space character, so the whitespace run is
   * the longest one).
   */
  predicate SectionAt(s: string, heading: string, p: nat) {
    p < |s| && s[p] == '\n' && StartsWith(s[p + 1 + LeadingSpaces(s[p + 1..])..], heading)
  }

  /** The first position from `from` on where a notes section starts. */
  function SectionFrom(s: string, heading: string, from: nat): (r: Option<nat>)
    requires from <= |s|
    ensures r.Some? ==> from <= r.value < |s| && SectionAt(s, heading, r.value)
    ensures r.Some? ==> forall q :: from <= q < r.value ==> !SectionAt(s, heading, q)
    ensures r.None? ==> forall q :: from <= q < |s| ==> !SectionAt(s, heading, q)
    decreases |s| - from
  {
    if from == |s| then None
    else if SectionAt(s, heading, from) then Some(from)
    else
      var r := SectionFrom(s, heading, from + 1);
      assert forall q :: from + 1 <= q < |s| && r.None? ==> !SectionAt(s, heading, q);
      r
  }

  /**
   * `s.replace(/\n\s*<heading>.*$/gms, '')`: under the `s` flag `.*` runs to the
   * end of the text, so the first match removes everything from its line
   * break on, and there is nothing left to match.
   */
  function CutSection(s: string, heading: string): (r: string)
    ensures StartsWith(s, r)
    ensures (forall q :: 0 <= q < |s| ==> !SectionAt(s, heading, q)) ==> r == s
    ensures forall q :: 0 <= q < |r| ==> !SectionAt(s, heading, q)
    ensures r != s ==> SectionAt(s, heading, |r|)
  {
    match SectionFrom(s, heading, 0)
    case None => s
    case Some(p) => s[..p]
  }

  /** The notes sections removed, label after label. */
  function CutSections(s: string, labels: seq<string>): (r: string)
    ensures StartsWith(s, r)
    decreases |labels|
  {
    if labels == [] then s
    else
      var t := CutSection(s, labels[0]);
      var r := CutSections(t, labels[1..]);
      PrefixOfPrefix(s, t, r);
      r
  }

  /**
   * The text up to the end of `closing` when it occurs after the first
   * `question`; otherwise the text unchanged.
   */
  function CutAfterQuestion(s: string, question: string, closing: string): (r: string)
    ensures StartsWith(s, r)
    ensures IndexOf(s, question).Some? && Contains(s[IndexOf(s, question).value..], closing) ==> EndsWith(r, closing)
    ensures IndexOf(s, question).None? ==> r == s
  {
    match IndexOf(s, question)
    case None => s
    case Some(q) =>
      match IndexOf(s[q..], closing)
      case None => s
      case Some(e) =>
        assert s[q..][e..e + |closing|] == s[q + e..q + e + |closing|];
        s[..q + e + |closing|]
  }

  /** `cleanContent`: the notes sections removed, then the text after the closing question. */
  function CleanContent(content: string): (r: string)
    ensures StartsWith(content, r)
  {
    var t := CutSections(content, NoteLabels);
    var r := CutAfterQuestion(t, Marker, Closing);
    PrefixOfPrefix(content, t, r);
    r
  }

  /**
   * When the closing question and, after it, `alteração primeiro.` survive
   * the removal of the notes sections, the cleaned text ends with those words.
   */
  lemma CleanEndsWithClosing(content: string)
    requires IndexOf(CutSections(content, NoteLabels), Marker).Some?
    requires Contains(CutSections(content, NoteLabels)[IndexOf(CutSections(content, NoteLabels), Marker).value..], Closing)
    ensures EndsWith(CleanContent(content), Closing)
  {
  }

  // ---------------------------------------------------------------------
  // Plan fields
  // ---------------------------------------------------------------------

  /** `/\*\*<label>\*\*\s*(.+)/`: the rest of the line after a bold label. */
  function FieldPattern(heading: string): Re {
    Seq([Lit("**" + heading + "**", false), Ws, Capture(1, RestOfLine)])
  }

  /** The trimmed text after a bold label, `None` when the pattern does not match. */
  function Field(content: string, heading: string): Option<string> {
    match Exec(FieldPattern(heading), content)
    case None => None
    case Some(f) => Some(Trim(GroupText(content, f, 1)))
  }

  /** The plan name, `Treino Personalizado` without a name field. */
  function NameOf(content: string): (name: string)
    ensures Field(content, "Nome do Treino:").None? ==> name == "Treino Personalizado"
    ensures Field(content, "Nome do Treino:").Some? ==> name == Field(content, "Nome do Treino:").value
  {
    Field(content, "Nome do Treino:").GetOr("Treino Personalizado")
  }

  /** The objective, `''` without an objective field. */
  function ObjectiveOf(content: string): (objective: string)
    ensures Field(content, "Objetivo:").None? ==> objective == []
    ensures Field(content, "Objetivo:").Some? ==> objective == Field(content, "Objetivo:").value
  {
    Field(content, "Objetivo:").GetOr("")
  }

  /** The default duration text. */
  const DefaultDurationText: string := "45 minutos por sessão"

  /** The estimated duration: the first number of the duration text, 45 when it has none. */
  function DurationOf(content: string): (d: nat)
    ensures Field(content, "Duração:").Some? && FirstNumber(Field(content, "Duração:").value).Some? ==>
      d == FirstNumber(Field(content, "Duração:").value).value
    ensures Field(content, "Duração:").Some? && FirstNumber(Field(content, "Duração:").value).None? ==> d == 45
  {
    var text := Field(content, "Duração:").GetOr(DefaultDurationText);
    FirstNumber(text).GetOr(45)
  }

  /** Without a duration field the default text is read, and gives 45. */
  lemma DefaultDurationIs45(content: string)
    requires Field(content, "Duração:").None?
    ensures DurationOf(content) == 45
  {
    assert LeadingDigits(DefaultDurationText) == 2 by {
      assert LeadingDigits(DefaultDurationText[2..]) == 0;
      assert LeadingDigits(DefaultDurationText[1..]) == 1;
    }
    assert DefaultDurationText[..2] == "45";
    assert DecimalValue("45") == 45 by {
      assert "45"[..1] == "4";
      assert "4"[..0] == [];
    }
  }

  // ---------------------------------------------------------------------
  // The classifiers nested in the extractor
  // ---------------------------------------------------------------------

  /** The keywords of each group, as the chat screen tests them. */
  function ClientKeywords(g: MuscleGroup): seq<string> {
    match g
    case Peito => ["flexão", "supino", "peito"]
    case Pernas => ["agachamento", "leg press", "quadríceps", "perna"]
    case Biceps => ["bíceps", "rosca"]
    case Triceps => ["tríceps", "mergulho"]
    case Abdomen => ["abdomen", "prancha", "abdominal"]
    case Costas => ["costas", "remada", "puxada"]
    case Ombros => ["ombro", "elevação", "desenvolvimento"]
    case Panturrilha => ["panturrilha"]
    case Cardio => ["burpee", "cardio", "corrida"]
    case Geral => []
  }

  /** `mapMuscleGroupFromExerciseName` */
  function ClientMuscleGroup(exerciseName: string): (g: MuscleGroup)
    ensures g != Geral ==> ClientKeywordTest(Lower(exerciseName), g)
    ensures forall h: MuscleGroup :: h.Rank() < g.Rank() ==> !ClientKeywordTest(Lower(exerciseName), h)
  {
    var name := Lower(exerciseName);
    if Contains(name, "flexão") || Contains(name, "supino") || Contains(name, "peito") then Peito
    else if Contains(name, "agachamento") || Contains(name, "leg press") || Contains(name, "quadríceps") || Contains(name, "perna") then Pernas
    else if Contains(name, "bíceps") || Contains(name, "rosca") then Biceps
    else if Contains(name, "tríceps") || Contains(name, "mergulho") then Triceps
    else if Contains(name, "abdomen") || Contains(name, "prancha") || Contains(name, "abdominal") then Abdomen
    else if Contains(name, "costas") || Contains(name, "remada") || Contains(name, "puxada") then Costas
    else if Contains(name, "ombro") || Contains(name, "elevação") || Contains(name, "desenvolvimento") then Ombros
    else if Contains(name, "panturrilha") then Panturrilha
    else if Contains(name, "burpee") || Contains(name, "cardio") || Contains(name, "corrida") then Cardio
    else Geral
  }

  /** A group's keyword test spelled out as the disjunction the chat screen writes. */
  predicate ClientKeywordTest(name: string, g: MuscleGroup) {
    match g
    case Peito => Contains(name, "flexão") || Contains(name, "supino") || Contains(name, "peito")
    case Pernas => Contains(name, "agachamento") || Contains(name, "leg press") || Contains(name, "quadríceps") || Contains(name, "perna")
    case Biceps => Contains(name, "bíceps") || Contains(name, "rosca")
    case Triceps => Contains(name, "tríceps") || Contains(name, "mergulho")
    case Abdomen => Contains(name, "abdomen") || Contains(name, "prancha") || Contains(name, "abdominal")
    case Costas => Contains(name, "costas") || Contains(name, "remada") || Contains(name, "puxada")
    case Ombros => Contains(name, "ombro") || Contains(name, "elevação") || Contains(name, "desenvolvimento")
    case Panturrilha => Contains(name, "panturrilha")
    case Cardio => Contains(name, "burpee") || Contains(name, "cardio") || Contains(name, "corrida")
    case Geral => false
  }

  lemma ClientKeywordTestIsContainsAny(name: string, g: MuscleGroup)
    ensures ClientKeywordTest(name, g) <==> ContainsAny(name, ClientKeywords(g))
  {
    var kws := ClientKeywords(g);
    if |kws| > 0 { assert ContainsAny(name, kws) <==> Contains(name, kws[0]) || ContainsAny(name, kws[1..]); }
    if |kws| > 1 { assert ContainsAny(name, kws[1..]) <==> Contains(name, kws[1]) || ContainsAny(name, kws[2..]); }
    if |kws| > 2 { assert ContainsAny(name, kws[2..]) <==> Contains(name, kws[2]) || ContainsAny(name, kws[3..]); }
    if |kws| > 3 { assert ContainsAny(name, kws[3..]) <==> Contains(name, kws[3]) || ContainsAny(name, kws[4..]); }
    assert |kws| <= 4 ==> kws[|kws|..] == [];
  }

  /**
   * The groups are checked in order and the first with a keyword in the
   * lower-cased name wins; `Geral` exactly when no group has one.
   */
  lemma ClientMuscleGroupIsFirstMatch(exerciseName: string)
    ensures ClientMuscleGroup(exerciseName) != Geral ==>
      ContainsAny(Lower(exerciseName), ClientKeywords(ClientMuscleGroup(exerciseName)))
    ensures forall h: MuscleGroup :: h.Rank() < ClientMuscleGroup(exerciseName).Rank() ==>
      !ContainsAny(Lower(exerciseName), ClientKeywords(h))
  {
    var g := ClientMuscleGroup(exerciseName);
    ClientKeywordTestIsContainsAny(Lower(exerciseName), g);
    forall h: MuscleGroup | h.Rank() < g.Rank() ensures !ContainsAny(Lower(exerciseName), ClientKeywords(h)) {
      ClientKeywordTestIsContainsAny(Lower(exerciseName), h);
    }
  }

  /**
   * The two muscle-group classifiers differ only through `puxada` and
   * `desenvolvimento` (chat screen) and `pull` (server): on a name with none
   * of them they agree.
   */
  lemma ClassifiersAgreeWithoutDifferingKeywords(exerciseName: string)
    requires !Contains(Lower(exerciseName), "puxada") && !Contains(Lower(exerciseName), "desenvolvimento")
    requires !Contains(Lower(exerciseName), "pull")
    ensures ClientMuscleGroup(exerciseName) == DetermineMuscleGroup(exerciseName)
  {
  }

  // ---------------------------------------------------------------------
  // Sections and their headers
  // ---------------------------------------------------------------------

  /** `/\*\*Treino \d+/`: where the text is split into sections. */
  const SectionHeading: Re := Seq([Lit("**Treino ", false), Num])

  /** `/^[^:]*:\s*(.+)/`: the rest of the line after the first colon of a section. */
  const HeaderPattern: Re :=
    Seq([InputStart, Star(Char(NoneOf([':'])), true), Lit(":", false), Ws, Capture(1, RestOfLine)])

  /** `/^[:\s-]+|[:\s-]+$/g`: a run of colons, whitespace and hyphens at either end. */
  const EdgeRun: Re :=
    Alt(Cat(InputStart, Plus(Char(SpaceOr([':', '-'])), true)), Cat(Plus(Char(SpaceOr([':', '-'])), true), InputEnd))

  const DaysOfWeek: seq<string> := ["Segunda", "Terça", "Quarta", "Quinta", "Sexta", "Sábado", "Domingo"]

  /** `daysOfWeek.find(...)`, from index `d` on: the first weekday named in the header, ignoring case. */
  function FindDay(info: string, d: nat): (r: Option<nat>)
    requires d <= |DaysOfWeek|
    ensures r.Some? ==> d <= r.value < |DaysOfWeek| && Contains(Lower(info), Lower(DaysOfWeek[r.value]))
    ensures r.Some? ==> forall j :: d <= j < r.value ==> !Contains(Lower(info), Lower(DaysOfWeek[j]))
    ensures r.None? ==> forall j :: d <= j < |DaysOfWeek| ==> !Contains(Lower(info), Lower(DaysOfWeek[j]))
    decreases |DaysOfWeek| - d
  {
    if d == |DaysOfWeek| then None
    else if Contains(Lower(info), Lower(DaysOfWeek[d])) then Some(d)
    else FindDay(info, d + 1)
  }

  /** The routine name of section `i`: `Treino i`. */
  function RoutineName(i: nat): string {
    "Treino " + NatToString(i)
  }

  /** The text after the first colon of a section, trimmed and without `**`; `None` when there is no colon. */
  function HeaderInfo(section: string): (info: Option<string>)
    ensures info.None? <==> Exec(HeaderPattern, section).None?
    ensures info.Some? ==> IsTrimmed(info.value)
  {
    match Exec(HeaderPattern, section)
    case None => None
    case Some(f) =>
      var headerInfo := Trim(GroupText(section, f, 1));
      var cleanHeaderInfo := ReplaceAll(Lit("**", false), headerInfo, "");
      TrimIsTrimmed(cleanHeaderInfo);
      Some(Trim(cleanHeaderInfo))
  }

  /**
   * The day and focus the header of section `i` gives, `None` when the
   * section has no header line. The day is the first weekday named in the
   * header, else the weekdays in turn from Monday; the focus is the header
   * (without the weekday and the separators around it, when one was
   * named), or `Treino i` when that leaves nothing.
   */
  function SectionHeader(section: string, i: nat): (h: Option<(string, string)>)
    requires i >= 1
    ensures h.None? <==> HeaderInfo(section).None?
    ensures h.Some? ==> h.value.0 in DaysOfWeek && h.value.1 != []
    ensures h.Some? && FindDay(HeaderInfo(section).value, 0).Some? ==>
      h.value.0 == DaysOfWeek[FindDay(HeaderInfo(section).value, 0).value]
    ensures h.Some? && FindDay(HeaderInfo(section).value, 0).None? ==>
      h.value.0 == DaysOfWeek[(i - 1) % 7] && h.value.1 == OrDefault(HeaderInfo(section).value, RoutineName(i))
  {
    match HeaderInfo(section)
    case None => None
    case Some(info) =>
      var found := FindDay(info, 0);
      var day := if found.Some? then DaysOfWeek[found.value] else DaysOfWeek[(i - 1) % 7];
      var focus :=
        if found.Some? then Trim(ReplaceAll(EdgeRun, ReplaceAll(Lit(DaysOfWeek[found.value], true), info, ""), ""))
        else info;
      Some((day, OrDefault(focus, RoutineName(i))))
  }

  // ---------------------------------------------------------------------
  // Exercise lines
  // ---------------------------------------------------------------------

  /** Lines the loop passes over: blank, headings, notes, the closing question and filler phrases. */
  predicate Skipped(t: string) {
    || t == []
    || StartsWith(t, "**")
    || StartsWith(t, "Observações:")
    || StartsWith(t, "Dicas:")
    || StartsWith(t, "Notas:")
    || StartsWith(t, "\U{1F525}")
    || StartsWith(t, "Responda")
    || Contains(Lower(t), "importante manter")
    || Contains(Lower(t), "não se esqueça")
    || Contains(Lower(t), "escute seu corpo")
  }

  /** `/^(.+?)\s*-\s*(\d+)x(\d+)\s*-\s*(\d+)s?/`: name, sets, reps and a rest that must be there. */
  const ExercisePattern: Re :=
    Seq([InputStart, Capture(1, LazyText), Ws, Lit("-", false), Ws, Capture(2, Num), Lit("x", false),
         Capture(3, Num), Ws, Lit("-", false), Ws, Capture(4, Num), Opt(Lit("s", false), true)])

  /**
   * The exercise of a matched line. The instructions repeat the digits as
   * written; the weight is `null`, and no exercise is a superset item.
   */
  function ClientExercise(t: string, f: Found): (e: AIExercise)
    ensures e.weight.None? && e.supersetGroup.None? && e.supersetOrder == 0
    ensures e.name == Trim(GroupText(t, f, 1)) && e.restTime == DecimalValue(GroupText(t, f, 4))
    ensures e.sets == DecimalValue(GroupText(t, f, 2)) && e.reps == DecimalValue(GroupText(t, f, 3))
    ensures e.muscleGroup == ClientMuscleGroup(e.name) && e.exerciseType == DetermineExerciseType(e.name)
    ensures e.instructions == GroupText(t, f, 2) + " séries de " + GroupText(t, f, 3) + " repetições. Descanso: "
                              + GroupText(t, f, 4) + "s."
  {
    var name := Trim(GroupText(t, f, 1));
    var sets, reps, rest := GroupText(t, f, 2), GroupText(t, f, 3), GroupText(t, f, 4);
    AIExercise(name, DecimalValue(sets), DecimalValue(reps), DecimalValue(rest), None,
      ClientMuscleGroup(name), DetermineExerciseType(name),
      sets + " séries de " + reps + " repetições. Descanso: " + rest + "s.",
      None, 0)
  }

  /** The exercise a trimmed line yields, if any. */
  function LineExercise(t: string): (e: Option<AIExercise>)
    ensures Skipped(t) ==> e.None?
    ensures e.Some? ==> Exec(ExercisePattern, t).Some?
    ensures e.Some? ==> e.value.weight.None? && e.value.supersetGroup.None? && e.value.supersetOrder == 0
    ensures e.Some? ==> e.value.muscleGroup == ClientMuscleGroup(e.value.name)
    ensures e.Some? ==> e.value.exerciseType == DetermineExerciseType(e.value.name)
  {
    if Skipped(t) then None
    else match Exec(ExercisePattern, t)
      case None => None
      case Some(f) => Some(ClientExercise(t, f))
  }

  /**
   * An exercise as the chat screen builds it: no weight, not part of a
   * superset, and classified with the client's own keyword table.
   */
  predicate Plain(e: AIExercise) {
    && e.weight.None? && e.supersetGroup.None? && e.supersetOrder == 0
    && e.muscleGroup == ClientMuscleGroup(e.name) && e.exerciseType == DetermineExerciseType(e.name)
  }

  /** The exercises of the lines of a section, in order. */
  function SectionExercises(lines: seq<string>): (es: seq<AIExercise>)
    ensures forall e :: e in es ==> Plain(e)
  {
    if lines == [] then []
    else SectionExercises(lines[..|lines| - 1]) + OptionToSeq(LineExercise(Trim(lines[|lines| - 1])))
  }

  /** The inner loop: the exercises of one section's lines. */
  method ReadSection(lines: seq<string>) returns (exercises: seq<AIExercise>)
    ensures exercises == SectionExercises(lines)
  {
    exercises := [];
    for k := 0 to |lines|
      invariant exercises == SectionExercises(lines[..k])
    {
      assert lines[..k + 1][..k] == lines[..k];
      var trimmedLine := Trim(lines[k]);
      if Skipped(trimmedLine) {
        continue;
      }
      var exerciseMatch := Exec(ExercisePattern, trimmedLine);
      if exerciseMatch.Some? {
        exercises := exercises + [ClientExercise(trimmedLine, exerciseMatch.value)];
      }
    }
    assert lines[..|lines|] == lines;
  }

  // ---------------------------------------------------------------------
  // The extractor
  // ---------------------------------------------------------------------

  /** The result: the plan, with the cleaned text it was read from. */
  datatype ClientWorkout = ClientWorkout(plan: WorkoutPlan, fullContent: string)

  /** The routine section `i` yields: `None` when it has no header line. */
  function SectionRoutine(section: string, i: nat): (r: Option<AIRoutine>)
    requires i >= 1
    ensures r.None? <==> HeaderInfo(section).None?
    ensures r.Some? ==> r.value.name == RoutineName(i) && r.value.day in DaysOfWeek && r.value.focus != []
    ensures r.Some? ==> r.value.exercises == SectionExercises(SplitOn(section, '\n'))
  {
    match SectionHeader(section, i)
    case None => None
    case Some(h) => Some(AIRoutine(RoutineName(i), h.0, h.1, SectionExercises(SplitOn(section, '\n'))))
  }

  /** The routines of sections `1 .. n - 1`, in order: one per section that has a header line. */
  function SectionRoutines(sections: seq<string>, n: nat): (rs: seq<AIRoutine>)
    requires n <= |sections|
  {
    if n <= 1 then []
    else SectionRoutines(sections, n - 1) + OptionToSeq(SectionRoutine(sections[n - 1], n - 1))
  }

  /** One pass of the outer loop: the routine of section `i`, its lines read by the inner loop. */
  method ReadSectionRoutine(section: string, i: nat) returns (r: Option<AIRoutine>)
    requires i >= 1
    ensures r == SectionRoutine(section, i)
  {
    var header := SectionHeader(section, i);
    if header.None? {
      return None;
    }
    var exercises := ReadSection(SplitOn(section, '\n'));
    r := Some(AIRoutine(RoutineName(i), header.value.0, header.value.1, exercises));
  }

  /** No exercise of the chat screen's extraction carries a weight or a superset. */
  lemma {:induction false} RoutineExercisesPlain(sections: seq<string>, n: nat)
    requires n <= |sections|
    ensures forall e :: e in Flatten(SectionRoutines(sections, n)) ==> Plain(e)
  {
    if n > 1 {
      var i := n - 1;
      RoutineExercisesPlain(sections, i);
      var r := SectionRoutine(sections[i], i);
      if r.Some? {
        FlattenAppend(SectionRoutines(sections, i), r.value);
        forall e | e in r.value.exercises ensures Plain(e) {
          assert e in SectionExercises(SplitOn(sections[i], '\n'));
        }
      } else {
        assert SectionRoutines(sections, n) == SectionRoutines(sections, i);
      }
    }
  }

  /**
   * The chat screen's plan is classified with the client keyword table, so an
   * exercise's muscle group agrees with the server's classifier exactly when
   * the name avoids the keywords on which the two tables differ.
   */
  lemma ChatPlanClassifiedLikeServer(sections: seq<string>, n: nat, e: AIExercise)
    requires n <= |sections| && e in Flatten(SectionRoutines(sections, n))
    requires !Contains(Lower(e.name), "puxada") && !Contains(Lower(e.name), "desenvolvimento")
    requires !Contains(Lower(e.name), "pull")
    ensures e.muscleGroup == DetermineMuscleGroup(e.name)
  {
    RoutineExercisesPlain(sections, n);
    ClassifiersAgreeWithoutDifferingKeywords(e.name);
  }

  /**
   * Every routine is named `Treino i` after the section it was read from,
   * falls on a weekday and has a non-empty focus.
   */
  lemma {:induction false} RoutinesNamedAndScheduled(sections: seq<string>, n: nat)
    requires n <= |sections|
    ensures forall r :: r in SectionRoutines(sections, n) ==>
      r.day in DaysOfWeek && r.focus != [] && exists i :: 1 <= i < n && r.name == RoutineName(i)
  {
    if n > 1 {
      var i := n - 1;
      RoutinesNamedAndScheduled(sections, i);
      var before := SectionRoutines(sections, i);
      var r := SectionRoutine(sections[i], i);
      assert SectionRoutines(sections, n) == before + OptionToSeq(r);
      forall x | x in before + OptionToSeq(r)
        ensures x.day in DaysOfWeek && x.focus != [] && exists j :: 1 <= j < n && x.name == RoutineName(j)
      {
        if x in before {
          var j :| 1 <= j < i && x.name == RoutineName(j);
        } else {
          assert x == r.value;
        }
      }
    }
  }

  /** The outer loop: the routines of the sections after the first, and all their exercises in order. */
  method ReadSections(workoutSections: seq<string>) returns (routines: seq<AIRoutine>, allExercises: seq<AIExercise>)
    ensures routines == SectionRoutines(workoutSections, |workoutSections|)
    ensures allExercises == Flatten(routines)
  {
    routines, allExercises := [], [];
    if |workoutSections| > 0 {
      for i := 1 to |workoutSections|
        invariant routines == SectionRoutines(workoutSections, i)
        invariant allExercises == Flatten(routines)
      {
        var routine := ReadSectionRoutine(workoutSections[i], i);
        if routine.Some? {
          FlattenAppend(routines, routine.value);
          routines := routines + [routine.value];
          allExercises := allExercises + routine.value.exercises;
        }
      }
    }
  }

  /** `extractWorkoutFromContent` */
  method ExtractWorkoutFromContent(content: string) returns (w: ClientWorkout)
    ensures StartsWith(content, w.fullContent) && w.fullContent == CleanContent(content)
    ensures w.plan.name == NameOf(w.fullContent) && w.plan.objective == ObjectiveOf(w.fullContent)
    ensures w.plan.estimatedDuration == DurationOf(w.fullContent) && w.plan.notes == []
    ensures w.plan.routines == SectionRoutines(Split(SectionHeading, w.fullContent), |Split(SectionHeading, w.fullContent)|)
    ensures w.plan.exercises == Flatten(w.plan.routines)
  {
    var cleanContent := CleanContent(content);
    var name := NameOf(cleanContent);
    var objective := ObjectiveOf(cleanContent);
    var estimatedDuration := DurationOf(cleanContent);

    var workoutSections := Split(SectionHeading, cleanContent);
    var routines, allExercises := ReadSections(workoutSections);
    w := ClientWorkout(WorkoutPlan(name, objective, estimatedDuration, routines, allExercises, ""), cleanContent);
  }

  // ---------------------------------------------------------------------
  // Finding the plan to save
  // ---------------------------------------------------------------------

  /** An assistant message that offers a plan. */
  predicate OffersWorkout(m: ChatMessage) {
    m.role == Assistant && Contains(m.content, Marker)
  }

  /**
   * The backward search of the history: the content of the latest message
   * offering a plan, `''` when there is none.
   */
  method FindWorkoutContent(history: seq<ChatMessage>) returns (workoutContent: string)
    ensures (forall j :: 0 <= j < |history| ==> !OffersWorkout(history[j])) ==> workoutContent == []
    ensures (exists j :: 0 <= j < |history| && OffersWorkout(history[j])) ==>
      exists j :: 0 <= j < |history| && OffersWorkout(history[j]) && workoutContent == history[j].content
        && forall k :: j < k < |history| ==> !OffersWorkout(history[k])
  {
    workoutContent := [];
    var i := |history|;
    while i > 0
      invariant 0 <= i <= |history|
      invariant forall k :: i <= k < |history| ==> !OffersWorkout(history[k])
      invariant workoutContent == []
    {
      i := i - 1;
      if OffersWorkout(history[i]) {
        workoutContent := history[i].content;
        return;
      }
    }
  }
}

=== FILE: common.dfy ===
/** Small value types shared by every module of the model. */
module Common {

  /** An optional value: `undefined`/`null` on the JavaScript side. */
  datatype Option<+T> = None | Some(value: T) {
    function GetOr(default: T): T {
      match this
      case Some(v) => v
      case None => default
    }
  }

  /** The value of an operation that either succeeds or fails with a message. */
  datatype Result<+T> = Ok(value: T) | Err(message: string)

  /** `[x]` for `Some(x)`, `[]` for `None`. */
  function OptionToSeq<T>(o: Option<T>): (r: seq<T>)
    ensures |r| <= 1
    ensures o.None? ==> r == []
    ensures o.Some? ==> r == [o.value]
  {
    match o
    case None => []
    case Some(v) => [v]
  }

  /** Appending is associative; the solver does not find this by itself in large contexts. */
  lemma AppendAssoc<T>(a: seq<T>, b: seq<T>, c: seq<T>)
    ensures (a + b) + c == a + (b + c)
  {
  }
}

=== FILE: conversion.dfy ===
/**
 * The conversion service: turns an extracted plan into a training
 * program, the library exercises it needs and one saved routine per plan
 * routine. `createProgram`, `addExercise`, `addRoutine`, the video search
 * and the unseen helpers `createExerciseFromAI` / `mapDayToPortuguese` are
 * the service's `Backend`: functions whose answer `None` stands for a
 * thrown error or a falsy result. Every backend request the service makes
 * is recorded, in order, in `calls`.
 */
module Conversion {
  import opened Common
  import opened Text
  import opened Plan
  import opened RoutinesService

  /** A library exercise (`Exercise`). */
  datatype Exercise = Exercise(id: string, name: string, exerciseType: string, muscleGroup: string, video: Option<string>)

  /** The exercise `createExerciseFromAI` builds, before the library gives it an id. */
  datatype ExerciseDraft = ExerciseDraft(name: string, exerciseType: string, muscleGroup: string, video: Option<string>)

  datatype Program = Program(id: string, name: string, objective: string)

  /** The program `createProgram` is asked for; `created_by` is always `'ai'`. */
  datatype ProgramRequest = ProgramRequest(name: string, objective: string, createdBy: string)

  /** The routine `addRoutine` is asked for. */
  datatype RoutineDraft = RoutineDraft(
    name: string,
    objective: string,
    days: seq<string>,
    exercises: seq<RoutineExercise>,
    notes: string,
    estimatedDuration: nat,
    programId: string)

  /** One request to the backend. */
  datatype Call =
    | CreateProgram(program: ProgramRequest)
    | SearchVideo(name: string)
    | AddExercise(draft: ExerciseDraft)
    | AddRoutine(routine: RoutineDraft)

  /** What the service is built on (`createAIWorkoutConversionService`'s arguments and imports). */
  datatype Backend = Backend(
    known: seq<Exercise>,
    addExercise: ExerciseDraft -> Option<Exercise>,
    addRoutine: RoutineDraft -> Option<Routine>,
    createProgram: ProgramRequest -> Option<Program>,
    searchVideo: string -> Option<string>,
    fromAI: AIExercise -> ExerciseDraft,
    dayToPortuguese: string -> string)

  /** The result of a conversion: the program and the routines that were saved. */
  datatype Converted = Converted(program: Program, routines: seq<Routine>)

  // ---------------------------------------------------------------------
  // The name map: a JavaScript `Map`, iterated in insertion order
  // ---------------------------------------------------------------------

  datatype NameMap = NameMap(keys: seq<string>, entries: map<string, Exercise>) {
    /** Each key listed once, and exactly the keys of `entries`. */
    predicate Valid() {
      (forall i, j :: 0 <= i < j < |keys| ==> keys[i] != keys[j]) &&
      entries.Keys == set k | k in keys
    }

    /** `map.set(k, v)`: a new key goes last, an existing one keeps its place. */
    function Set(k: string, v: Exercise): (r: NameMap)
      ensures r.entries == entries[k := v]
      ensures r.keys == if k in entries then keys else keys + [k]
      ensures Valid() ==> r.Valid()
    {
      if k in entries then NameMap(keys, entries[k := v]) else NameMap(keys + [k], entries[k := v])
    }

    /** The values in insertion order. */
    function Values(): (vs: seq<Exercise>)
      requires Valid()
      ensures |vs| == |keys|
      ensures forall i :: 0 <= i < |keys| ==> vs[i] == entries[keys[i]]
    {
      seq(|keys|, i requires 0 <= i < |keys| && Valid() => entries[keys[i]])
    }
  }

  const EmptyMap := NameMap([], map[])

  // ---------------------------------------------------------------------
  // Exercises: processExercise and createExercisesFromWorkout
  // ---------------------------------------------------------------------

  /** `exercises.find(...)`: the first library exercise with the same lower-cased name. */
  function FindKnown(known: seq<Exercise>, name: string): (r: Option<Exercise>)
    ensures r.Some? ==> r.value in known && Lower(r.value.name) == Lower(name)
    ensures r.Some? ==> exists i :: 0 <= i < |known| && known[i] == r.value
                          && forall j :: 0 <= j < i ==> Lower(known[j].name) != Lower(name)
    ensures r.None? ==> forall x :: x in known ==> Lower(x.name) != Lower(name)
  {
    if known == [] then None
    else if Lower(known[0].name) == Lower(name) then Some(known[0])
    else
      var r := FindKnown(known[1..], name);
      assert forall x :: x in known ==> x == known[0] || x in known[1..];
      r
  }

  /** The draft `addExercise` is given: `createExerciseFromAI`'s, with the found video when there is one. */
  function Draft(b: Backend, e: AIExercise): ExerciseDraft {
    var d := b.fromAI(e);
    match b.searchVideo(d.name)
    case Some(url) => if url != [] then d.(video := Some(url)) else d
    case None => d
  }

  /**
   * `processExercise`: a known exercise is entered under the lower-cased
   * name; an unknown one not yet in the map is looked up on video and
   * created, and entered when creation succeeds.
   */
  function ProcessStep(b: Backend, m: NameMap, e: AIExercise): (NameMap, seq<Call>)
  {
    var key := Lower(e.name);
    match FindKnown(b.known, e.name)
    case Some(x) => (m.Set(key, x), [])
    case None =>
      if key in m.entries then (m, [])
      else
        var d := Draft(b, e);
        var calls := [SearchVideo(b.fromAI(e).name), AddExercise(d)];
        match b.addExercise(d)
        case None => (m, calls)
        case Some(x) => (m.Set(key, x), calls)
  }

  /**
   * `addExercise` is asked only for an exercise the library does not know
   * and the map does not hold, after a video search; a failed creation
   * leaves the map as it was and a successful one enters the new exercise
   * under the lower-cased name; an unknown name already in the map changes
   * nothing; the map gains at most the exercise's lower-cased name, and a
   * known exercise is always entered.
   */
  lemma ProcessStepOutcomes(b: Backend, m: NameMap, e: AIExercise)
    ensures var r := ProcessStep(b, m, e);
      (r.1 != [] ==> FindKnown(b.known, e.name).None? && Lower(e.name) !in m.entries &&
                     r.1 == [SearchVideo(b.fromAI(e).name), AddExercise(Draft(b, e))]) &&
      (r.1 == [] ==> Lower(e.name) in m.entries || FindKnown(b.known, e.name).Some?) &&
      (FindKnown(b.known, e.name).Some? ==> r.0.entries == m.entries[Lower(e.name) := FindKnown(b.known, e.name).value]) &&
      (r.1 != [] && b.addExercise(Draft(b, e)).None? ==> r.0 == m) &&
      (r.1 != [] && b.addExercise(Draft(b, e)).Some? ==>
         r.0.entries == m.entries[Lower(e.name) := b.addExercise(Draft(b, e)).value]) &&
      (FindKnown(b.known, e.name).None? && Lower(e.name) in m.entries ==> r == (m, [])) &&
      (r.0.keys == m.keys || r.0.keys == m.keys + [Lower(e.name)])
  {
  }

  /** `processExercise` over a list, in order. */
  function ProcessAll(b: Backend, m: NameMap, es: seq<AIExercise>): (NameMap, seq<Call>) {
    if es == [] then (m, [])
    else
      var before := ProcessAll(b, m, es[..|es| - 1]);
      var step := ProcessStep(b, before.0, es[|es| - 1]);
      (step.0, before.1 + step.1)
  }

  /**
   * The map keeps its shape, only gains keys, and every key it gains is
   * the lower-cased name of a processed exercise.
   */
  lemma {:induction false} ProcessAllKeys(b: Backend, m: NameMap, es: seq<AIExercise>)
    requires m.Valid()
    ensures ProcessAll(b, m, es).0.Valid()
    ensures forall k :: k in m.entries ==> k in ProcessAll(b, m, es).0.entries
    ensures forall k :: k in ProcessAll(b, m, es).0.entries ==>
      k in m.entries || exists j :: 0 <= j < |es| && k == Lower(es[j].name)
  {
    if es != [] {
      var init := es[..|es| - 1];
      ProcessAllKeys(b, m, init);
      var before := ProcessAll(b, m, init).0;
      forall k | k in ProcessAll(b, m, es).0.entries
        ensures k in m.entries || exists j :: 0 <= j < |es| && k == Lower(es[j].name)
      {
        if k !in before.entries {
          assert k == Lower(es[|es| - 1].name);
        } else if k !in m.entries {
          var j :| 0 <= j < |init| && k == Lower(init[j].name);
          assert es[j] == init[j];
        }
      }
    }
  }

  /** `x` is what processing `e` enters: the library's exercise, or the one `addExercise` answered. */
  predicate EnteredFor(b: Backend, e: AIExercise, x: Exercise) {
    FindKnown(b.known, e.name) == Some(x) || (FindKnown(b.known, e.name).None? && b.addExercise(Draft(b, e)) == Some(x))
  }

  /**
   * Every exercise the map holds at the end was there from the start, or
   * was entered for a processed exercise with that lower-cased name: the
   * library's exercise, or the one `addExercise` answered.
   */
  lemma {:induction false} ProcessAllValues(b: Backend, m: NameMap, es: seq<AIExercise>)
    ensures var r := ProcessAll(b, m, es).0;
      forall k :: k in r.entries ==>
        (k in m.entries && r.entries[k] == m.entries[k]) ||
        (exists j :: 0 <= j < |es| && k == Lower(es[j].name) && EnteredFor(b, es[j], r.entries[k]))
  {
    if es != [] {
      var init, e := es[..|es| - 1], es[|es| - 1];
      ProcessAllValues(b, m, init);
      var before := ProcessAll(b, m, init).0;
      var r := ProcessAll(b, m, es).0;
      ProcessStepOutcomes(b, before, e);
      forall k | k in r.entries
        ensures (k in m.entries && r.entries[k] == m.entries[k]) ||
                (exists j :: 0 <= j < |es| && k == Lower(es[j].name) && EnteredFor(b, es[j], r.entries[k]))
      {
        if k == Lower(e.name) && (k !in before.entries || r.entries[k] != before.entries[k]) {
          assert EnteredFor(b, es[|es| - 1], r.entries[k]);
        } else {
          assert k in before.entries && r.entries[k] == before.entries[k];
          if !(k in m.entries && r.entries[k] == m.entries[k]) {
            var j :| 0 <= j < |init| && k == Lower(init[j].name) && EnteredFor(b, init[j], before.entries[k]);
            assert es[j] == init[j];
          }
        }
      }
    }
  }

  /** Every processed exercise the library knows ends up in the map. */
  lemma {:induction false} KnownExercisesResolved(b: Backend, m: NameMap, es: seq<AIExercise>)
    requires m.Valid()
    ensures forall j :: 0 <= j < |es| && FindKnown(b.known, es[j].name).Some? ==>
      Lower(es[j].name) in ProcessAll(b, m, es).0.entries
  {
    if es != [] {
      var init := es[..|es| - 1];
      KnownExercisesResolved(b, m, init);
      ProcessAllKeys(b, m, init);
      var before := ProcessAll(b, m, init).0;
      forall j | 0 <= j < |es| && FindKnown(b.known, es[j].name).Some?
        ensures Lower(es[j].name) in ProcessAll(b, m, es).0.entries
      {
        if j < |init| {
          assert es[j] == init[j];
          assert Lower(es[j].name) in before.entries;
        }
      }
    }
  }

  /**
   * `addExercise` is only asked for exercises of the list that the library
   * does not know, each at most once per occurrence, and each request
   * follows a video search for the draft's name.
   */
  lemma {:induction false} CreatesOnlyUnknown(b: Backend, m: NameMap, es: seq<AIExercise>)
    ensures forall d :: AddExercise(d) in ProcessAll(b, m, es).1 ==>
      exists j :: 0 <= j < |es| && d == Draft(b, es[j]) && FindKnown(b.known, es[j].name).None?
    ensures |ProcessAll(b, m, es).1| <= 2 * |es|
  {
    if es != [] {
      var init := es[..|es| - 1];
      CreatesOnlyUnknown(b, m, init);
      var before := ProcessAll(b, m, init);
      var step := ProcessStep(b, before.0, es[|es| - 1]);
      forall d | AddExercise(d) in ProcessAll(b, m, es).1
        ensures exists j :: 0 <= j < |es| && d == Draft(b, es[j]) && FindKnown(b.known, es[j].name).None?
      {
        if AddExercise(d) in before.1 {
          var j :| 0 <= j < |init| && d == Draft(b, init[j]) && FindKnown(b.known, init[j].name).None?;
          assert es[j] == init[j];
        } else {
          assert AddExercise(d) in step.1;
          assert d == Draft(b, es[|es| - 1]);
        }
      }
    }
  }

  /** `createExercisesFromWorkout`: the general list first, then maybe the routines' exercises. */
  function CreateExercises(b: Backend, w: WorkoutPlan): (NameMap, seq<Call>) {
    var general := if |w.exercises| > 0 then ProcessAll(b, EmptyMap, w.exercises) else (EmptyMap, []);
    if |general.0.keys| == 0 then
      var fromRoutines := ProcessAll(b, general.0, Flatten(w.routines));
      (fromRoutines.0, general.1 + fromRoutines.1)
    else general
  }

  /**
   * The routines' exercises are processed only when the general list left
   * the map empty, and then as if the general list had not been there.
   */
  lemma RoutineExercisesOnlyWhenEmpty(b: Backend, w: WorkoutPlan)
    ensures ProcessAll(b, EmptyMap, w.exercises).0.keys != [] ==> CreateExercises(b, w) == ProcessAll(b, EmptyMap, w.exercises)
    ensures ProcessAll(b, EmptyMap, w.exercises).0.keys == [] ==>
      CreateExercises(b, w).0 == ProcessAll(b, EmptyMap, Flatten(w.routines)).0
  {
    ProcessAllKeys(b, EmptyMap, w.exercises);
    if ProcessAll(b, EmptyMap, w.exercises).0.keys == [] {
      assert ProcessAll(b, EmptyMap, w.exercises).0 == EmptyMap;
    }
  }

  // ---------------------------------------------------------------------
  // Routines: createRoutineFromData, createFallbackRoutine, createRoutinesFromWorkout
  // ---------------------------------------------------------------------

  /** The routine entry of an exercise resolved to `x`: weight and superset order default to `0`. */
  function Entry(e: AIExercise, x: Exercise): (r: RoutineExercise)
    ensures r.exerciseId == x.id && r.sets == e.sets && r.reps == e.reps && r.restTime == e.restTime
    ensures r.weight == Some(if e.weight.None? then 0 else e.weight.value)
    ensures r.supersetGroup.None? <==> e.supersetGroup.None? || e.supersetGroup.value == 0
    ensures r.supersetGroup.Some? ==> r.supersetGroup.value == e.supersetGroup.value
    ensures r.supersetOrder == Some(e.supersetOrder)
  {
    RoutineExercise(x.id, e.sets, e.reps, Some(if e.weight.None? then 0 else e.weight.value), e.restTime,
      if e.supersetGroup.None? || e.supersetGroup.value == 0 then None else Some(e.supersetGroup.value),
      Some(e.supersetOrder))
  }

  /** The entries of a routine's exercises that the map resolves, in routine order. */
  function Entries(es: seq<AIExercise>, m: NameMap): (r: seq<RoutineExercise>)
    ensures |r| <= |es|
  {
    if es == [] then []
    else
      var init := es[..|es| - 1];
      var e := es[|es| - 1];
      var r := Entries(init, m) + (if Lower(e.name) in m.entries then [Entry(e, m.entries[Lower(e.name)])] else []);
      assert forall j :: 0 <= j < |init| ==> init[j] == es[j];
      r
  }

  /** A routine gets no entries exactly when none of its exercises is in the map. */
  lemma {:induction false} NoEntriesIffNoneResolved(es: seq<AIExercise>, m: NameMap)
    ensures Entries(es, m) == [] <==> forall j :: 0 <= j < |es| ==> Lower(es[j].name) !in m.entries
  {
    if es != [] {
      var init := es[..|es| - 1];
      NoEntriesIffNoneResolved(init, m);
      assert forall j :: 0 <= j < |init| ==> init[j] == es[j];
    }
  }

  /** Entries keep exactly the resolved exercises, in order, each pointing at the map's exercise. */
  lemma {:induction false} EntriesAreResolved(es: seq<AIExercise>, m: NameMap)
    ensures Entries(es, m) == ResolvedEntries(es, m)
  {
    if es != [] {
      EntriesAreResolved(es[..|es| - 1], m);
    }
  }

  /** The same entries, as a filter followed by a map. */
  function ResolvedEntries(es: seq<AIExercise>, m: NameMap): seq<RoutineExercise> {
    var kept := Resolved(es, m);
    seq(|kept|, i requires 0 <= i < |kept| => Entry(kept[i], m.entries[Lower(kept[i].name)]))
  }

  /** The exercises the map resolves, in order. */
  function Resolved(es: seq<AIExercise>, m: NameMap): (r: seq<AIExercise>)
    ensures forall e :: e in r ==> Lower(e.name) in m.entries
  {
    if es == [] then []
    else Resolved(es[..|es| - 1], m) + (if Lower(es[|es| - 1].name) in m.entries then [es[|es| - 1]] else [])
  }

  /** `workoutData.estimatedDuration || 45` */
  function DurationOr45(w: WorkoutPlan): (d: nat)
    ensures d > 0
    ensures w.estimatedDuration != 0 ==> d == w.estimatedDuration
    ensures w.estimatedDuration == 0 ==> d == 45
  {
    if w.estimatedDuration == 0 then 45 else w.estimatedDuration
  }

  /** The routine submitted for one routine of the plan. */
  function RoutineDraftFor(b: Backend, rd: AIRoutine, w: WorkoutPlan, entries: seq<RoutineExercise>, programId: string): (d: RoutineDraft)
    ensures d.name == rd.name && d.objective == rd.focus + " - " + w.objective
    ensures d.days == [b.dayToPortuguese(rd.day)] && d.exercises == entries
    ensures w.notes != [] ==> d.notes == w.notes
    ensures w.notes == [] ==> d.notes == "Treino focado em " + rd.focus
    ensures d.estimatedDuration == DurationOr45(w) && d.programId == programId
  {
    RoutineDraft(rd.name, rd.focus + " - " + w.objective, [b.dayToPortuguese(rd.day)], entries,
      OrDefault(w.notes, "Treino focado em " + rd.focus), DurationOr45(w), programId)
  }

  /** `createRoutineFromData`: nothing is submitted for a routine none of whose exercises resolved. */
  function CreateRoutine(b: Backend, rd: AIRoutine, w: WorkoutPlan, m: NameMap, programId: string): (r: (Option<Routine>, seq<Call>))
    ensures |r.1| <= 1
    ensures forall c :: c in r.1 ==> c.AddRoutine? && Submittable(c.routine, programId)
    ensures r.1 == [] <==> Entries(rd.exercises, m) == []
    ensures r.1 == [] ==> r.0.None?
    ensures r.1 != [] ==> r.1[0].routine == RoutineDraftFor(b, rd, w, Entries(rd.exercises, m), programId)
    ensures r.1 != [] ==> r.0 == b.addRoutine(r.1[0].routine)
  {
    var entries := Entries(rd.exercises, m);
    if |entries| > 0 then
      var draft := RoutineDraftFor(b, rd, w, entries, programId);
      (b.addRoutine(draft), [AddRoutine(draft)])
    else (None, [])
  }

  /** `workoutData.exercises?.find(...)`: the first plan exercise with the same lower-cased name. */
  function FindInPlan(es: seq<AIExercise>, name: string): (r: Option<AIExercise>)
    ensures r.Some? ==> r.value in es && Lower(r.value.name) == Lower(name)
    ensures r.Some? ==> exists i :: 0 <= i < |es| && es[i] == r.value
                          && forall j :: 0 <= j < i ==> Lower(es[j].name) != Lower(name)
    ensures r.None? ==> forall e :: e in es ==> Lower(e.name) != Lower(name)
  {
    if es == [] then None
    else if Lower(es[0].name) == Lower(name) then Some(es[0])
    else
      var r := FindInPlan(es[1..], name);
      assert forall e :: e in es ==> e == es[0] || e in es[1..];
      r
  }

  /** The fallback routine's entries: each map value, in insertion order, that the plan's list names. */
  function FallbackEntries(values: seq<Exercise>, es: seq<AIExercise>): (r: seq<RoutineExercise>)
    ensures |r| <= |values|
    ensures forall x :: x in r ==> exists j :: 0 <= j < |values| && x.exerciseId == values[j].id
  {
    if values == [] then []
    else
      var init := values[..|values| - 1];
      var x := values[|values| - 1];
      var r := FallbackEntries(init, es) + (match FindInPlan(es, x.name) case Some(e) => [Entry(e, x)] case None => []);
      assert forall j :: 0 <= j < |init| ==> init[j] == values[j];
      r
  }

  /** One more map value of the fallback loop: its entry, if the plan names it, comes last. */
  lemma FallbackEntriesNext(values: seq<Exercise>, es: seq<AIExercise>, i: nat)
    requires i < |values|
    ensures FallbackEntries(values[..i + 1], es)
         == FallbackEntries(values[..i], es) + (match FindInPlan(es, values[i].name) case Some(e) => [Entry(e, values[i])] case None => [])
  {
    assert values[..i + 1][..i] == values[..i];
  }

  /** Each fallback entry is the entry of a map value the plan's list names, built from the first plan exercise with that name. */
  lemma {:induction false} FallbackEntriesSound(values: seq<Exercise>, es: seq<AIExercise>)
    ensures forall x :: x in FallbackEntries(values, es) ==>
      (exists j :: 0 <= j < |values| && FindInPlan(es, values[j].name).Some?
         && x == Entry(FindInPlan(es, values[j].name).value, values[j]))
  {
    if values != [] {
      var init := values[..|values| - 1];
      var last := values[|values| - 1];
      FallbackEntriesSound(init, es);
      var before := FallbackEntries(init, es);
      var added := match FindInPlan(es, last.name) case Some(e) => [Entry(e, last)] case None => [];
      assert FallbackEntries(values, es) == before + added;
      forall x | x in FallbackEntries(values, es)
        ensures exists j :: (0 <= j < |values| && FindInPlan(es, values[j].name).Some?
                             && x == Entry(FindInPlan(es, values[j].name).value, values[j]))
      {
        if x in before {
          var j :| 0 <= j < |init| && FindInPlan(es, init[j].name).Some?
            && x == Entry(FindInPlan(es, init[j].name).value, init[j]);
          assert init[j] == values[j];
        } else {
          assert x in added;
          assert values[|values| - 1] == last;
        }
      }
    }
  }

  /** Every map value the plan's list names has its entry among the fallback entries. */
  lemma {:induction false} FallbackEntriesComplete(values: seq<Exercise>, es: seq<AIExercise>)
    ensures forall j :: 0 <= j < |values| && FindInPlan(es, values[j].name).Some? ==>
      Entry(FindInPlan(es, values[j].name).value, values[j]) in FallbackEntries(values, es)
  {
    if values != [] {
      var init := values[..|values| - 1];
      var last := values[|values| - 1];
      FallbackEntriesComplete(init, es);
      var before := FallbackEntries(init, es);
      var added := match FindInPlan(es, last.name) case Some(e) => [Entry(e, last)] case None => [];
      assert FallbackEntries(values, es) == before + added;
      forall j | 0 <= j < |values| && FindInPlan(es, values[j].name).Some?
        ensures Entry(FindInPlan(es, values[j].name).value, values[j]) in before + added
      {
        if j < |init| {
          assert init[j] == values[j];
          assert Entry(FindInPlan(es, init[j].name).value, init[j]) in before;
        } else {
          assert values[j] == last;
        }
      }
    }
  }

  /** There are fallback entries exactly when the plan's list names one of the values. */
  lemma FallbackEntriesNonEmpty(values: seq<Exercise>, es: seq<AIExercise>)
    ensures FallbackEntries(values, es) != [] <==>
      exists j :: 0 <= j < |values| && FindInPlan(es, values[j].name).Some?
  {
    FallbackEntriesComplete(values, es);
    if FallbackEntries(values, es) != [] {
      FallbackEntriesSound(values, es);
      assert FallbackEntries(values, es)[0] in FallbackEntries(values, es);
    }
  }

  /** The fallback routine: on Monday, named after the plan. */
  function FallbackDraft(w: WorkoutPlan, entries: seq<RoutineExercise>, programId: string): RoutineDraft {
    RoutineDraft(OrDefault(w.name, "Treino da IA"), OrDefault(w.objective, "Treino personalizado"), ["segunda"],
      entries, OrDefault(w.notes, "Treino criado pela IA"), DurationOr45(w), programId)
  }

  /** `createFallbackRoutine` */
  function CreateFallback(b: Backend, w: WorkoutPlan, m: NameMap, programId: string): (r: (Option<Routine>, seq<Call>))
    requires m.Valid()
    ensures |r.1| <= 1
    ensures FallbackEntries(m.Values(), w.exercises) == [] ==> r == (None, [])
    ensures FallbackEntries(m.Values(), w.exercises) != [] ==>
      r.1 == [AddRoutine(FallbackDraft(w, FallbackEntries(m.Values(), w.exercises), programId))]
    ensures r.1 != [] ==> r.0 == b.addRoutine(r.1[0].routine)
  {
    var entries := FallbackEntries(m.Values(), w.exercises);
    if |entries| > 0 then
      var draft := FallbackDraft(w, entries, programId);
      (b.addRoutine(draft), [AddRoutine(draft)])
    else (None, [])
  }

  /** What one plan routine gives: the saved routine, if any, and the requests made for it. */
  type RoutineStep = AIRoutine -> (Option<Routine>, seq<Call>)

  /** `createRoutineFromData` for a fixed plan, map and program. */
  function RoutineFromData(b: Backend, w: WorkoutPlan, m: NameMap, programId: string): RoutineStep {
    rd => CreateRoutine(b, rd, w, m, programId)
  }

  /** The loop of `createRoutinesFromWorkout`: `step` on each routine in turn, keeping the successes in order. */
  function CreateRoutines(step: RoutineStep, rs: seq<AIRoutine>): (seq<Routine>, seq<Call>) {
    if rs == [] then ([], [])
    else
      var before := CreateRoutines(step, rs[..|rs| - 1]);
      var s := step(rs[|rs| - 1]);
      (before.0 + OptionToSeq(s.0), before.1 + s.1)
  }

  /** One more routine of the loop: its success, if any, and its requests come last. */
  lemma CreateRoutinesNext(step: RoutineStep, rs: seq<AIRoutine>, i: nat)
    requires i < |rs|
    ensures CreateRoutines(step, rs[..i + 1]).0 == CreateRoutines(step, rs[..i]).0 + OptionToSeq(step(rs[i]).0)
    ensures CreateRoutines(step, rs[..i + 1]).1 == CreateRoutines(step, rs[..i]).1 + step(rs[i]).1
  {
    assert rs[..i + 1][..i] == rs[..i];
  }

  /** `createRoutinesFromWorkout`: the fallback routine only for a plan without routines. */
  function CreateAllRoutines(b: Backend, w: WorkoutPlan, m: NameMap, programId: string): (r: (seq<Routine>, seq<Call>))
    requires m.Valid()
  {
    if |w.routines| > 0 then CreateRoutines(RoutineFromData(b, w, m, programId), w.routines)
    else
      var fallback := CreateFallback(b, w, m, programId);
      (OptionToSeq(fallback.0), fallback.1)
  }

  /** A routine request the service may make: for the program, with exercises and a duration. */
  predicate Submittable(d: RoutineDraft, programId: string) {
    d.programId == programId && d.exercises != [] && d.estimatedDuration > 0
  }

  /** The routines `addRoutine` returned for the requests in `calls`, in order. */
  function Answers(b: Backend, calls: seq<Call>): seq<Routine> {
    if calls == [] then []
    else
      Answers(b, calls[..|calls| - 1])
        + (match calls[|calls| - 1] case AddRoutine(d) => OptionToSeq(b.addRoutine(d)) case _ => [])
  }

  /** A step that makes at most one submittable request and keeps exactly its answer. */
  ghost predicate SubmitsOnce(b: Backend, step: RoutineStep, programId: string) {
    forall rd :: |step(rd).1| <= 1 &&
      (forall c :: c in step(rd).1 ==> c.AddRoutine? && Submittable(c.routine, programId)) &&
      Answers(b, step(rd).1) == OptionToSeq(step(rd).0)
  }

  /** `createRoutineFromData` is such a step. */
  lemma RoutineFromDataSubmitsOnce(b: Backend, w: WorkoutPlan, m: NameMap, programId: string)
    ensures SubmitsOnce(b, RoutineFromData(b, w, m, programId), programId)
  {
    forall rd: AIRoutine
      ensures Answers(b, CreateRoutine(b, rd, w, m, programId).1) == OptionToSeq(CreateRoutine(b, rd, w, m, programId).0)
    {
      var r := CreateRoutine(b, rd, w, m, programId);
      AnswerOfStep(b, r.1, r.0);
    }
  }

  lemma AnswerOfStep(b: Backend, calls: seq<Call>, answer: Option<Routine>)
    requires |calls| <= 1
    requires calls == [] ==> answer.None?
    requires calls != [] ==> calls[0].AddRoutine? && answer == b.addRoutine(calls[0].routine)
    ensures Answers(b, calls) == OptionToSeq(answer)
  {
    if calls != [] {
      assert calls[..0] == [];
    }
  }

  /** Over a loop of such steps: at most one request and one saved routine per plan routine, all submittable. */
  lemma {:induction false} LoopRequestsSubmittable(b: Backend, step: RoutineStep, rs: seq<AIRoutine>, programId: string)
    requires SubmitsOnce(b, step, programId)
    ensures |CreateRoutines(step, rs).0| <= |rs|
    ensures |CreateRoutines(step, rs).1| <= |rs|
    ensures forall c :: c in CreateRoutines(step, rs).1 ==> c.AddRoutine? && Submittable(c.routine, programId)
  {
    if rs != [] {
      var init := rs[..|rs| - 1];
      LoopRequestsSubmittable(b, step, init, programId);
      var before := CreateRoutines(step, init);
      var s := step(rs[|rs| - 1]);
      forall c | c in before.1 + s.1 ensures c.AddRoutine? && Submittable(c.routine, programId) {
        assert c in before.1 || c in s.1;
      }
    }
  }

  /** Over a loop of such steps the saved routines are exactly the answers to the requests, in order. */
  lemma {:induction false} LoopKeepsAnswers(b: Backend, step: RoutineStep, rs: seq<AIRoutine>, programId: string)
    requires SubmitsOnce(b, step, programId)
    ensures CreateRoutines(step, rs).0 == Answers(b, CreateRoutines(step, rs).1)
  {
    if rs != [] {
      var init := rs[..|rs| - 1];
      LoopKeepsAnswers(b, step, init, programId);
      var before := CreateRoutines(step, init);
      var s := step(rs[|rs| - 1]);
      AnswersAppend(b, before.1, s.1);
    }
  }

  lemma {:induction false} AnswersAppend(b: Backend, c1: seq<Call>, c2: seq<Call>)
    ensures Answers(b, c1 + c2) == Answers(b, c1) + Answers(b, c2)
    decreases |c2|
  {
    if c2 == [] {
      assert c1 + c2 == c1;
    } else {
      var init := c2[..|c2| - 1];
      AnswersAppend(b, c1, init);
      assert (c1 + c2)[..|c1 + c2| - 1] == c1 + init;
      var last := match c2[|c2| - 1] case AddRoutine(d) => OptionToSeq(b.addRoutine(d)) case _ => [];
      assert Answers(b, c2) == Answers(b, init) + last;
      assert Answers(b, c1 + c2) == Answers(b, c1 + init) + last;
      AppendAssoc(Answers(b, c1), Answers(b, init), last);
    }
  }

  /**
   * Only routines with resolved exercises are submitted, all for the
   * program; at most one routine is requested and saved per plan routine
   * (one in all for a plan without routines); the saved routines are
   * exactly the successful answers, in order.
   */
  lemma RoutinesAreSuccesses(b: Backend, w: WorkoutPlan, m: NameMap, programId: string)
    requires m.Valid()
    ensures |CreateAllRoutines(b, w, m, programId).1| <= if |w.routines| > 0 then |w.routines| else 1
    ensures |CreateAllRoutines(b, w, m, programId).0| <= if |w.routines| > 0 then |w.routines| else 1
    ensures forall c :: c in CreateAllRoutines(b, w, m, programId).1 ==> c.AddRoutine? && Submittable(c.routine, programId)
    ensures CreateAllRoutines(b, w, m, programId).0 == Answers(b, CreateAllRoutines(b, w, m, programId).1)
  {
    if |w.routines| > 0 {
      RoutineFromDataSubmitsOnce(b, w, m, programId);
      LoopRequestsSubmittable(b, RoutineFromData(b, w, m, programId), w.routines, programId);
      LoopKeepsAnswers(b, RoutineFromData(b, w, m, programId), w.routines, programId);
    } else {
      var r := CreateFallback(b, w, m, programId);
      AnswerOfStep(b, r.1, r.0);
    }
  }

  /** A plan without routines yields at most one routine, on Monday, holding only exercises in the map. */
  lemma FallbackOnMonday(b: Backend, w: WorkoutPlan, m: NameMap, programId: string)
    requires m.Valid() && w.routines == []
    ensures |CreateAllRoutines(b, w, m, programId).0| <= 1
    ensures forall c :: c in CreateAllRoutines(b, w, m, programId).1 ==>
      c.AddRoutine? && c.routine.days == ["segunda"] && Submittable(c.routine, programId) &&
      forall x :: x in c.routine.exercises ==> exists k :: k in m.entries && x.exerciseId == m.entries[k].id
  {
    var values := m.Values();
    var entries := FallbackEntries(values, w.exercises);
    forall x | x in entries ensures exists k :: k in m.entries && x.exerciseId == m.entries[k].id {
      var j :| 0 <= j < |values| && x.exerciseId == values[j].id;
      assert m.keys[j] in m.entries;
    }
  }

  /**
   * For a plan without routines, the fallback routine is requested exactly
   * when some mapped exercise is named by the plan's list, and it holds an
   * entry for every such exercise.
   */
  lemma FallbackHoldsNamedExercises(b: Backend, w: WorkoutPlan, m: NameMap, programId: string)
    requires m.Valid() && w.routines == []
    ensures CreateAllRoutines(b, w, m, programId).1 != [] <==>
      exists i :: 0 <= i < |m.keys| && FindInPlan(w.exercises, m.entries[m.keys[i]].name).Some?
    ensures forall c :: c in CreateAllRoutines(b, w, m, programId).1 ==>
      forall i :: 0 <= i < |m.keys| && FindInPlan(w.exercises, m.entries[m.keys[i]].name).Some? ==>
        c.AddRoutine? &&
        Entry(FindInPlan(w.exercises, m.entries[m.keys[i]].name).value, m.entries[m.keys[i]]) in c.routine.exercises
  {
    var values := m.Values();
    var entries := FallbackEntries(values, w.exercises);
    var calls := CreateAllRoutines(b, w, m, programId).1;
    assert calls == CreateFallback(b, w, m, programId).1;
    FallbackEntriesNonEmpty(values, w.exercises);
    FallbackEntriesComplete(values, w.exercises);
    if entries != [] {
      assert calls == [AddRoutine(FallbackDraft(w, entries, programId))];
      assert FallbackDraft(w, entries, programId).exercises == entries;
    }
  }

  // ---------------------------------------------------------------------
  // The whole conversion
  // ---------------------------------------------------------------------

  /** `createWorkoutProgram`'s request; `monthYear` is today's date as `toLocaleDateString` writes it. */
  function ProgramRequestFor(w: WorkoutPlan, monthYear: string): (p: ProgramRequest)
    ensures w.name != [] ==> p.name == w.name
    ensures w.name == [] && w.objective != [] ==> p.name == "Programa IA - " + w.objective + " - " + monthYear
    ensures w.name == [] && w.objective == [] ==> p.name == "Programa IA - Treino - " + monthYear
    ensures w.objective != [] ==> p.objective == w.objective
    ensures w.objective == [] ==> p.objective == "Programa criado pela IA"
    ensures p.objective != [] && p.createdBy == "ai"
  {
    ProgramRequest(
      OrDefault(w.name, "Programa IA - " + OrDefault(w.objective, "Treino") + " - " + monthYear),
      OrDefault(w.objective, "Programa criado pela IA"),
      "ai")
  }

  /**
   * `convertAIWorkoutToRoutines`: the program is requested first, and
   * nothing else happens when that fails; then the exercises, then the
   * routines of the new program.
   */
  function Convert(b: Backend, w: WorkoutPlan, monthYear: string): (r: (Result<Converted>, seq<Call>))
    ensures |r.1| >= 1 && r.1[0] == CreateProgram(ProgramRequestFor(w, monthYear))
    ensures r.0.Err? <==> b.createProgram(ProgramRequestFor(w, monthYear)).None?
    ensures r.0.Err? ==> |r.1| == 1
    ensures r.0.Ok? ==> r.0.value.program == b.createProgram(ProgramRequestFor(w, monthYear)).value
    ensures r.0.Ok? ==> forall c :: c in r.1 && c.AddRoutine? ==> c.routine.programId == r.0.value.program.id
    ensures r.0.Ok? ==> r.0.value.routines == Answers(b, r.1)
  {
    var request := ProgramRequestFor(w, monthYear);
    match b.createProgram(request)
    case None => (Err("Erro ao criar programa de treino"), [CreateProgram(request)])
    case Some(program) =>
      var exercises := CreateExercises(b, w);
      ValidAfterCreate(b, w);
      ExercisesMakeNoRoutineRequests(b, w);
      var routines := CreateAllRoutines(b, w, exercises.0, program.id);
      RoutinesAreSuccesses(b, w, exercises.0, program.id);
      NoAnswersWithoutRoutineRequests(b, [CreateProgram(request)] + exercises.1);
      AnswersAppend(b, [CreateProgram(request)] + exercises.1, routines.1);
      (Ok(Converted(program, routines.0)), [CreateProgram(request)] + exercises.1 + routines.1)
  }

  /** Requests other than `addRoutine` answer no routine. */
  lemma {:induction false} NoAnswersWithoutRoutineRequests(b: Backend, calls: seq<Call>)
    requires forall c :: c in calls ==> !c.AddRoutine?
    ensures Answers(b, calls) == []
  {
    if calls != [] {
      assert calls[|calls| - 1] in calls;
      NoAnswersWithoutRoutineRequests(b, calls[..|calls| - 1]);
    }
  }

  /** Processing exercises only searches videos and adds exercises. */
  lemma {:induction false} ProcessAllRequestsExercises(b: Backend, m: NameMap, es: seq<AIExercise>)
    ensures forall c :: c in ProcessAll(b, m, es).1 ==> c.SearchVideo? || c.AddExercise?
  {
    if es != [] {
      ProcessAllRequestsExercises(b, m, es[..|es| - 1]);
    }
  }

  /** `createExercisesFromWorkout` never asks for a routine. */
  lemma ExercisesMakeNoRoutineRequests(b: Backend, w: WorkoutPlan)
    ensures forall c :: c in CreateExercises(b, w).1 ==> !c.AddRoutine?
  {
    ProcessAllRequestsExercises(b, EmptyMap, w.exercises);
    var general := if |w.exercises| > 0 then ProcessAll(b, EmptyMap, w.exercises) else (EmptyMap, []);
    ProcessAllRequestsExercises(b, general.0, Flatten(w.routines));
  }

  /**
   * Every exercise in the map `createExercisesFromWorkout` fills was entered
   * for an exercise of the plan, from the general list or a routine, with
   * that lower-cased name.
   */
  lemma CreateExercisesValues(b: Backend, w: WorkoutPlan)
    ensures var m := CreateExercises(b, w).0;
      forall k :: k in m.entries ==>
        exists e :: (e in w.exercises || e in Flatten(w.routines)) && k == Lower(e.name) && EnteredFor(b, e, m.entries[k])
  {
    ProcessAllKeys(b, EmptyMap, w.exercises);
    ProcessAllValues(b, EmptyMap, w.exercises);
    var general := if |w.exercises| > 0 then ProcessAll(b, EmptyMap, w.exercises) else (EmptyMap, []);
    ProcessAllValues(b, general.0, Flatten(w.routines));
    var m := CreateExercises(b, w).0;
    forall k | k in m.entries
      ensures exists e :: (e in w.exercises || e in Flatten(w.routines)) && k == Lower(e.name) && EnteredFor(b, e, m.entries[k])
    {
      if |general.0.keys| == 0 {
        assert k !in general.0.entries;
        var j :| 0 <= j < |Flatten(w.routines)| && k == Lower(Flatten(w.routines)[j].name)
                 && EnteredFor(b, Flatten(w.routines)[j], m.entries[k]);
        assert Flatten(w.routines)[j] in Flatten(w.routines);
      } else {
        var j :| 0 <= j < |w.exercises| && k == Lower(w.exercises[j].name) && EnteredFor(b, w.exercises[j], m.entries[k]);
        assert w.exercises[j] in w.exercises;
      }
    }
  }

  /** The map `createExercisesFromWorkout` fills is well formed. */
  lemma ValidAfterCreate(b: Backend, w: WorkoutPlan)
    ensures CreateExercises(b, w).0.Valid()
  {
    ProcessAllKeys(b, EmptyMap, w.exercises);
    var general := if |w.exercises| > 0 then ProcessAll(b, EmptyMap, w.exercises) else (EmptyMap, []);
    ProcessAllKeys(b, general.0, Flatten(w.routines));
  }

  // ---------------------------------------------------------------------
  // The service
  // ---------------------------------------------------------------------

  /** The service object, with the requests it has made so far. */
  class ConversionService {
    const backend: Backend
    var calls: seq<Call>

    constructor(backend: Backend)
      ensures this.backend == backend && calls == []
    {
      this.backend := backend;
      calls := [];
    }

    /** `processExercise` */
    method ProcessExercise(exercise: AIExercise, m: NameMap) returns (m': NameMap)
      modifies this
      ensures m' == ProcessStep(backend, m, exercise).0
      ensures calls == old(calls) + ProcessStep(backend, m, exercise).1
    {
      var key := Lower(exercise.name);
      var existing := FindKnown(backend.known, exercise.name);
      if existing.None? && key !in m.entries {
        var exerciseData := backend.fromAI(exercise);
        calls := calls + [SearchVideo(exerciseData.name)];
        var videoUrl := backend.searchVideo(exerciseData.name);
        if videoUrl.Some? && videoUrl.value != [] {
          exerciseData := exerciseData.(video := videoUrl);
        }
        calls := calls + [AddExercise(exerciseData)];
        existing := backend.addExercise(exerciseData);
        if existing.None? {
          return m;
        }
      }
      m' := if existing.Some? then m.Set(key, existing.value) else m;
    }

    /** Processes a list of exercises in order. */
    method ProcessList(es: seq<AIExercise>, m: NameMap) returns (m': NameMap)
      modifies this
      ensures m' == ProcessAll(backend, m, es).0
      ensures calls == old(calls) + ProcessAll(backend, m, es).1
    {
      m' := m;
      for i := 0 to |es|
        invariant m' == ProcessAll(backend, m, es[..i]).0
        invariant calls == old(calls) + ProcessAll(backend, m, es[..i]).1
      {
        assert es[..i + 1][..i] == es[..i];
        AppendAssoc(old(calls), ProcessAll(backend, m, es[..i]).1, ProcessStep(backend, m', es[i]).1);
        m' := ProcessExercise(es[i], m');
      }
      assert es[..|es|] == es;
    }

    /** `createExercisesFromWorkout`: the routines are walked one exercise at a time. */
    method CreateExercisesFromWorkout(w: WorkoutPlan) returns (m: NameMap)
      modifies this
      ensures m == CreateExercises(backend, w).0
      ensures calls == old(calls) + CreateExercises(backend, w).1
    {
      ghost var general := if |w.exercises| > 0 then ProcessAll(backend, EmptyMap, w.exercises) else (EmptyMap, []);
      m := EmptyMap;
      if |w.exercises| > 0 {
        m := ProcessList(w.exercises, m);
      }
      assert m == general.0 && calls == old(calls) + general.1;
      if |m.keys| == 0 {
        AppendAssoc(old(calls), general.1, ProcessAll(backend, general.0, Flatten(w.routines)).1);
        m := ProcessRoutines(w.routines, m);
      }
    }

    /** The exercises of each routine in turn, one exercise at a time. */
    method ProcessRoutines(routines: seq<AIRoutine>, m: NameMap) returns (m': NameMap)
      modifies this
      ensures m' == ProcessAll(backend, m, Flatten(routines)).0
      ensures calls == old(calls) + ProcessAll(backend, m, Flatten(routines)).1
    {
      m' := m;
      for i := 0 to |routines|
        invariant m' == ProcessAll(backend, m, Flatten(routines[..i])).0
        invariant calls == old(calls) + ProcessAll(backend, m, Flatten(routines[..i])).1
      {
        ghost var done := ProcessAll(backend, m, Flatten(routines[..i]));
        ProcessNextRoutine(backend, m, routines, i);
        m' := ProcessList(routines[i].exercises, m');
        AppendAssoc(old(calls), done.1, ProcessAll(backend, done.0, routines[i].exercises).1);
      }
      assert routines[..|routines|] == routines;
    }

    /** `createWorkoutProgram`: fails when the backend gives no program. */
    method CreateWorkoutProgram(w: WorkoutPlan, monthYear: string) returns (program: Option<Program>)
      modifies this
      ensures program == backend.createProgram(ProgramRequestFor(w, monthYear))
      ensures calls == old(calls) + [CreateProgram(ProgramRequestFor(w, monthYear))]
    {
      var request := ProgramRequestFor(w, monthYear);
      calls := calls + [CreateProgram(request)];
      program := backend.createProgram(request);
    }

    /** `createRoutineFromData` */
    method CreateRoutineFromData(rd: AIRoutine, w: WorkoutPlan, m: NameMap, programId: string) returns (routine: Option<Routine>)
      modifies this
      ensures routine == CreateRoutine(backend, rd, w, m, programId).0
      ensures calls == old(calls) + CreateRoutine(backend, rd, w, m, programId).1
    {
      var routineExercises: seq<RoutineExercise> := [];
      for i := 0 to |rd.exercises|
        invariant routineExercises == Entries(rd.exercises[..i], m)
      {
        assert rd.exercises[..i + 1][..i] == rd.exercises[..i];
        var exercise := rd.exercises[i];
        var key := Lower(exercise.name);
        if key in m.entries {
          routineExercises := routineExercises + [Entry(exercise, m.entries[key])];
        }
      }
      assert rd.exercises[..|rd.exercises|] == rd.exercises;
      if |routineExercises| > 0 {
        var draft := RoutineDraftFor(backend, rd, w, routineExercises, programId);
        calls := calls + [AddRoutine(draft)];
        return backend.addRoutine(draft);
      }
      return None;
    }

    /** `createFallbackRoutine`: walks the map's values in insertion order. */
    method CreateFallbackRoutine(w: WorkoutPlan, m: NameMap, programId: string) returns (routine: Option<Routine>)
      requires m.Valid()
      modifies this
      ensures routine == CreateFallback(backend, w, m, programId).0
      ensures calls == old(calls) + CreateFallback(backend, w, m, programId).1
    {
      var values := m.Values();
      var routineExercises: seq<RoutineExercise> := [];
      for i := 0 to |values|
        invariant routineExercises == FallbackEntries(values[..i], w.exercises)
        invariant calls == old(calls)
      {
        FallbackEntriesNext(values, w.exercises, i);
        var exercise := values[i];
        var originalExercise := FindInPlan(w.exercises, exercise.name);
        if originalExercise.Some? {
          routineExercises := routineExercises + [Entry(originalExercise.value, exercise)];
        }
      }
      assert values[..|values|] == values;
      assert routineExercises == FallbackEntries(m.Values(), w.exercises);
      if |routineExercises| > 0 {
        var draft := FallbackDraft(w, routineExercises, programId);
        calls := calls + [AddRoutine(draft)];
        return backend.addRoutine(draft);
      }
      return None;
    }

    /** `createRoutinesFromWorkout` */
    method CreateRoutinesFromWorkout(w: WorkoutPlan, m: NameMap, programId: string) returns (created: seq<Routine>)
      requires m.Valid()
      modifies this
      ensures created == CreateAllRoutines(backend, w, m, programId).0
      ensures calls == old(calls) + CreateAllRoutines(backend, w, m, programId).1
    {
      if |w.routines| > 0 {
        created := CreateEachRoutine(w, m, programId);
      } else {
        var routine := CreateFallbackRoutine(w, m, programId);
        created := OptionToSeq(routine);
      }
    }

    /** The loop of `createRoutinesFromWorkout`: keeps the routines that were saved. */
    method CreateEachRoutine(w: WorkoutPlan, m: NameMap, programId: string) returns (created: seq<Routine>)
      modifies this
      ensures created == CreateRoutines(RoutineFromData(backend, w, m, programId), w.routines).0
      ensures calls == old(calls) + CreateRoutines(RoutineFromData(backend, w, m, programId), w.routines).1
    {
      ghost var step := RoutineFromData(backend, w, m, programId);
      created := [];
      for i := 0 to |w.routines|
        invariant created == CreateRoutines(step, w.routines[..i]).0
        invariant calls == old(calls) + CreateRoutines(step, w.routines[..i]).1
      {
        CreateRoutinesNext(step, w.routines, i);
        AppendAssoc(old(calls), CreateRoutines(step, w.routines[..i]).1, step(w.routines[i]).1);
        var routine := CreateRoutineFromData(w.routines[i], w, m, programId);
        assert (routine, calls) == (step(w.routines[i]).0, old(calls) + CreateRoutines(step, w.routines[..i]).1 + step(w.routines[i]).1);
        if routine.Some? {
          created := created + [routine.value];
        }
      }
      assert w.routines[..|w.routines|] == w.routines;
    }

    /** `convertAIWorkoutToRoutines` */
    method ConvertAIWorkoutToRoutines(w: WorkoutPlan, monthYear: string) returns (r: Result<Converted>)
      modifies this
      ensures r == Convert(backend, w, monthYear).0
      ensures calls == old(calls) + Convert(backend, w, monthYear).1
    {
      var program := CreateWorkoutProgram(w, monthYear);
      if program.None? {
        return Err("Erro ao criar programa de treino");
      }
      var createdExercisesMap := CreateExercisesFromWorkout(w);
      ValidAfterCreate(backend, w);
      var createdRoutines := CreateRoutinesFromWorkout(w, createdExercisesMap, program.value.id);
      ghost var requested := [CreateProgram(ProgramRequestFor(w, monthYear))];
      AppendAssoc(old(calls), requested, CreateExercises(backend, w).1);
      AppendAssoc(old(calls), requested + CreateExercises(backend, w).1, CreateAllRoutines(backend, w, createdExercisesMap, program.value.id).1);
      r := Ok(Converted(program.value, createdRoutines));
    }
  }

  /** Processing the routines up to `i` and then routine `i` is processing the routines up to `i + 1`. */
  lemma ProcessNextRoutine(b: Backend, m: NameMap, routines: seq<AIRoutine>, i: nat)
    requires i < |routines|
    ensures ProcessAll(b, ProcessAll(b, m, Flatten(routines[..i])).0, routines[i].exercises).0 == ProcessAll(b, m, Flatten(routines[..i + 1])).0
    ensures ProcessAll(b, m, Flatten(routines[..i])).1 + ProcessAll(b, ProcessAll(b, m, Flatten(routines[..i])).0, routines[i].exercises).1 == ProcessAll(b, m, Flatten(routines[..i + 1])).1
  {
    assert routines[..i + 1] == routines[..i] + [routines[i]];
    FlattenAppend(routines[..i], routines[i]);
    ProcessAllConcat(b, m, Flatten(routines[..i]), routines[i].exercises);
  }

  /** Processing two lists one after the other is processing their concatenation. */
  lemma {:induction false} ProcessAllConcat(b: Backend, m: NameMap, a: seq<AIExercise>, c: seq<AIExercise>)
    ensures ProcessAll(b, ProcessAll(b, m, a).0, c).0 == ProcessAll(b, m, a + c).0
    ensures ProcessAll(b, m, a).1 + ProcessAll(b, ProcessAll(b, m, a).0, c).1 == ProcessAll(b, m, a + c).1
    decreases |c|
  {
    if c == [] {
      assert a + c == a;
    } else {
      ProcessAllConcat(b, m, a, c[..|c| - 1]);
      assert (a + c)[..|a + c| - 1] == a + c[..|c| - 1];
    }
  }
}

=== FILE: exercise_utils.dfy ===
/**
 * The keyword classifiers of the server-side generator: an exercise name is
 * lower-cased and checked against ordered groups of keywords; the first group
 * with a keyword that occurs in the name decides.
 */
module ExerciseUtils {
  import opened Text

  /** The muscle-group labels, in the order the classifier tests them (`Geral` last). */
  datatype MuscleGroup = Peito | Pernas | Biceps | Triceps | Abdomen | Costas | Ombros | Panturrilha | Cardio | Geral {
    /** The label the application stores. */
    function Label(): string {
      match this
      case Peito => "Peito"
      case Pernas => "Pernas"
      case Biceps => "Bíceps"
      case Triceps => "Tríceps"
      case Abdomen => "Abdômen"
      case Costas => "Costas"
      case Ombros => "Ombros"
      case Panturrilha => "Panturrilha"
      case Cardio => "Cardio"
      case Geral => "Geral"
    }

    /** Position of the group in the order of the tests. */
    function Rank(): nat {
      match this
      case Peito => 0
      case Pernas => 1
      case Biceps => 2
      case Triceps => 3
      case Abdomen => 4
      case Costas => 5
      case Ombros => 6
      case Panturrilha => 7
      case Cardio => 8
      case Geral => 9
    }
  }

  datatype ExerciseType = Strength | CardioType | Flexibility {
    function Tag(): string {
      match this
      case Strength => "strength"
      case CardioType => "cardio"
      case Flexibility => "flexibility"
    }
  }

  /** Some keyword of `kws` occurs in `s`. */
  predicate ContainsAny(s: string, kws: seq<string>)
    decreases |kws|
  {
    |kws| > 0 && (Contains(s, kws[0]) || ContainsAny(s, kws[1..]))
  }

  lemma ContainsAnyIff(s: string, kws: seq<string>)
    ensures ContainsAny(s, kws) <==> exists k :: 0 <= k < |kws| && Contains(s, kws[k])
    decreases |kws|
  {
    if |kws| > 0 {
      ContainsAnyIff(s, kws[1..]);
      assert forall k :: 1 <= k < |kws| ==> kws[k] == kws[1..][k - 1];
    }
  }

  /** The keywords of each group, as the server tests them. */
  function Keywords(g: MuscleGroup): seq<string> {
    match g
    case Peito => ["flexão", "supino", "peito"]
    case Pernas => ["agachamento", "leg press", "quadríceps", "perna"]
    case Biceps => ["bíceps", "rosca"]
    case Triceps => ["tríceps", "mergulho"]
    case Abdomen => ["abdomen", "prancha", "abdominal"]
    case Costas => ["costas", "remada", "pull"]
    case Ombros => ["ombro", "elevação"]
    case Panturrilha => ["panturrilha"]
    case Cardio => ["burpee", "cardio", "corrida"]
    case Geral => []
  }

  const CardioKeywords: seq<string> := ["burpee", "jumping", "mountain climber", "cardio", "corrida", "salto"]
  const FlexibilityKeywords: seq<string> := ["alongamento", "yoga", "flexibilidade"]

  /** A group's keyword test spelled out as the disjunction the source writes. */
  predicate KeywordTest(name: string, g: MuscleGroup) {
    match g
    case Peito => Contains(name, "flexão") || Contains(name, "supino") || Contains(name, "peito")
    case Pernas => Contains(name, "agachamento") || Contains(name, "leg press") || Contains(name, "quadríceps") || Contains(name, "perna")
    case Biceps => Contains(name, "bíceps") || Contains(name, "rosca")
    case Triceps => Contains(name, "tríceps") || Contains(name, "mergulho")
    case Abdomen => Contains(name, "abdomen") || Contains(name, "prancha") || Contains(name, "abdominal")
    case Costas => Contains(name, "costas") || Contains(name, "remada") || Contains(name, "pull")
    case Ombros => Contains(name, "ombro") || Contains(name, "elevação")
    case Panturrilha => Contains(name, "panturrilha")
    case Cardio => Contains(name, "burpee") || Contains(name, "cardio") || Contains(name, "corrida")
    case Geral => false
  }

  lemma KeywordTestIsContainsAny(name: string, g: MuscleGroup)
    ensures KeywordTest(name, g) <==> ContainsAny(name, Keywords(g))
  {
    var kws := Keywords(g);
    if |kws| > 0 { assert ContainsAny(name, kws) <==> Contains(name, kws[0]) || ContainsAny(name, kws[1..]); }
    if |kws| > 1 { assert ContainsAny(name, kws[1..]) <==> Contains(name, kws[1]) || ContainsAny(name, kws[2..]); }
    if |kws| > 2 { assert ContainsAny(name, kws[2..]) <==> Contains(name, kws[2]) || ContainsAny(name, kws[3..]); }
    if |kws| > 3 { assert ContainsAny(name, kws[3..]) <==> Contains(name, kws[3]) || ContainsAny(name, kws[4..]); }
    assert |kws| <= 4 ==> kws[|kws|..] == [];
  }

  /** `determineMuscleGroup` */
  function DetermineMuscleGroup(exerciseName: string): (g: MuscleGroup)
    ensures g != Geral ==> KeywordTest(Lower(exerciseName), g)
    ensures forall h: MuscleGroup :: h.Rank() < g.Rank() ==> !KeywordTest(Lower(exerciseName), h)
  {
    var name := Lower(exerciseName);
    if Contains(name, "flexão") || Contains(name, "supino") || Contains(name, "peito") then Peito
    else if Contains(name, "agachamento") || Contains(name, "leg press") || Contains(name, "quadríceps") || Contains(name, "perna") then Pernas
    else if Contains(name, "bíceps") || Contains(name, "rosca") then Biceps
    else if Contains(name, "tríceps") || Contains(name, "mergulho") then Triceps
    else if Contains(name, "abdomen") || Contains(name, "prancha") || Contains(name, "abdominal") then Abdomen
    else if Contains(name, "costas") || Contains(name, "remada") || Contains(name, "pull") then Costas
    else if Contains(name, "ombro") || Contains(name, "elevação") then Ombros
    else if Contains(name, "panturrilha") then Panturrilha
    else if Contains(name, "burpee") || Contains(name, "cardio") || Contains(name, "corrida") then Cardio
    else Geral
  }

  /**
   * The groups are checked in order and the first with a keyword in the
   * lower-cased name wins: the result's keywords occur, no earlier group's do.
   */
  lemma MuscleGroupIsFirstMatch(exerciseName: string)
    ensures var g := DetermineMuscleGroup(exerciseName);
            && (g != Geral ==> ContainsAny(Lower(exerciseName), Keywords(g)))
            && forall h: MuscleGroup :: h.Rank() < g.Rank() ==> !ContainsAny(Lower(exerciseName), Keywords(h))
  {
    var g := DetermineMuscleGroup(exerciseName);
    KeywordTestIsContainsAny(Lower(exerciseName), g);
    forall h: MuscleGroup | h.Rank() < g.Rank() ensures !ContainsAny(Lower(exerciseName), Keywords(h)) {
      KeywordTestIsContainsAny(Lower(exerciseName), h);
    }
  }

  /** `Geral` exactly when no keyword of any group occurs in the lower-cased name. */
  lemma GeneralIffNoKeyword(exerciseName: string)
    ensures DetermineMuscleGroup(exerciseName) == Geral
            <==> forall h: MuscleGroup :: !ContainsAny(Lower(exerciseName), Keywords(h))
  {
    var g := DetermineMuscleGroup(exerciseName);
    MuscleGroupIsFirstMatch(exerciseName);
    if g == Geral {
      forall h: MuscleGroup ensures !ContainsAny(Lower(exerciseName), Keywords(h)) {
        if h != Geral { assert h.Rank() < g.Rank(); }
      }
    }
  }

  /** The classifier ignores case: it gives the same group for a name and its lower-cased form. */
  lemma MuscleGroupIgnoresCase(exerciseName: string)
    ensures DetermineMuscleGroup(Lower(exerciseName)) == DetermineMuscleGroup(exerciseName)
  {
    LowerIdempotent(exerciseName);
  }

  /** `determineExerciseType`: cardio keywords are checked before flexibility keywords. */
  function DetermineExerciseType(exerciseName: string): (t: ExerciseType)
    ensures t == CardioType <==> ContainsAny(Lower(exerciseName), CardioKeywords)
    ensures t == Flexibility <==> !ContainsAny(Lower(exerciseName), CardioKeywords)
                                  && ContainsAny(Lower(exerciseName), FlexibilityKeywords)
    ensures t == Strength <==> !ContainsAny(Lower(exerciseName), CardioKeywords)
                               && !ContainsAny(Lower(exerciseName), FlexibilityKeywords)
  {
    var name := Lower(exerciseName);
    if Contains(name, "burpee") || Contains(name, "jumping") || Contains(name, "mountain climber")
       || Contains(name, "cardio") || Contains(name, "corrida") || Contains(name, "salto") then CardioType
    else if Contains(name, "alongamento") || Contains(name, "yoga") || Contains(name, "flexibilidade") then Flexibility
    else Strength
  }

  lemma ExerciseTypeIgnoresCase(exerciseName: string)
    ensures DetermineExerciseType(Lower(exerciseName)) == DetermineExerciseType(exerciseName)
  {
    LowerIdempotent(exerciseName);
  }

  /** Chest is checked before back: a name with both `supino` and `remada` is `Peito`. */
  lemma ChestBeforeBack(exerciseName: string)
    requires Contains(Lower(exerciseName), "supino") && Contains(Lower(exerciseName), "remada")
    ensures DetermineMuscleGroup(exerciseName) == Peito
  {
  }

  /** Cardio is checked before flexibility: a name with both `burpee` and `yoga` is cardio. */
  lemma CardioBeforeFlexibility(exerciseName: string)
    requires Contains(Lower(exerciseName), "burpee") && Contains(Lower(exerciseName), "yoga")
    ensures DetermineExerciseType(exerciseName) == CardioType
  {
  }
}

=== FILE: file_processing.dfy ===
/**
 * Upload handling of the file-processing service: the size limit, the
 * dispatch on MIME type and file name, the text and PDF paths, and the
 * guard in front of the prompt built from an uploaded file. Reading the
 * file's text is given as its outcome; the helpers that turn the content
 * into a prompt are parameters.
 */
module FileProcessing {
  import opened Common
  import opened Text

  /** 5 MiB, the largest accepted upload. */
  const MaxFileSize: int := 5 * 1024 * 1024

  const TextReadError := "Erro ao ler arquivo de texto"
  const PdfDisabledError := "Processamento de PDF temporariamente desabilitado para otimização. Use arquivos TXT."
  const TooLargeError := "Arquivo muito grande. Máximo permitido: 5MB"
  const UnsupportedError := "Tipo de arquivo não suportado. Use apenas arquivos .txt"

  /** An uploaded file; `text` is what reading it gave, `None` when reading threw. */
  datatype UploadedFile = UploadedFile(name: string, mimeType: string, size: int, text: Option<string>)

  /** `FileUploadResult`. */
  datatype UploadResult = UploadResult(
    success: bool,
    content: Option<string>,
    error: Option<string>,
    fileName: Option<string>,
    fileType: Option<string>)

  function Failure(message: string): (r: UploadResult)
    ensures !r.success && r.error == Some(message) && r.content.None?
  {
    UploadResult(false, None, Some(message), None, None)
  }

  /** `processTextFile`: the file's text as content, or the read error. */
  function ProcessTextFile(file: UploadedFile): (r: UploadResult)
    ensures r.success <==> file.text.Some?
    ensures r.success ==> r.content == file.text && r.fileName == Some(file.name) && r.fileType == Some("text")
    ensures !r.success ==> r == Failure(TextReadError)
  {
    match file.text
    case Some(t) => UploadResult(true, Some(t), None, Some(file.name), Some("text"))
    case None => Failure(TextReadError)
  }

  /** `processPDFFile`: PDF processing is switched off, so it always fails. */
  function ProcessPdfFile(file: UploadedFile): (r: UploadResult)
    ensures !r.success && r.error == Some(PdfDisabledError)
  {
    Failure(PdfDisabledError)
  }

  /** The text path: a MIME type mentioning `text` or a `.txt` name, compared lower-cased. */
  predicate IsTextUpload(file: UploadedFile) {
    Contains(Lower(file.mimeType), "text") || EndsWith(Lower(file.name), ".txt")
  }

  /** The PDF path, tried after the text path. */
  predicate IsPdfUpload(file: UploadedFile) {
    Contains(Lower(file.mimeType), "pdf") || EndsWith(Lower(file.name), ".pdf")
  }

  /** `processUploadedFile`: size first, then text, then PDF, else unsupported. */
  function ProcessUploadedFile(file: UploadedFile): (r: UploadResult)
    ensures file.size > MaxFileSize ==> r == Failure(TooLargeError)
    ensures r.success <==> file.size <= MaxFileSize && IsTextUpload(file) && file.text.Some?
    ensures r.success ==> r.content == file.text
    ensures !r.success ==> r.error.Some? && r.content.None?
  {
    if file.size > MaxFileSize then Failure(TooLargeError)
    else if IsTextUpload(file) then ProcessTextFile(file)
    else if IsPdfUpload(file) then ProcessPdfFile(file)
    else Failure(UnsupportedError)
  }

  /** The error an upload within the size limit ends with, by kind. */
  lemma UploadErrors(file: UploadedFile)
    requires file.size <= MaxFileSize
    ensures IsTextUpload(file) && file.text.None? ==> ProcessUploadedFile(file).error == Some(TextReadError)
    ensures !IsTextUpload(file) && IsPdfUpload(file) ==> ProcessUploadedFile(file).error == Some(PdfDisabledError)
    ensures !IsTextUpload(file) && !IsPdfUpload(file) ==> ProcessUploadedFile(file).error == Some(UnsupportedError)
  {
  }

  /** The dispatch reads the MIME type and the name only through their lower-cased forms. */
  lemma DispatchIgnoresCase(file: UploadedFile)
    ensures var folded := file.(name := Lower(file.name), mimeType := Lower(file.mimeType));
      IsTextUpload(folded) == IsTextUpload(file) && IsPdfUpload(folded) == IsPdfUpload(file)
      && ProcessUploadedFile(folded).success == ProcessUploadedFile(file).success
      && ProcessUploadedFile(folded).error == ProcessUploadedFile(file).error
  {
    LowerIdempotent(file.name);
    LowerIdempotent(file.mimeType);
  }

  /**
   * `formatFileContentForAI`: nothing unless the upload succeeded with
   * non-empty content; otherwise the prompt built from the information
   * extracted from the content and the content itself.
   */
  function FormatFileContentForAI<Info>(result: UploadResult, extract: string -> Info,
                                        prompt: (Info, string) -> string): (r: string)
    ensures !result.success || result.content.None? || result.content == Some("") ==> r == ""
    ensures result.success && result.content.Some? && result.content.value != "" ==>
      r == prompt(extract(result.content.value), result.content.value)
  {
    if !result.success || result.content.None? || result.content.value == "" then ""
    else prompt(extract(result.content.value), result.content.value)
  }

  /**
   * An upload reaches the prompt builders only when it is a readable text
   * file within the size limit whose text is not empty.
   */
  lemma PromptOnlyFromReadableText<Info>(file: UploadedFile, extract: string -> Info,
                                         prompt: (Info, string) -> string)
    ensures FormatFileContentForAI(ProcessUploadedFile(file), extract, prompt) != "" ==>
      file.size <= MaxFileSize && IsTextUpload(file) && file.text.Some? && file.text.value != ""
    ensures file.size <= MaxFileSize && IsTextUpload(file) && file.text.Some? && file.text.value != "" ==>
      FormatFileContentForAI(ProcessUploadedFile(file), extract, prompt)
        == prompt(extract(file.text.value), file.text.value)
  {
  }
}

=== FILE: generator_index.dfy ===
/**
 * The decision part of the workout-generator endpoint: a `sim` that answers
 * an assistant reply offering a plan is confirmed with a fixed reply and no
 * model call; any other message is sent to the language model after the
 * system prompt and at most the last six messages of the history. The
 * environment key, the parsed request body, the generated system prompt
 * and the model's answer are parameters.
 */
module GeneratorIndex {
  import opened Common
  import opened Text
  import opened Plan

  const ConfirmReply := "✅ Treino adicionado! Vá para 'Treinos Gerados' para aceitar. \U{1F4AA}"
  const EmptyAnswerReply := "Erro na resposta."
  const ErrorText := "Erro interno"
  const RetryReply := "Erro temporário. Tente novamente."
  /** How many history messages are forwarded to the model. */
  const HistoryWindow: nat := 6

  /** The parsed request body; a missing history is the empty one. */
  datatype GenerateRequest = GenerateRequest(message: Option<string>, history: seq<ChatMessage>)

  /** A message sent to the model: the system prompt or a chat turn. */
  datatype ModelMessage = SystemPrompt(text: string) | Turn(message: ChatMessage)

  /** What the model call did: threw, or answered with the first choice's content, if any. */
  datatype ModelAnswer = Threw | Answered(content: Option<string>)

  /** The JSON reply: `error` is only set by the catch-all. */
  datatype Reply = Reply(status: nat, response: string, workoutGenerated: bool, error: Option<string>)

  /** One request handled: the messages sent to the model, if it was called, and the reply. */
  datatype Exchange = Exchange(modelRequest: Option<seq<ModelMessage>>, reply: Reply)

  /** The reply of the catch-all. */
  const Failed: Reply := Reply(500, RetryReply, false, Some(ErrorText))

  /** `conversationHistory.filter(msg => msg.role === 'assistant').pop()` */
  function LastAssistant(history: seq<ChatMessage>): (m: Option<ChatMessage>)
    ensures m.Some? ==> m.value.role == Assistant
  {
    if history == [] then None
    else if history[|history| - 1].role == Assistant then Some(history[|history| - 1])
    else LastAssistant(history[..|history| - 1])
  }

  /** `message.toLowerCase().trim() === 'sim'` */
  predicate SaidYes(message: string) {
    Trim(Lower(message)) == "sim"
  }

  /** The user confirms: a `sim` after an assistant reply that ended by offering a plan. */
  predicate Confirms(message: string, history: seq<ChatMessage>) {
    SaidYes(message) && LastAssistant(history).Some? && Contains(LastAssistant(history).value.content, Marker)
  }

  /** `conversationHistory.slice(-6)` */
  function Forwarded(history: seq<ChatMessage>): (r: seq<ChatMessage>)
    ensures |r| == if |history| <= HistoryWindow then |history| else HistoryWindow
    ensures r == history[|history| - |r|..]
  {
    if |history| <= HistoryWindow then history else history[|history| - HistoryWindow..]
  }

  function Turns(ms: seq<ChatMessage>): (r: seq<ModelMessage>)
    ensures |r| == |ms|
    ensures forall k :: 0 <= k < |ms| ==> r[k] == Turn(ms[k])
  {
    if ms == [] then [] else [Turn(ms[0])] + Turns(ms[1..])
  }

  /** The messages of the model call: the system prompt, the forwarded history, the user's message. */
  function ModelRequest(prompt: string, history: seq<ChatMessage>, message: string): seq<ModelMessage> {
    [SystemPrompt(prompt)] + Turns(Forwarded(history)) + [Turn(ChatMessage(User, message))]
  }

  /**
   * The endpoint for a non-preflight request. `apiKey` is the configured
   * key, `body` the parsed JSON (`None` when parsing threw), `prompt` the
   * system prompt generated for the request and `answer` what the model
   * call did.
   */
  function Handle(apiKey: Option<string>, body: Option<GenerateRequest>, prompt: string,
                  answer: ModelAnswer): (x: Exchange)
    ensures x.reply.status == 200 || x.reply == Failed
    ensures x.reply.workoutGenerated ==> x.modelRequest.None?
  {
    if apiKey.None? || apiKey.value == "" || body.None? || body.value.message.None? then
      Exchange(None, Failed)
    else
      var message := body.value.message.value;
      var history := body.value.history;
      if Confirms(message, history) then
        Exchange(None, Reply(200, ConfirmReply, true, None))
      else
        var sent := ModelRequest(prompt, history, message);
        match answer
        case Threw => Exchange(Some(sent), Failed)
        case Answered(content) =>
          var text := if content.None? || content.value == "" then EmptyAnswerReply else content.value;
          Exchange(Some(sent), Reply(200, text, false, None))
  }

  /** The last assistant message is the latest one in the history, and there is none exactly when no message is the assistant's. */
  lemma {:induction false} LastAssistantIsLatest(history: seq<ChatMessage>)
    ensures LastAssistant(history).None? <==> forall i :: 0 <= i < |history| ==> history[i].role != Assistant
    ensures LastAssistant(history).Some? ==>
      exists i :: 0 <= i < |history| && history[i] == LastAssistant(history).value && history[i].role == Assistant
        && forall j :: i < j < |history| ==> history[j].role != Assistant
  {
    if history == [] {
    } else if history[|history| - 1].role == Assistant {
      assert history[|history| - 1] == LastAssistant(history).value;
    } else {
      var init := history[..|history| - 1];
      assert LastAssistant(history) == LastAssistant(init);
      assert forall i :: 0 <= i < |init| ==> init[i] == history[i];
      LastAssistantIsLatest(init);
    }
  }

  /** A history without assistant messages can never be confirmed. */
  lemma NoAssistantNoConfirmation(message: string, history: seq<ChatMessage>)
    requires forall i :: 0 <= i < |history| ==> history[i].role != Assistant
    ensures !Confirms(message, history)
  {
    LastAssistantIsLatest(history);
  }

  /**
   * `workoutGenerated` is set exactly for a well-formed request whose
   * message confirms; the reply is then the fixed text and the model is
   * not called.
   */
  lemma WorkoutGeneratedIffConfirmed(apiKey: Option<string>, body: Option<GenerateRequest>, prompt: string,
                                     answer: ModelAnswer)
    ensures var x := Handle(apiKey, body, prompt, answer);
      x.reply.workoutGenerated <==>
        apiKey.Some? && apiKey.value != "" && body.Some? && body.value.message.Some?
        && Confirms(body.value.message.value, body.value.history)
    ensures var x := Handle(apiKey, body, prompt, answer);
      x.reply.workoutGenerated ==> x.modelRequest.None? && x.reply == Reply(200, ConfirmReply, true, None)
  {
  }

  /**
   * The model receives the system prompt, then the last `min(6, |history|)`
   * history messages in their order, then the user's message.
   */
  lemma ModelRequestShape(prompt: string, history: seq<ChatMessage>, message: string)
    ensures var n := if |history| <= HistoryWindow then |history| else HistoryWindow;
      var sent := ModelRequest(prompt, history, message);
      |sent| == n + 2 && sent[0] == SystemPrompt(prompt)
      && sent[n + 1] == Turn(ChatMessage(User, message))
      && forall k :: 1 <= k <= n ==> sent[k] == Turn(history[|history| - n + k - 1])
  {
    var f := Forwarded(history);
    var sent := ModelRequest(prompt, history, message);
    forall k | 1 <= k <= |f|
      ensures sent[k] == Turn(history[|history| - |f| + k - 1])
    {
      assert sent[k] == Turns(f)[k - 1];
      assert f[k - 1] == history[|history| - |f| + k - 1];
    }
  }

  /** The model is called, with those messages, exactly for a well-formed request that does not confirm. */
  lemma ModelCalledUnlessConfirmed(apiKey: Option<string>, body: Option<GenerateRequest>, prompt: string,
                                   answer: ModelAnswer)
    ensures var x := Handle(apiKey, body, prompt, answer);
      x.modelRequest.Some? <==>
        apiKey.Some? && apiKey.value != "" && body.Some? && body.value.message.Some?
        && !Confirms(body.value.message.value, body.value.history)
    ensures var x := Handle(apiKey, body, prompt, answer);
      x.modelRequest.Some? ==>
        x.modelRequest.value == ModelRequest(prompt, body.value.history, body.value.message.value)
  {
  }

  /**
   * The reply is a 500 exactly when the key is missing, the body or its
   * message is missing, or the model call threw; it then never reports a
   * generated workout. An answer with no content is replaced by the fixed
   * error text.
   */
  lemma FailuresAndEmptyAnswers(apiKey: Option<string>, body: Option<GenerateRequest>, prompt: string,
                                answer: ModelAnswer)
    ensures var x := Handle(apiKey, body, prompt, answer);
      x.reply.status == 500 <==>
        apiKey.None? || apiKey.value == "" || body.None? || body.value.message.None?
        || (!Confirms(body.value.message.value, body.value.history) && answer.Threw?)
    ensures Handle(apiKey, body, prompt, answer).reply.status == 500 ==>
      !Handle(apiKey, body, prompt, answer).reply.workoutGenerated
    ensures var x := Handle(apiKey, body, prompt, answer);
      x.modelRequest.Some? && answer.Answered? && (answer.content.None? || answer.content == Some("")) ==>
        x.reply == Reply(200, EmptyAnswerReply, false, None)
  {
  }
}

=== FILE: gym_context.dfy ===
/**
 * `getTodayRoutine` of the gym context: with an active program, the first
 * routine of that program scheduled for today's weekday; without one, what
 * the routines hook answers. Today's weekday name (the long pt-BR name the
 * locale prints) and the hook's answer are parameters.
 */
module GymContext {
  import opened Common
  import opened RoutinesService

  /** The day keys routines are scheduled with, Monday first. */
  const DayKeys: seq<string> := ["segunda", "terca", "quarta", "quinta", "sexta", "sabado", "domingo"]

  /** The long weekday names the pt-BR locale prints, in the order of `DayKeys`. */
  const WeekdayNames: seq<string> :=
    ["segunda-feira", "terça-feira", "quarta-feira", "quinta-feira", "sexta-feira", "sábado", "domingo"]

  /** `dayMap[today]`: the day key of a long weekday name, or nothing for any other text. */
  function DayKey(weekday: string): Option<string> {
    match weekday
    case "segunda-feira" => Some("segunda")
    case "terça-feira" => Some("terca")
    case "quarta-feira" => Some("quarta")
    case "quinta-feira" => Some("quinta")
    case "sexta-feira" => Some("sexta")
    case "sábado" => Some("sabado")
    case "domingo" => Some("domingo")
    case _ => None
  }

  /** The filter of `getTodayRoutine`: the routine belongs to the program and lists today's key. */
  predicate Scheduled(r: Routine, programId: string, todayKey: Option<string>) {
    r.programId == Some(programId) && todayKey.Some? && todayKey.value in r.days
  }

  /** `routines.filter(...)`, keeping the order. */
  function ProgramRoutines(routines: seq<Routine>, programId: string, todayKey: Option<string>): (r: seq<Routine>)
    ensures |r| <= |routines|
    ensures forall i :: 0 <= i < |r| ==> Scheduled(r[i], programId, todayKey)
  {
    if routines == [] then []
    else if Scheduled(routines[0], programId, todayKey) then
      [routines[0]] + ProgramRoutines(routines[1..], programId, todayKey)
    else ProgramRoutines(routines[1..], programId, todayKey)
  }

  /**
   * `getTodayRoutine`: `activeProgram` is the id of the active program, if
   * any; `fallback` is what the routines hook would return.
   */
  function TodayRoutine(activeProgram: Option<string>, routines: seq<Routine>, today: string,
                        fallback: Option<Routine>): (r: Option<Routine>)
    ensures activeProgram.None? ==> r == fallback
    ensures activeProgram.Some? && r.Some? ==>
      r.value.programId == activeProgram && DayKey(today).Some? && DayKey(today).value in r.value.days
    ensures activeProgram.Some? && DayKey(today).None? ==> r.None?
  {
    match activeProgram
    case None => fallback
    case Some(id) =>
      var found := ProgramRoutines(routines, id, DayKey(today));
      if |found| > 0 then Some(found[0]) else None
  }

  /** The filter is empty exactly when nothing qualifies, and otherwise starts with the first routine that does. */
  lemma {:induction false} ProgramRoutinesStartWithFirst(routines: seq<Routine>, programId: string, todayKey: Option<string>)
    ensures ProgramRoutines(routines, programId, todayKey) == [] <==>
      forall i :: 0 <= i < |routines| ==> !Scheduled(routines[i], programId, todayKey)
    ensures ProgramRoutines(routines, programId, todayKey) != [] ==>
      exists i :: 0 <= i < |routines| && ProgramRoutines(routines, programId, todayKey)[0] == routines[i]
        && Scheduled(routines[i], programId, todayKey)
        && forall j :: 0 <= j < i ==> !Scheduled(routines[j], programId, todayKey)
  {
    if routines != [] {
      var rest := routines[1..];
      ProgramRoutinesStartWithFirst(rest, programId, todayKey);
      if Scheduled(routines[0], programId, todayKey) {
      } else {
        forall i | 0 <= i < |routines| && i != 0
          ensures routines[i] == rest[i - 1]
        {
        }
        if ProgramRoutines(rest, programId, todayKey) != [] {
          var i :| 0 <= i < |rest| && ProgramRoutines(rest, programId, todayKey)[0] == rest[i]
            && Scheduled(rest[i], programId, todayKey)
            && forall j :: 0 <= j < i ==> !Scheduled(rest[j], programId, todayKey);
          assert routines[i + 1] == rest[i];
        }
      }
    }
  }

  /**
   * With an active program, today's routine is the first routine in list
   * order that belongs to the program and is scheduled for today, and there
   * is none exactly when no routine qualifies.
   */
  lemma TodayRoutineIsFirstScheduled(id: string, routines: seq<Routine>, today: string, fallback: Option<Routine>)
    ensures TodayRoutine(Some(id), routines, today, fallback).None? <==>
      forall i :: 0 <= i < |routines| ==> !Scheduled(routines[i], id, DayKey(today))
    ensures TodayRoutine(Some(id), routines, today, fallback).Some? ==>
      exists i :: 0 <= i < |routines| && TodayRoutine(Some(id), routines, today, fallback).value == routines[i]
        && Scheduled(routines[i], id, DayKey(today))
        && forall j :: 0 <= j < i ==> !Scheduled(routines[j], id, DayKey(today))
  {
    ProgramRoutinesStartWithFirst(routines, id, DayKey(today));
  }

  /** The seven weekday names, and only they, have a day key: the unaccented short name in the same position. */
  lemma DayKeyOfWeekdays(weekday: string)
    ensures DayKey(weekday).Some? <==> weekday in WeekdayNames
    ensures forall i :: 0 <= i < 7 ==> DayKey(WeekdayNames[i]) == Some(DayKeys[i])
    ensures DayKey(weekday).Some? ==> DayKey(weekday).value in DayKeys
  {
  }
}

=== FILE: plan.dfy ===
/**
 * The workout plan both extractors produce and the conversion service
 * consumes (`AIWorkoutData`, `AIRoutine` and `AIExercise`).
 */
module Plan {
  import opened Common
  import opened ExerciseUtils

  /** One exercise as the extractors describe it. */
  datatype AIExercise = AIExercise(
    name: string,
    sets: nat,
    reps: nat,
    restTime: nat,
    weight: Option<int>,          // `0` from the server, `null` from the app
    muscleGroup: MuscleGroup,
    exerciseType: ExerciseType,
    instructions: string,
    supersetGroup: Option<nat>,   // `superset_group`
    supersetOrder: nat)           // `superset_order`

  /** One day of the plan. */
  datatype AIRoutine = AIRoutine(name: string, day: string, focus: string, exercises: seq<AIExercise>)

  datatype WorkoutPlan = WorkoutPlan(
    name: string,
    objective: string,
    estimatedDuration: nat,
    routines: seq<AIRoutine>,
    exercises: seq<AIExercise>,
    notes: string)

  datatype Role = User | Assistant

  /** The question that closes an assistant reply offering a plan. */
  const Marker: string := "\U{1F525} QUER QUE EU ADICIONE AO APP?"

  /** A message of a chat history. */
  datatype ChatMessage = ChatMessage(role: Role, content: string)

  /** The exercises of all routines, routine after routine. */
  function Flatten(rs: seq<AIRoutine>): seq<AIExercise>
  {
    if rs == [] then [] else Flatten(rs[..|rs| - 1]) + rs[|rs| - 1].exercises
  }

  /** The routines with `e` pushed onto the exercises of the last one. */
  function AddToLast(rs: seq<AIRoutine>, e: AIExercise): (r: seq<AIRoutine>)
    requires rs != []
    ensures |r| == |rs|
    ensures forall j :: 0 <= j < |r| ==> r[j].name == rs[j].name && r[j].day == rs[j].day && r[j].focus == rs[j].focus
    ensures forall j :: 0 <= j < |r| - 1 ==> r[j] == rs[j]
    ensures r[|r| - 1].exercises == rs[|rs| - 1].exercises + [e]
    ensures Flatten(r) == Flatten(rs) + [e]
  {
    var last := rs[|rs| - 1];
    var r := rs[..|rs| - 1] + [last.(exercises := last.exercises + [e])];
    assert r[..|r| - 1] == rs[..|rs| - 1];
    r
  }

  /** `Flatten` of a list with one more routine. */
  lemma FlattenAppend(rs: seq<AIRoutine>, r: AIRoutine)
    ensures Flatten(rs + [r]) == Flatten(rs) + r.exercises
  {
    assert (rs + [r])[..|rs|] == rs;
  }
}

=== FILE: regex.dfy ===
/**
 * A backtracking regular-expression matcher that follows the choice order of
 * ECMAScript regular expressions (greedy and lazy quantifiers, ordered
 * alternation, numbered captures, `^` and `$`). `Matches` lists every way a
 * pattern can match at one position, in the order the engine tries them, so
 * the first element is the match JavaScript reports. The patterns of the
 * extractors are written as values of `Re`.
 */
module Regex {
  import opened Common
  import opened Text

  /** One-character tests. */
  datatype CharClass =
    | AnyChar               // `.` under the `s` flag, or `[\s\S]`
    | NotLineTerminator     // `.`
    | Exactly(c: char)      // a literal character
    | Folded(c: char)       // a literal character under the `i` flag
    | Digit                 // `\d`
    | Space                 // `\s`
    | OneOf(cs: seq<char>)  // `[...]`
    | NoneOf(cs: seq<char>) // `[^...]`
    | SpaceOr(cs: seq<char>) // `[\s...]`

  predicate Accepts(cc: CharClass, c: char) {
    match cc
    case AnyChar => true
    case NotLineTerminator => !IsLineTerminator(c)
    case Exactly(d) => c == d
    case Folded(d) => LowerChar(c) == LowerChar(d)
    case Digit => IsDigit(c)
    case Space => IsSpace(c)
    case OneOf(cs) => c in cs
    case NoneOf(cs) => c !in cs
    case SpaceOr(cs) => IsSpace(c) || c in cs
  }

  datatype Re =
    | Eps                          // the empty pattern
    | Char(cc: CharClass)
    | Lit(text: string, folded: bool) // a run of literal characters
    | Cat(left: Re, right: Re)     // `left right`
    | Alt(first: Re, second: Re)   // `first|second`
    | Opt(body: Re, greedy: bool)  // `body?` or `body??`
    | Star(body: Re, greedy: bool) // `body*` or `body*?`
    | Capture(index: nat, body: Re) // `(body)`, the group numbered `index`
    | InputStart                   // `^` without the `m` flag
    | InputEnd                     // `$` without the `m` flag
    | LineEnd                      // `$` with the `m` flag

  /** `body+` and `body+?` */
  function Plus(body: Re, greedy: bool): Re {
    Cat(body, Star(body, greedy))
  }

  /** The characters of `text` read at `pos`, each compared as a literal (`Folded` under the `i` flag). */
  predicate TextAt(text: string, folded: bool, s: string, pos: nat)
    requires pos + |text| <= |s|
  {
    forall i :: 0 <= i < |text| ==> Accepts(if folded then Folded(text[i]) else Exactly(text[i]), s[pos + i])
  }

  /** The concatenation of a list of patterns. */
  function Seq(rs: seq<Re>): Re
    decreases |rs|
  {
    if rs == [] then Eps else Cat(rs[0], Seq(rs[1..]))
  }

  /** Capture spans: group number to `[start, end)`; an absent group is `undefined`. */
  type Captures = map<nat, (nat, nat)>

  predicate CapturesWithin(caps: Captures, n: nat) {
    forall k :: k in caps ==> caps[k].0 <= caps[k].1 <= n
  }

  /** The engine state after a partial match: the position reached and the captures so far. */
  datatype State = State(end: nat, caps: Captures)

  predicate AllWithin(ms: seq<State>, lo: nat, n: nat) {
    forall i :: 0 <= i < |ms| ==> lo <= ms[i].end <= n && CapturesWithin(ms[i].caps, n)
  }

  /**
   * Every way `r` matches `s` from `pos`, in the order the backtracking engine
   * tries them. Every state it lists ends within `s` (`MatchesWithin`).
   */
  function Matches(r: Re, s: string, pos: nat, caps: Captures): (ms: seq<State>)
    decreases r, |s| - pos, 1, 0
  {
    match r
    case Eps => [State(pos, caps)]
    case Char(cc) => if pos < |s| && Accepts(cc, s[pos]) then [State(pos + 1, caps)] else []
    case Lit(text, folded) =>
      if pos + |text| <= |s| && TextAt(text, folded, s, pos) then [State(pos + |text|, caps)] else []
    case Cat(a, b) => Continue(Matches(a, s, pos, caps), b, s)
    case Alt(a, b) => Matches(a, s, pos, caps) + Matches(b, s, pos, caps)
    case Opt(a, greedy) =>
      // an iteration that consumes nothing is rejected, as in RepeatMatcher
      var more := Advancing(Matches(a, s, pos, caps), pos);
      if greedy then more + [State(pos, caps)] else [State(pos, caps)] + more
    case Star(a, greedy) =>
      var more := Iterate(Matches(a, s, pos, caps), r, s, pos);
      if greedy then more + [State(pos, caps)] else [State(pos, caps)] + more
    case Capture(n, a) => Record(Matches(a, s, pos, caps), n, pos)
    case InputStart => if pos == 0 then [State(pos, caps)] else []
    case InputEnd => if pos == |s| then [State(pos, caps)] else []
    case LineEnd => if pos == |s| || (pos < |s| && IsLineTerminator(s[pos])) then [State(pos, caps)] else []
  }

  /** The matches of `b` after each match of the left operand, in order. */
  function Continue(ms: seq<State>, b: Re, s: string): (rs: seq<State>)
    decreases b, |s| + 1, 0, |ms|
  {
    if ms == [] then []
    else Matches(b, s, ms[0].end, ms[0].caps) + Continue(ms[1..], b, s)
  }

  /**
   * The further iterations of `r == Star(..)` after each iteration that made
   * progress (the bound on `end` always holds, by `MatchesWithin`).
   */
  function Iterate(ms: seq<State>, r: Re, s: string, pos: nat): (rs: seq<State>)
    requires r.Star?
    decreases r, |s| - pos, 0, |ms|
  {
    if ms == [] then []
    else if ms[0].end <= pos || |s| < ms[0].end then Iterate(ms[1..], r, s, pos)
    else Matches(r, s, ms[0].end, ms[0].caps) + Iterate(ms[1..], r, s, pos)
  }

  /** The matches that consumed at least one character. */
  function Advancing(ms: seq<State>, pos: nat): (rs: seq<State>) {
    if ms == [] then []
    else (if ms[0].end <= pos then [] else [ms[0]]) + Advancing(ms[1..], pos)
  }

  /** Sets group `k` to the span each match of its body covered. */
  function Record(ms: seq<State>, k: nat, pos: nat): (rs: seq<State>)
    ensures |rs| == |ms|
  {
    if ms == [] then []
    else [State(ms[0].end, ms[0].caps[k := (pos, ms[0].end)])] + Record(ms[1..], k, pos)
  }

  /** Every match of `r` from `pos` ends between `pos` and the end of `s`, and so do its captures. */
  lemma {:induction false} MatchesWithin(r: Re, s: string, pos: nat, caps: Captures)
    requires pos <= |s| && CapturesWithin(caps, |s|)
    ensures AllWithin(Matches(r, s, pos, caps), pos, |s|)
    decreases r, |s| - pos, 1, 0
  {
    match r
    case Eps =>
    case Char(_) =>
    case Lit(_, _) =>
    case Cat(a, b) =>
      MatchesWithin(a, s, pos, caps);
      ContinueWithin(Matches(a, s, pos, caps), b, s, pos);
    case Alt(a, b) =>
      MatchesWithin(a, s, pos, caps);
      MatchesWithin(b, s, pos, caps);
    case Opt(a, _) =>
      MatchesWithin(a, s, pos, caps);
      AdvancingWithin(Matches(a, s, pos, caps), pos, |s|);
    case Star(a, _) =>
      MatchesWithin(a, s, pos, caps);
      IterateWithin(Matches(a, s, pos, caps), r, s, pos);
    case Capture(n, a) =>
      MatchesWithin(a, s, pos, caps);
      RecordWithin(Matches(a, s, pos, caps), n, pos, |s|);
    case InputStart =>
    case InputEnd =>
    case LineEnd =>
  }

  lemma {:induction false} ContinueWithin(ms: seq<State>, b: Re, s: string, lo: nat)
    requires AllWithin(ms, lo, |s|)
    ensures AllWithin(Continue(ms, b, s), lo, |s|)
    decreases b, |s| + 1, 0, |ms|
  {
    if ms != [] {
      MatchesWithin(b, s, ms[0].end, ms[0].caps);
      ContinueWithin(ms[1..], b, s, lo);
    }
  }

  lemma {:induction false} IterateWithin(ms: seq<State>, r: Re, s: string, pos: nat)
    requires r.Star? && pos <= |s| && AllWithin(ms, pos, |s|)
    ensures AllWithin(Iterate(ms, r, s, pos), pos, |s|)
    decreases r, |s| - pos, 0, |ms|
  {
    if ms != [] {
      IterateWithin(ms[1..], r, s, pos);
      if pos < ms[0].end <= |s| {
        MatchesWithin(r, s, ms[0].end, ms[0].caps);
      }
    }
  }

  lemma {:induction false} AdvancingWithin(ms: seq<State>, pos: nat, n: nat)
    requires AllWithin(ms, pos, n)
    ensures AllWithin(Advancing(ms, pos), pos, n)
  {
    if ms != [] {
      AdvancingWithin(ms[1..], pos, n);
    }
  }

  lemma {:induction false} RecordWithin(ms: seq<State>, k: nat, pos: nat, n: nat)
    requires pos <= n && AllWithin(ms, pos, n)
    ensures AllWithin(Record(ms, k, pos), pos, n)
  {
    if ms != [] {
      RecordWithin(ms[1..], k, pos, n);
    }
  }

  /** A reported match: where it starts and ends, and its captures. */
  datatype Found = Found(start: nat, end: nat, caps: Captures)

  /** `r.exec(s)` started at `from`: the first start position with a match, and that match. */
  function SearchFrom(r: Re, s: string, from: nat): (f: Option<Found>)
    requires from <= |s|
    ensures f.Some? ==> from <= f.value.start <= f.value.end <= |s|
    ensures f.Some? ==> Matches(r, s, f.value.start, map[]) != []
    ensures f.Some? ==> f.value.end == Matches(r, s, f.value.start, map[])[0].end
    decreases |s| - from
  {
    var ms := Matches(r, s, from, map[]);
    MatchesWithin(r, s, from, map[]);
    if ms != [] then Some(Found(from, ms[0].end, ms[0].caps))
    else if from == |s| then None
    else SearchFrom(r, s, from + 1)
  }

  // Shorthands shared by the patterns of the application.
  const Ws: Re := Star(Char(Space), true)                    // \s*
  const Ws1: Re := Plus(Char(Space), true)                   // \s+
  const Num: Re := Plus(Char(Digit), true)                   // \d+
  const LazyText: Re := Plus(Char(NotLineTerminator), false) // .+?
  const RestOfLine: Re := Plus(Char(NotLineTerminator), true) // .+

  /** `s.match(r)` for a pattern without the `g` flag. */
  function Exec(r: Re, s: string): (f: Option<Found>)
    ensures f.Some? ==> f.value.start <= f.value.end <= |s|
  {
    SearchFrom(r, s, 0)
  }

  /**
   * The text of group `k` of a match, `None` when the group did not take part
   * (the span always lies within `s`, by `MatchesWithin`).
   */
  function Group(s: string, f: Found, k: nat): (g: Option<string>) {
    if k in f.caps && f.caps[k].0 <= f.caps[k].1 <= |s| then Some(s[f.caps[k].0..f.caps[k].1]) else None
  }

  /** The text of group `k`, `""` when it did not take part. */
  function GroupText(s: string, f: Found, k: nat): string {
    Group(s, f, k).GetOr("")
  }

  /** `s.replace(r, repl)` for a pattern without the `g` flag. */
  function ReplaceFirst(r: Re, s: string, repl: string): string {
    match Exec(r, s)
    case None => s
    case Some(f) => s[..f.start] + repl + s[f.end..]
  }

  /**
   * `s.replace(r, repl)` for a pattern with the `g` flag: every match found
   * by searching on from the end of the previous one (one character further
   * after an empty match) is replaced; `copied` is where the unreplaced text
   * resumes.
   */
  function ReplaceFrom(r: Re, s: string, repl: string, lastIndex: nat, copied: nat): string
    requires copied <= lastIndex && copied <= |s|
    decreases |s| + 1 - lastIndex
  {
    if lastIndex > |s| then s[copied..]
    else match SearchFrom(r, s, lastIndex)
      case None => s[copied..]
      case Some(f) =>
        s[copied..f.start] + repl
        + ReplaceFrom(r, s, repl, if f.end == f.start then f.end + 1 else f.end, f.end)
  }

  function ReplaceAll(r: Re, s: string, repl: string): string {
    ReplaceFrom(r, s, repl, 0, 0)
  }

  /**
   * `s.split(r)` for a pattern without captures: the pieces between the
   * matches found by trying every position from `q` on, a match that ends
   * where the current piece starts being skipped.
   */
  function SplitFrom(r: Re, s: string, p: nat, q: nat): (parts: seq<string>)
    requires p <= q <= |s|
    ensures |parts| >= 1
    decreases |s| - q, q - p
  {
    if q == |s| then [s[p..]]
    else
      var ms := Matches(r, s, q, map[]);
      MatchesWithin(r, s, q, map[]);
      if ms == [] || ms[0].end == p then SplitFrom(r, s, p, q + 1)
      else [s[p..q]] + SplitFrom(r, s, ms[0].end, ms[0].end)
  }

  function Split(r: Re, s: string): seq<string> {
    if s == [] then (if Matches(r, s, 0, map[]) != [] then [] else [s])
    else SplitFrom(r, s, 0, 0)
  }

  /** The first pattern of `rs` that matches `s`, with its index: a first-match-wins pattern list. */
  function FirstOf(rs: seq<Re>, s: string): (r: Option<(nat, Found)>)
    ensures r.Some? ==> r.value.0 < |rs| && Exec(rs[r.value.0], s) == Some(r.value.1)
    ensures r.Some? ==> forall j :: 0 <= j < r.value.0 ==> Exec(rs[j], s).None?
    ensures r.None? ==> forall j :: 0 <= j < |rs| ==> Exec(rs[j], s).None?
    decreases |rs|
  {
    if rs == [] then None
    else match Exec(rs[0], s)
      case Some(f) => Some((0, f))
      case None =>
        match FirstOf(rs[1..], s)
        case None => None
        case Some(p) => Some((p.0 + 1, p.1))
  }

  /** A pattern that starts with `^` followed by at least one `\s` cannot match a string that does not start with whitespace. */
  lemma AnchoredSpaceNeverMatches(rest: Re, s: string)
    requires s == [] || !IsSpace(s[0])
    ensures Exec(Cat(InputStart, Cat(Plus(Char(Space), true), rest)), s).None?
  {
    var r := Cat(InputStart, Cat(Plus(Char(Space), true), rest));
    forall k | 0 <= k <= |s| ensures Matches(r, s, k, map[]) == [] {
      var tail := Cat(Plus(Char(Space), true), rest);
      if k == 0 {
        assert Matches(Char(Space), s, 0, map[]) == [];
        assert Continue([], Star(Char(Space), true), s) == [];
        assert Matches(Plus(Char(Space), true), s, 0, map[]) == [];
        assert Continue([], rest, s) == [];
        assert Matches(tail, s, 0, map[]) == [];
        assert Matches(InputStart, s, 0, map[]) == [State(0, map[])];
        assert Continue([], tail, s) == [];
        assert Continue([State(0, map[])], tail, s) == Matches(tail, s, 0, map[]) + Continue([], tail, s);
        assert Matches(r, s, 0, map[]) == Continue([State(0, map[])], tail, s);
      } else {
        assert Matches(InputStart, s, k, map[]) == [];
        assert Continue([], tail, s) == [];
        assert Matches(r, s, k, map[]) == Continue(Matches(InputStart, s, k, map[]), tail, s);
      }
    }
  }
}

=== FILE: routines_service.dfy ===
/**
 * The routines service: how a routine's exercises are written to and read
 * back from the `routine_exercises` table, and `createRoutine` /
 * `updateRoutine` as updates of the two tables. Each database request is
 * given its outcome (succeeded or failed) by the caller.
 */
module RoutinesService {
  import opened Common

  /** An exercise of a saved routine (`RoutineExercise`); the optional fields may be missing. */
  datatype RoutineExercise = RoutineExercise(
    exerciseId: string,
    sets: int,
    reps: int,
    weight: Option<int>,
    restTime: int,
    supersetGroup: Option<int>,
    supersetOrder: Option<int>)

  /** A saved routine (`Routine`). */
  datatype Routine = Routine(
    id: string,
    name: string,
    objective: string,
    days: seq<string>,
    exercises: seq<RoutineExercise>,
    notes: Option<string>,
    estimatedDuration: int,
    programId: Option<string>)

  /** A row of the `routine_exercises` table; `None` is SQL `null`. */
  datatype ExerciseRow = ExerciseRow(
    routineId: string,
    exerciseId: string,
    sets: int,
    reps: int,
    weight: Option<int>,
    restTime: int,
    orderIndex: int,
    supersetGroup: Option<int>,
    supersetOrder: Option<int>)

  /** A row of the `routines` table. */
  datatype RoutineRow = RoutineRow(
    id: string,
    userId: string,
    name: string,
    objective: string,
    days: seq<string>,
    estimatedDuration: int,
    notes: Option<string>,
    programId: Option<string>)

  /** A missing number or `0`: what `||` replaces. */
  predicate Falsy(n: Option<int>) {
    n.None? || n.value == 0
  }

  /** A missing string or `''`. */
  predicate FalsyText(s: Option<string>) {
    s.None? || s.value == []
  }

  // ---------------------------------------------------------------------
  // Row mappings
  // ---------------------------------------------------------------------

  /** The row written for the `index`-th exercise of a routine. */
  function ToRow(routineId: string, e: RoutineExercise, index: nat): (row: ExerciseRow)
    ensures row.routineId == routineId && row.orderIndex == index
    ensures row.exerciseId == e.exerciseId && row.sets == e.sets && row.reps == e.reps && row.restTime == e.restTime
    ensures row.weight.None? <==> Falsy(e.weight)
    ensures row.supersetGroup.None? <==> Falsy(e.supersetGroup)
    ensures row.supersetOrder == Some(if Falsy(e.supersetOrder) then 0 else e.supersetOrder.value)
  {
    ExerciseRow(routineId, e.exerciseId, e.sets, e.reps,
      if Falsy(e.weight) then None else e.weight,
      e.restTime, index,
      if Falsy(e.supersetGroup) then None else e.supersetGroup,
      if Falsy(e.supersetOrder) then Some(0) else e.supersetOrder)
  }

  /** The exercise a row is read back as. */
  function FromRow(row: ExerciseRow): (e: RoutineExercise)
    ensures e.exerciseId == row.exerciseId && e.sets == row.sets && e.reps == row.reps && e.restTime == row.restTime
    ensures e.weight == Some(if Falsy(row.weight) then 0 else row.weight.value)
    ensures e.supersetGroup == row.supersetGroup
    ensures e.supersetOrder == Some(if Falsy(row.supersetOrder) then 0 else row.supersetOrder.value)
  {
    RoutineExercise(row.exerciseId, row.sets, row.reps,
      if Falsy(row.weight) then Some(0) else row.weight,
      row.restTime,
      row.supersetGroup,
      if Falsy(row.supersetOrder) then Some(0) else row.supersetOrder)
  }

  /** The rows written for a routine's exercise list, `order_index` counting from 0. */
  function ExerciseRows(routineId: string, es: seq<RoutineExercise>): (rows: seq<ExerciseRow>)
    ensures |rows| == |es|
    ensures forall i :: 0 <= i < |es| ==> rows[i] == ToRow(routineId, es[i], i)
  {
    seq(|es|, i requires 0 <= i < |es| => ToRow(routineId, es[i], i))
  }

  /** Written then read back, an exercise keeps its exercise, sets, reps and rest, and its falsy fields read as `0`. */
  lemma RowRoundTrip(routineId: string, e: RoutineExercise, index: nat)
    ensures FromRow(ToRow(routineId, e, index)) ==
      e.(weight := Some(if Falsy(e.weight) then 0 else e.weight.value),
         supersetGroup := if Falsy(e.supersetGroup) then None else e.supersetGroup,
         supersetOrder := Some(if Falsy(e.supersetOrder) then 0 else e.supersetOrder.value))
  {
  }

  // ---------------------------------------------------------------------
  // Reading a routine's exercises: the rows of the routine by ascending `order_index`
  // ---------------------------------------------------------------------

  /** The rows of one routine, in table order. */
  function RowsOf(rows: seq<ExerciseRow>, routineId: string): seq<ExerciseRow> {
    if rows == [] then []
    else RowsOf(rows[..|rows| - 1], routineId) + (if rows[|rows| - 1].routineId == routineId then [rows[|rows| - 1]] else [])
  }

  /** The rows of a routine are exactly the table's rows that carry its id. */
  lemma {:induction false} RowsOfSelects(rows: seq<ExerciseRow>, routineId: string)
    ensures forall x :: x in RowsOf(rows, routineId) <==> x in rows && x.routineId == routineId
  {
    if rows != [] {
      var init := rows[..|rows| - 1];
      RowsOfSelects(init, routineId);
      assert rows == init + [rows[|rows| - 1]];
    }
  }

  lemma {:induction false} RowsOfAppend(a: seq<ExerciseRow>, b: seq<ExerciseRow>, routineId: string)
    ensures RowsOf(a + b, routineId) == RowsOf(a, routineId) + RowsOf(b, routineId)
    decreases |b|
  {
    if b == [] {
      assert a + b == a;
    } else {
      var n := |b| - 1;
      RowsOfAppend(a, b[..n], routineId);
      assert (a + b)[..|a + b| - 1] == a + b[..n];
      var last := if b[n].routineId == routineId then [b[n]] else [];
      assert RowsOf(a + b, routineId) == RowsOf(a + b[..n], routineId) + last;
      assert RowsOf(b, routineId) == RowsOf(b[..n], routineId) + last;
      AppendAssoc(RowsOf(a, routineId), RowsOf(b[..n], routineId), last);
    }
  }

  predicate SortedByOrder(rows: seq<ExerciseRow>) {
    forall i, j :: 0 <= i < j < |rows| ==> rows[i].orderIndex <= rows[j].orderIndex
  }

  /** `x` inserted into sorted rows after every row whose `order_index` is not larger. */
  function InsertByOrder(rows: seq<ExerciseRow>, x: ExerciseRow): (r: seq<ExerciseRow>)
    ensures multiset(r) == multiset(rows) + multiset{x}
  {
    if rows == [] then [x]
    else
      var last := rows[|rows| - 1];
      assert rows == rows[..|rows| - 1] + [last];
      if last.orderIndex <= x.orderIndex then rows + [x]
      else InsertByOrder(rows[..|rows| - 1], x) + [last]
  }

  /** Inserting keeps every row under a bound that `x` also respects. */
  lemma {:induction false} InsertBounded(rows: seq<ExerciseRow>, x: ExerciseRow, bound: int)
    requires forall i :: 0 <= i < |rows| ==> rows[i].orderIndex <= bound
    requires x.orderIndex <= bound
    ensures forall i :: 0 <= i < |InsertByOrder(rows, x)| ==> InsertByOrder(rows, x)[i].orderIndex <= bound
  {
    if rows != [] {
      var init, last := rows[..|rows| - 1], rows[|rows| - 1];
      if x.orderIndex < last.orderIndex {
        InsertBounded(init, x, bound);
        assert InsertByOrder(rows, x) == InsertByOrder(init, x) + [last];
      } else {
        assert InsertByOrder(rows, x) == rows + [x];
      }
    }
  }

  lemma {:induction false} InsertKeepsSorted(rows: seq<ExerciseRow>, x: ExerciseRow)
    requires SortedByOrder(rows)
    ensures SortedByOrder(InsertByOrder(rows, x))
  {
    if rows != [] {
      var init, last := rows[..|rows| - 1], rows[|rows| - 1];
      if x.orderIndex < last.orderIndex {
        InsertKeepsSorted(init, x);
        InsertBounded(init, x, last.orderIndex);
        var front := InsertByOrder(init, x);
        assert InsertByOrder(rows, x) == front + [last];
      } else {
        assert InsertByOrder(rows, x) == rows + [x];
      }
    }
  }

  /** `.order('order_index', { ascending: true })`, stable. */
  function SortByOrder(rows: seq<ExerciseRow>): (r: seq<ExerciseRow>)
    ensures multiset(r) == multiset(rows)
    ensures SortedByOrder(r)
  {
    if rows == [] then []
    else
      assert rows == rows[..|rows| - 1] + [rows[|rows| - 1]];
      InsertKeepsSorted(SortByOrder(rows[..|rows| - 1]), rows[|rows| - 1]);
      InsertByOrder(SortByOrder(rows[..|rows| - 1]), rows[|rows| - 1])
  }

  /** Rows already in strictly ascending `order_index` come back in the same order. */
  lemma {:induction false} SortKeepsAscending(rows: seq<ExerciseRow>)
    requires forall i, j :: 0 <= i < j < |rows| ==> rows[i].orderIndex < rows[j].orderIndex
    ensures SortByOrder(rows) == rows
  {
    if rows != [] {
      var init := rows[..|rows| - 1];
      SortKeepsAscending(init);
      assert rows == init + [rows[|rows| - 1]];
    }
  }

  /** The exercises `fetchRoutines` reads for one routine. */
  function FetchExercises(rows: seq<ExerciseRow>, routineId: string): (es: seq<RoutineExercise>)
    ensures |es| == |RowsOf(rows, routineId)|
  {
    var sorted := SortByOrder(RowsOf(rows, routineId));
    assert |sorted| == |multiset(sorted)| == |RowsOf(rows, routineId)|;
    seq(|sorted|, i requires 0 <= i < |sorted| => FromRow(sorted[i]))
  }

  /**
   * The exercises written for a routine read back in the same order, each
   * keeping its exercise, sets, reps and rest, when the table holds no
   * other row of that routine.
   */
  lemma WriteThenRead(others: seq<ExerciseRow>, routineId: string, es: seq<RoutineExercise>)
    requires RowsOf(others, routineId) == []
    ensures |FetchExercises(others + ExerciseRows(routineId, es), routineId)| == |es|
    ensures forall i :: 0 <= i < |es| ==>
      FetchExercises(others + ExerciseRows(routineId, es), routineId)[i] == FromRow(ToRow(routineId, es[i], i))
  {
    var written := ExerciseRows(routineId, es);
    RowsOfAppend(others, written, routineId);
    OwnRows(routineId, written);
    assert RowsOf(others + written, routineId) == written;
    SortKeepsAscending(written);
  }

  lemma {:induction false} OwnRows(routineId: string, rows: seq<ExerciseRow>)
    requires forall x :: x in rows ==> x.routineId == routineId
    ensures RowsOf(rows, routineId) == rows
  {
    if rows != [] {
      var init := rows[..|rows| - 1];
      forall x | x in init ensures x.routineId == routineId {
        assert x in rows;
      }
      OwnRows(routineId, init);
      assert RowsOf(rows, routineId) == RowsOf(init, routineId) + [rows[|rows| - 1]];
      assert rows == init + [rows[|rows| - 1]];
    }
  }

  /** `notes || undefined` and `program_id || undefined`. */
  function TextOrNone(s: Option<string>): (r: Option<string>)
    ensures r.None? <==> FalsyText(s)
    ensures r.Some? ==> r == s
  {
    if FalsyText(s) then None else s
  }

  /** What each request of a write answers: `true` when the database reports an error. */
  datatype WriteErrors = WriteErrors(routineRow: bool, deleteRows: bool, insertRows: bool)

  /**
   * What the queries of a read answer: whether the routines query reports
   * an error, and the routines whose exercise query does.
   */
  datatype ReadErrors = ReadErrors(routineRows: bool, exerciseRowsOf: set<string>)

  /** The two tables a user's routines live in. */
  class RoutineTables {
    var routines: seq<RoutineRow>
    var exercises: seq<ExerciseRow>

    constructor(routines: seq<RoutineRow>, exercises: seq<ExerciseRow>)
      ensures this.routines == routines && this.exercises == exercises
    {
      this.routines := routines;
      this.exercises := exercises;
    }

    /**
     * `fetchRoutines`: the user's routines, newest first (the table holds
     * them in creation order), each with its exercises by `order_index`.
     * An error of the routines query, or of the exercise query of any of
     * the user's routines, is thrown.
     */
    function FetchRoutines(userId: string, errors: ReadErrors): (r: Result<seq<Routine>>)
      reads this
      ensures r.Err? <==>
        errors.routineRows || exists row :: row in routines && row.userId == userId && row.id in errors.exerciseRowsOf
      ensures r.Ok? ==> forall x :: x in r.value ==>
        exists row :: row in routines && row.userId == userId && x == RoutineFromRow(row, exercises)
      ensures r.Ok? ==> forall row :: row in routines && row.userId == userId ==> RoutineFromRow(row, exercises) in r.value
    {
      if errors.routineRows then Err("routines query failed")
      else if exists row :: row in routines && row.userId == userId && row.id in errors.exerciseRowsOf
      then Err("exercises query failed")
      else Ok(RoutinesOf(routines, userId, exercises))
    }

    /**
     * `createRoutine`: inserts the routine row under the id the database
     * assigns, then, when the list is not empty, its exercise rows.
     */
    method CreateRoutine(userId: string, routine: Routine, newId: string, errors: WriteErrors) returns (r: Result<Routine>)
      modifies this
      ensures errors.routineRow ==> r.Err? && routines == old(routines) && exercises == old(exercises)
      ensures !errors.routineRow ==> routines == old(routines) + [InsertedRow(userId, routine, newId)]
      ensures !errors.routineRow && routine.exercises == [] ==> exercises == old(exercises)
      ensures !errors.routineRow && routine.exercises != [] && errors.insertRows ==> r.Err? && exercises == old(exercises)
      ensures !errors.routineRow && (routine.exercises == [] || !errors.insertRows) ==>
        exercises == old(exercises) + ExerciseRows(newId, routine.exercises) &&
        r == Ok(Routine(newId, routine.name, routine.objective, routine.days, routine.exercises,
                        TextOrNone(routine.notes), routine.estimatedDuration, TextOrNone(routine.programId)))
    {
      if errors.routineRow {
        return Err("routine insert failed");
      }
      var row := InsertedRow(userId, routine, newId);
      routines := routines + [row];
      if |routine.exercises| > 0 {
        if errors.insertRows {
          return Err("exercise insert failed");
        }
        exercises := exercises + ExerciseRows(newId, routine.exercises);
      }
      r := Ok(Routine(row.id, row.name, row.objective, row.days, routine.exercises,
                      TextOrNone(row.notes), row.estimatedDuration, TextOrNone(row.programId)));
    }

    /**
     * `updateRoutine`: rewrites the user's routine row, deletes every
     * exercise row of the routine, then inserts the new list. A failed
     * request stops the update where it is.
     */
    method UpdateRoutine(userId: string, routine: Routine, errors: WriteErrors) returns (r: Result<()>)
      modifies this
      ensures errors.routineRow ==> r.Err? && routines == old(routines) && exercises == old(exercises)
      ensures !errors.routineRow ==> routines == UpdatedRows(old(routines), userId, routine)
      ensures !errors.routineRow && errors.deleteRows ==> r.Err? && exercises == old(exercises)
      ensures !errors.routineRow && !errors.deleteRows ==>
        exercises == RowsNotOf(old(exercises), routine.id)
          + (if routine.exercises == [] || errors.insertRows then [] else ExerciseRows(routine.id, routine.exercises))
      ensures !errors.routineRow && !errors.deleteRows ==> (r.Ok? <==> routine.exercises == [] || !errors.insertRows)
    {
      if errors.routineRow {
        return Err("routine update failed");
      }
      routines := UpdatedRows(routines, userId, routine);
      if errors.deleteRows {
        return Err("exercise delete failed");
      }
      exercises := RowsNotOf(exercises, routine.id);
      if |routine.exercises| > 0 {
        if errors.insertRows {
          return Err("exercise insert failed");
        }
        exercises := exercises + ExerciseRows(routine.id, routine.exercises);
      }
      r := Ok(());
    }
  }

  /** The row `createRoutine` inserts. */
  function InsertedRow(userId: string, routine: Routine, newId: string): RoutineRow {
    RoutineRow(newId, userId, routine.name, routine.objective, routine.days, routine.estimatedDuration,
               routine.notes, if FalsyText(routine.programId) then None else routine.programId)
  }

  /** The routine rows after `update(...).eq('id', routine.id).eq('user_id', userId)`. */
  function UpdatedRows(rows: seq<RoutineRow>, userId: string, routine: Routine): (r: seq<RoutineRow>)
    ensures |r| == |rows|
    ensures forall i :: 0 <= i < |rows| && !(rows[i].id == routine.id && rows[i].userId == userId) ==> r[i] == rows[i]
    ensures forall i :: 0 <= i < |rows| && rows[i].id == routine.id && rows[i].userId == userId ==>
      r[i] == InsertedRow(userId, routine, routine.id)
  {
    seq(|rows|, i requires 0 <= i < |rows| =>
      if rows[i].id == routine.id && rows[i].userId == userId then InsertedRow(userId, routine, routine.id) else rows[i])
  }

  /** `.delete().eq('routine_id', id)`: the rows of other routines, in table order. */
  function RowsNotOf(rows: seq<ExerciseRow>, routineId: string): (r: seq<ExerciseRow>)
    ensures forall x :: x in r <==> x in rows && x.routineId != routineId
  {
    if rows == [] then []
    else RowsNotOf(rows[..|rows| - 1], routineId) + (if rows[|rows| - 1].routineId != routineId then [rows[|rows| - 1]] else [])
  }

  /** Deleting one routine's rows leaves every other routine's rows as they were. */
  lemma {:induction false} RowsNotOfKeepsOthers(rows: seq<ExerciseRow>, routineId: string, other: string)
    requires other != routineId
    ensures RowsOf(RowsNotOf(rows, routineId), other) == RowsOf(rows, other)
    ensures RowsOf(RowsNotOf(rows, routineId), routineId) == []
  {
    if rows != [] {
      var init := rows[..|rows| - 1];
      RowsNotOfKeepsOthers(init, routineId, other);
      var last := rows[|rows| - 1];
      var tail := if last.routineId != routineId then [last] else [];
      RowsOfAppend(RowsNotOf(init, routineId), tail, other);
      RowsOfAppend(RowsNotOf(init, routineId), tail, routineId);
      assert RowsOf(tail, routineId) == [] by {
        if tail != [] {
          assert RowsOf(tail, routineId) == RowsOf(tail[..0], routineId) + [];
        }
      }
    }
  }

  /**
   * After a successful `updateRoutine`, the routine's exercises read back as
   * the new list (exercise, sets, reps and rest, in order), and every other
   * routine's rows are untouched.
   */
  lemma UpdateReplacesList(rows: seq<ExerciseRow>, routine: Routine, other: string)
    requires other != routine.id
    ensures var after := RowsNotOf(rows, routine.id) + ExerciseRows(routine.id, routine.exercises);
      RowsOf(after, other) == RowsOf(rows, other) &&
      |FetchExercises(after, routine.id)| == |routine.exercises| &&
      forall i :: 0 <= i < |routine.exercises| ==>
        FetchExercises(after, routine.id)[i].exerciseId == routine.exercises[i].exerciseId &&
        FetchExercises(after, routine.id)[i].sets == routine.exercises[i].sets &&
        FetchExercises(after, routine.id)[i].reps == routine.exercises[i].reps &&
        FetchExercises(after, routine.id)[i].restTime == routine.exercises[i].restTime
  {
    var written := ExerciseRows(routine.id, routine.exercises);
    RowsNotOfKeepsOthers(rows, routine.id, other);
    RowsOfAppend(RowsNotOf(rows, routine.id), written, other);
    OtherRowsOf(written, routine.id, other);
    WriteThenRead(RowsNotOf(rows, routine.id), routine.id, routine.exercises);
  }

  lemma {:induction false} OtherRowsOf(rows: seq<ExerciseRow>, routineId: string, other: string)
    requires other != routineId
    requires forall x :: x in rows ==> x.routineId == routineId
    ensures RowsOf(rows, other) == []
  {
    if rows != [] {
      OtherRowsOf(rows[..|rows| - 1], routineId, other);
      assert rows[|rows| - 1] in rows;
    }
  }

  /** The routine a routine row reads back as, with its exercise rows in order. */
  function RoutineFromRow(row: RoutineRow, exerciseRows: seq<ExerciseRow>): (r: Routine)
    ensures r.id == row.id && r.name == row.name && r.objective == row.objective && r.days == row.days
    ensures r.exercises == FetchExercises(exerciseRows, row.id) && r.estimatedDuration == row.estimatedDuration
    ensures r.notes == TextOrNone(row.notes) && r.programId == TextOrNone(row.programId)
  {
    Routine(row.id, row.name, row.objective, row.days, FetchExercises(exerciseRows, row.id),
            TextOrNone(row.notes), row.estimatedDuration, TextOrNone(row.programId))
  }

  /** The routines of `userId`, newest first, with their exercises. */
  function RoutinesOf(rows: seq<RoutineRow>, userId: string, exerciseRows: seq<ExerciseRow>): (rs: seq<Routine>)
    ensures |rs| <= |rows|
    ensures forall r :: r in rs ==>
      exists row :: row in rows && row.userId == userId && r == RoutineFromRow(row, exerciseRows)
    ensures forall row :: row in rows && row.userId == userId ==> RoutineFromRow(row, exerciseRows) in rs
  {
    if rows == [] then []
    else
      var first := rows[0];
      var rest := RoutinesOf(rows[1..], userId, exerciseRows);
      assert forall row :: row in rows ==> row == first || row in rows[1..];
      if first.userId != userId then rest
      else rest + [RoutineFromRow(first, exerciseRows)]
  }
}

=== FILE: server_extractor.dfy ===
/**
 * The edge function's text extractor (`extractWorkoutData`): the reply of the
 * model is split into lines, each line is trimmed, and header lines, routine
 * headers, exercise lines and notes are recognised with regular expressions.
 *
 * Each trimmed line is classified once (`Classify`); `ReadLines` is the
 * loop of the source over those classifications, and the functions beside
 * it describe, for the lines read so far, what that loop has seen:
 * the routine headers (`Headers`), the exercise lines it recorded
 * (`Recorded`), the ones it also filed under a routine (`Routed`) and the
 * plan-level fields (`NameAfter`, `ObjectiveAfter`, `DurationAfter`,
 * `NotesAfter`).
 */
module ServerExtractor {
  import opened Common
  import opened Text
  import opened Regex
  import opened ExerciseUtils
  import opened Plan

  // ---------------------------------------------------------------------
  // The regular expressions of the extractor, as `Re` values
  // ---------------------------------------------------------------------

  const Dash: Re := Char(OneOf(['-', '\U{2013}']))        // [-–]

  /** `\s*[-–]\s*` */
  const Sep: Re := Seq([Ws, Dash, Ws])

  /** `/\*\*Treino\s+(\d+)(?:\s*[-–]\s*)?(.+?):\s*(.+?)\*\*\/i` */
  const NumberedRoutine: Re :=
    Seq([Lit("**Treino", true), Ws1, Capture(1, Num), Opt(Sep, true), Capture(2, LazyText),
         Lit(":", true), Ws, Capture(3, LazyText), Lit("**", true)])

  /** `/\*\*(.+?)\s*[-–]\s*(.+?):\s*(.+?)\*\*\/i` */
  const NamedRoutine: Re :=
    Seq([Lit("**", true), Capture(1, LazyText), Sep, Capture(2, LazyText),
         Lit(":", true), Ws, Capture(3, LazyText), Lit("**", true)])

  /** `/(\d+)\.\s*\*\*(.+?)\s*[-–]\s*(.+?)\*\*\/i` */
  const ListedRoutine: Re :=
    Seq([Capture(1, Num), Lit(".", true), Ws, Lit("**", true), Capture(2, LazyText), Sep,
         Capture(3, LazyText), Lit("**", true)])

  /** The routine patterns, tried in this order. */
  const RoutinePatterns: seq<Re> := [NumberedRoutine, NamedRoutine, ListedRoutine]

  /** `(?:\s*[-–]\s*(\d+)s?)?`: the optional rest time, in group `k`. */
  function RestTail(k: nat, folded: bool): Re {
    Opt(Seq([Sep, Capture(k, Num), Opt(Lit("s", folded), true)]), true)
  }

  /** `(\d+)x(\d+)` and the rest time, groups from `k` on. */
  function TimesForm(k: nat): Re {
    Seq([Capture(k, Num), Lit("x", false), Capture(k + 1, Num), RestTail(k + 2, false)])
  }

  /** `(\d+)\s*séries?\s*de\s*(\d+)` and the rest time, under the `i` flag. */
  function SeriesForm(k: nat): Re {
    Seq([Capture(k, Num), Ws, Lit("série", true), Opt(Lit("s", true), true), Ws, Lit("de", true), Ws,
         Capture(k + 1, Num), RestTail(k + 2, true)])
  }

  /** `(\d+)\s*x\s*(\d+)` and the rest time, under the `i` flag. */
  function SpacedTimesForm(k: nat): Re {
    Seq([Capture(k, Num), Ws, Lit("x", true), Ws, Capture(k + 1, Num), RestTail(k + 2, true)])
  }

  /** `^(\d+)\.\s*(.+?)\s*[-–]\s*` followed by a count form. */
  function Numbered(form: Re, folded: bool): Re {
    Seq([InputStart, Capture(1, Num), Lit(".", folded), Ws, Capture(2, LazyText), Sep, form])
  }

  /** `^\s+(\d+)\.(\d+)\s*(.+?)\s*[-–]\s*` followed by a count form: a superset item. */
  function Indented(form: Re, folded: bool): Re {
    Cat(InputStart, Cat(Ws1, Seq([Capture(1, Num), Lit(".", folded), Capture(2, Num), Ws,
                                  Capture(3, LazyText), Sep, form])))
  }

  /** `^[-•]\s*(.+?)\s*[-–]\s*(\d+)x(\d+)...`: a bullet item. */
  const Bullet: Re :=
    Seq([InputStart, Char(OneOf(['-', '•'])), Ws, Capture(1, LazyText), Sep, TimesForm(2)])

  /** The exercise patterns, tried in this order: 0..2 numbered, 3..5 superset, 6 bullet. */
  const ExercisePatterns: seq<Re> := [
    Numbered(TimesForm(3), false), Numbered(SeriesForm(3), true), Numbered(SpacedTimesForm(3), true),
    Indented(TimesForm(4), false), Indented(SeriesForm(4), true), Indented(SpacedTimesForm(4), true),
    Bullet]

  /** `/\*\*Observações[:\-]?\*\*\s*(.+)/i` */
  const NotesPattern: Re :=
    Seq([Lit("**Observações", true), Opt(Char(OneOf([':', '-'])), true), Lit("**", true), Ws,
         Capture(1, RestOfLine)])

  /** `/Nome do Treino[:\-]?/i`, `/Plano de Treino[:\-]?/i` and `/Objetivo[:\-]?/i` */
  function Label(text: string): Re {
    Cat(Lit(text, true), Opt(Char(OneOf([':', '-'])), true))
  }

  // ---------------------------------------------------------------------
  // One trimmed line
  // ---------------------------------------------------------------------

  predicate IsNameLine(l: string) {
    Contains(l, "**Nome do Treino:") || Contains(l, "**Plano de Treino") || Contains(l, "# Plano:")
  }

  /** The plan name a name line gives: markup and the label removed, trimmed, or the default. */
  function PlanName(l: string): (name: string)
    ensures name != []
  {
    var t := ReplaceFirst(Label("Nome do Treino"), Without(l, ['*', '#']), "");
    OrDefault(Trim(ReplaceFirst(Label("Plano de Treino"), t, "")), "Treino Personalizado")
  }

  predicate IsObjectiveLine(l: string) {
    Contains(l, "**Objetivo") || Contains(l, "Objetivo:")
  }

  function ObjectiveText(l: string): (objective: string)
    ensures objective != []
  {
    OrDefault(Trim(ReplaceFirst(Label("Objetivo"), Without(l, ['*', '#']), "")), "Treino personalizado")
  }

  predicate IsDurationLine(l: string) {
    Contains(l, "**Duração") || Contains(l, "Duração:")
  }

  /** A line that opens an exercise list; the loop skips the rest of its handling. */
  predicate IsListMarker(l: string) {
    Contains(l, "**Exercícios:**") || Contains(l, "Exercícios:")
  }

  predicate IsNotesLine(l: string) {
    Contains(l, "**Observações") || Contains(l, "Observações:")
  }

  /** The notes a notes line gives, `None` when the notes pattern does not match. */
  function NotesOf(l: string): Option<string> {
    match Exec(NotesPattern, l)
    case None => None
    case Some(f) => Some(Trim(GroupText(l, f, 1)))
  }

  datatype RoutineHeader = RoutineHeader(name: string, day: string, focus: string)

  function HeaderOf(r: AIRoutine): RoutineHeader {
    RoutineHeader(r.name, r.day, r.focus)
  }

  /** The headers of a list of routines. */
  function HeadersOf(rs: seq<AIRoutine>): (hs: seq<RoutineHeader>)
    ensures |hs| == |rs|
  {
    seq(|rs|, j requires 0 <= j < |rs| => HeaderOf(rs[j]))
  }

  /** `identifier.includes('Treino') ? identifier : 'Treino ' + identifier` */
  function RoutineName(identifier: string): (name: string)
    ensures Contains(name, "Treino")
  {
    if Contains(identifier, "Treino") then identifier
    else
      ContainsPrefix("Treino " + identifier, "Treino", 6);
      "Treino " + identifier
  }

  /** The routine header on a line: the first routine pattern that matches it. */
  function MatchRoutine(l: string): (h: Option<RoutineHeader>)
    ensures h.Some? ==> Contains(h.value.name, "Treino") && IsTrimmed(h.value.day) && IsTrimmed(h.value.focus)
  {
    match FirstOf(RoutinePatterns, l)
    case None => None
    case Some(m) =>
      var f := m.1;
      TrimIsTrimmed(Lower(GroupText(l, f, 2)));
      TrimIsTrimmed(GroupText(l, f, 3));
      Some(RoutineHeader(RoutineName(GroupText(l, f, 1)), Trim(Lower(GroupText(l, f, 2))), Trim(GroupText(l, f, 3))))
  }

  /** The instructions text of a server exercise. */
  function Instructions(sets: nat, reps: nat, rest: nat): string {
    NatToString(sets) + " séries de " + NatToString(reps) + " repetições. Descanso: "
    + NatToString(rest) + "s."
  }

  /**
   * The group holding the exercise name in a match of pattern `k`: after
   * the number for the numbered patterns, after the two-part number for the
   * superset patterns, first for the bullet pattern. Sets, reps and rest
   * follow it.
   */
  function NameGroup(k: nat): (g: nat)
    ensures g == 1 <==> k > 5
    ensures 1 <= g <= 3
  {
    if k <= 2 then 2 else if k <= 5 then 3 else 1
  }

  /**
   * The exercise a match of pattern `k` describes. The groups holding the
   * name, sets, reps and rest depend on the pattern family; the superset
   * group is the counter's value and the order is group 2 for 3..5.
   */
  function ExerciseFrom(l: string, k: nat, f: Found, counter: nat): (e: AIExercise)
    ensures e.weight == Some(0)
    ensures e.muscleGroup == DetermineMuscleGroup(e.name) && e.exerciseType == DetermineExerciseType(e.name)
    ensures e.instructions == Instructions(e.sets, e.reps, e.restTime)
    ensures (3 <= k <= 5) ==> e.supersetGroup == Some(counter) && e.supersetOrder == DecimalValue(GroupText(l, f, 2))
    ensures !(3 <= k <= 5) ==> e.supersetGroup.None? && e.supersetOrder == 0
  {
    var nameGroup := NameGroup(k);
    var name := Trim(GroupText(l, f, nameGroup));
    var sets := DecimalValue(GroupText(l, f, nameGroup + 1));
    var reps := DecimalValue(GroupText(l, f, nameGroup + 2));
    var restText := GroupText(l, f, nameGroup + 3);
    var rest := if restText != [] then DecimalValue(restText) else 60;
    var superset := 3 <= k <= 5;
    AIExercise(name, sets, reps, rest, Some(0), DetermineMuscleGroup(name), DetermineExerciseType(name),
      Instructions(sets, reps, rest),
      if superset then Some(counter) else None,
      if superset then DecimalValue(GroupText(l, f, 2)) else 0)
  }

  /**
   * The name is the trimmed name group; sets, reps and rest are the decimal
   * values of the three groups after it, and the rest is 60 seconds when
   * its group did not take part in the match.
   */
  lemma ExerciseFromGroups(l: string, k: nat, f: Found, counter: nat)
    ensures var e := ExerciseFrom(l, k, f, counter); var g := NameGroup(k);
      e.name == Trim(GroupText(l, f, g))
      && e.sets == DecimalValue(GroupText(l, f, g + 1))
      && e.reps == DecimalValue(GroupText(l, f, g + 2))
      && (GroupText(l, f, g + 3) == [] ==> e.restTime == 60)
      && (GroupText(l, f, g + 3) != [] ==> e.restTime == DecimalValue(GroupText(l, f, g + 3)))
  {
  }

  /** The exercise on a line: the first exercise pattern that matches it, the counter taken as 0. */
  function LineExercise(l: string): Option<AIExercise> {
    match FirstOf(ExercisePatterns, l)
    case None => None
    case Some(m) => Some(ExerciseFrom(l, m.0, m.1, 0))
  }

  // ---------------------------------------------------------------------
  // What one trimmed line means to the loop
  // ---------------------------------------------------------------------

  /**
   * Everything the loop reads from one trimmed line: whether it is blank,
   * the plan fields it sets, the routine header and the exercise on it,
   * whether it opens an exercise list, and the notes it gives.
   */
  datatype LineInfo = LineInfo(
    blank: bool,
    planName: Option<string>,
    objective: Option<string>,
    duration: Option<nat>,
    header: Option<RoutineHeader>,
    listMarker: bool,
    exercise: Option<AIExercise>,
    notes: Option<string>)

  function Classify(l: string): LineInfo {
    LineInfo(
      l == [],
      if IsNameLine(l) then Some(PlanName(l)) else None,
      if IsObjectiveLine(l) then Some(ObjectiveText(l)) else None,
      if IsDurationLine(l) then FirstNumber(l) else None,
      MatchRoutine(l),
      IsListMarker(l),
      LineExercise(l),
      if IsNotesLine(l) then NotesOf(l) else None)
  }

  /** A line that turns the exercise list on. */
  predicate Opens(info: LineInfo) {
    !info.blank && (info.header.Some? || info.listMarker)
  }

  /** Whether the loop records the exercise of line `info` when the list was open (`listOpen`) before it. */
  predicate FilesExercise(listOpen: bool, info: LineInfo) {
    !info.blank && !info.listMarker && info.exercise.Some? && (info.header.Some? || listOpen)
  }

  /** Whether the loop records the exercise of line `info`, after the lines `before`. */
  predicate Records(before: seq<LineInfo>, info: LineInfo) {
    FilesExercise(ListOpen(before), info)
  }

  // ---------------------------------------------------------------------
  // What the loop has seen after a prefix of the lines
  // ---------------------------------------------------------------------

  /** `inExerciseList` */
  predicate ListOpen(ls: seq<LineInfo>) {
    if ls == [] then false else ListOpen(ls[..|ls| - 1]) || Opens(ls[|ls| - 1])
  }

  /** The routine headers, in the order of their lines. */
  function Headers(ls: seq<LineInfo>): seq<RoutineHeader> {
    if ls == [] then []
    else
      var info := ls[|ls| - 1];
      Headers(ls[..|ls| - 1]) + (if info.blank then [] else OptionToSeq(info.header))
  }

  /** Every exercise the loop built, in the order of their lines, duplicates included. */
  function Recorded(ls: seq<LineInfo>): seq<AIExercise> {
    if ls == [] then []
    else
      var before, info := ls[..|ls| - 1], ls[|ls| - 1];
      Recorded(before) + (if Records(before, info) then [info.exercise.value] else [])
  }

  /** The recorded exercises that came after a routine header, and so went into a routine. */
  function Routed(ls: seq<LineInfo>): seq<AIExercise> {
    if ls == [] then []
    else
      var before, info := ls[..|ls| - 1], ls[|ls| - 1];
      Routed(before) + (if Records(before, info) && |Headers(ls)| > 0 then [info.exercise.value] else [])
  }

  /** The routine a header line opens: the header's fields and no exercises yet. */
  function OpenedBy(info: LineInfo): seq<AIRoutine> {
    if !info.blank && info.header.Some?
    then [AIRoutine(info.header.value.name, info.header.value.day, info.header.value.focus, [])]
    else []
  }

  /**
   * `workoutPlan.routines` after the lines `ls`: a header line opens a new
   * routine, and a recorded exercise is pushed onto the newest routine.
   */
  function RoutinesAfter(ls: seq<LineInfo>): seq<AIRoutine> {
    if ls == [] then []
    else
      var before, info := ls[..|ls| - 1], ls[|ls| - 1];
      var grown := RoutinesAfter(before) + OpenedBy(info);
      if Records(before, info) && grown != [] then AddToLast(grown, info.exercise.value) else grown
  }

  /**
   * The exercises recorded on the lines whose latest routine header, the
   * line itself included, is header `k`.
   */
  function RecordedUnder(ls: seq<LineInfo>, k: nat): seq<AIExercise> {
    if ls == [] then []
    else
      var before, info := ls[..|ls| - 1], ls[|ls| - 1];
      RecordedUnder(before, k) + (if Records(before, info) && |Headers(ls)| == k + 1 then [info.exercise.value] else [])
  }

  /** `workoutPlan.name`: set by the last name line, `''` before any. */
  function NameAfter(ls: seq<LineInfo>): string {
    if ls == [] then []
    else
      var info := ls[|ls| - 1];
      if !info.blank && info.planName.Some? then info.planName.value else NameAfter(ls[..|ls| - 1])
  }

  /** `workoutPlan.objective`: set by the last objective line, `''` before any. */
  function ObjectiveAfter(ls: seq<LineInfo>): string {
    if ls == [] then []
    else
      var info := ls[|ls| - 1];
      if !info.blank && info.objective.Some? then info.objective.value else ObjectiveAfter(ls[..|ls| - 1])
  }

  /** A duration line that holds a number. */
  predicate SetsDuration(info: LineInfo) {
    !info.blank && info.duration.Some?
  }

  /** `workoutPlan.estimatedDuration`: the number of the last duration line that has one, 45 before any. */
  function DurationAfter(ls: seq<LineInfo>): nat {
    if ls == [] then 45
    else
      var info := ls[|ls| - 1];
      if SetsDuration(info) then info.duration.value else DurationAfter(ls[..|ls| - 1])
  }

  /** A notes line the loop reaches (a list marker skips it) on which the notes pattern matches. */
  predicate SetsNotes(info: LineInfo) {
    !info.blank && !info.listMarker && info.notes.Some?
  }

  /** `workoutPlan.notes`: set by the last notes line that matches, `''` before any. */
  function NotesAfter(ls: seq<LineInfo>): string {
    if ls == [] then []
    else
      var info := ls[|ls| - 1];
      if SetsNotes(info) then info.notes.value else NotesAfter(ls[..|ls| - 1])
  }

  // ---------------------------------------------------------------------
  // The general exercise list: first occurrence of each name, ignoring case
  // ---------------------------------------------------------------------

  predicate HasNameCI(es: seq<AIExercise>, name: string) {
    exists i :: 0 <= i < |es| && Lower(es[i].name) == Lower(name)
  }

  /** No two exercises of `es` share a name, ignoring case. */
  predicate DistinctNames(es: seq<AIExercise>) {
    forall i, j :: 0 <= i < j < |es| ==> Lower(es[i].name) != Lower(es[j].name)
  }

  /** The exercises of `xs` whose name, lower-cased, did not occur before. */
  function DedupCI(xs: seq<AIExercise>): (d: seq<AIExercise>)
    ensures |d| <= |xs|
  {
    if xs == [] then []
    else
      var d := DedupCI(xs[..|xs| - 1]);
      var x := xs[|xs| - 1];
      if HasNameCI(d, x.name) then d else d + [x]
  }

  /** No two exercises of the general list share a name. */
  lemma {:induction false} DedupDistinct(xs: seq<AIExercise>)
    ensures DistinctNames(DedupCI(xs))
  {
    if xs != [] {
      var before, x := xs[..|xs| - 1], xs[|xs| - 1];
      DedupDistinct(before);
      var d := DedupCI(before);
      if !HasNameCI(d, x.name) {
        var d' := d + [x];
        forall i, j | 0 <= i < j < |d'| ensures Lower(d'[i].name) != Lower(d'[j].name) {
          if j == |d| {
            assert d'[i] == d[i] && d'[j] == x;
          } else {
            assert d'[i] == d[i] && d'[j] == d[j];
          }
        }
      }
    }
  }

  /** Every name of `xs` is in the general list. */
  lemma {:induction false} DedupCovers(xs: seq<AIExercise>)
    ensures forall k :: 0 <= k < |xs| ==> HasNameCI(DedupCI(xs), xs[k].name)
  {
    if xs != [] {
      var before, x := xs[..|xs| - 1], xs[|xs| - 1];
      DedupCovers(before);
      var d := DedupCI(before);
      var d' := DedupCI(xs);
      forall k | 0 <= k < |xs| ensures HasNameCI(d', xs[k].name) {
        if k < |before| {
          assert xs[k] == before[k];
          var i :| 0 <= i < |d| && Lower(d[i].name) == Lower(before[k].name);
          if !HasNameCI(d, x.name) {
            assert d'[i] == d[i];
          }
        } else if !HasNameCI(d, x.name) {
          assert d'[|d|] == x;
        }
      }
    }
  }

  /** The general list holds only exercises of `xs`. */
  lemma {:induction false} DedupSubset(xs: seq<AIExercise>)
    ensures forall e :: e in DedupCI(xs) ==> e in xs
  {
    if xs != [] {
      var before, x := xs[..|xs| - 1], xs[|xs| - 1];
      DedupSubset(before);
      assert xs == before + [x];
    }
  }

  /** The first exercise of `xs` with the given name, ignoring case. */
  function FirstCI(xs: seq<AIExercise>, name: string): (r: Option<AIExercise>)
    ensures r.Some? ==> r.value in xs && Lower(r.value.name) == Lower(name)
    ensures r.Some? ==> exists i :: 0 <= i < |xs| && xs[i] == r.value
                          && forall j :: 0 <= j < i ==> Lower(xs[j].name) != Lower(name)
    ensures r.None? ==> forall x :: x in xs ==> Lower(x.name) != Lower(name)
  {
    if xs == [] then None
    else match FirstCI(xs[..|xs| - 1], name)
      case Some(e) => Some(e)
      case None =>
        var x := xs[|xs| - 1];
        if Lower(x.name) == Lower(name) then Some(x) else None
  }

  /** The general list keeps, for each name, the first exercise that had it. */
  lemma {:induction false} DedupKeepsFirst(xs: seq<AIExercise>)
    ensures forall e :: e in DedupCI(xs) ==> FirstCI(xs, e.name) == Some(e)
  {
    if xs != [] {
      var before, x := xs[..|xs| - 1], xs[|xs| - 1];
      DedupKeepsFirst(before);
      var d := DedupCI(before);
      DedupCovers(before);
      if !HasNameCI(d, x.name) && FirstCI(before, x.name).Some? {
        assert false;
      }
    }
  }

  // ---------------------------------------------------------------------
  // Properties of the line functions
  // ---------------------------------------------------------------------

  /**
   * The superset patterns start with `^\s+`, but every line is trimmed first,
   * so they never match: no exercise is ever marked as part of a superset.
   */
  lemma SupersetPatternsNeverMatch(l: string)
    requires IsTrimmed(l)
    ensures forall k :: 3 <= k <= 5 ==> Exec(ExercisePatterns[k], l).None?
  {
    AnchoredSpaceNeverMatches(Seq([Capture(1, Num), Lit(".", false), Capture(2, Num), Ws,
                                   Capture(3, LazyText), Sep, TimesForm(4)]), l);
    AnchoredSpaceNeverMatches(Seq([Capture(1, Num), Lit(".", true), Capture(2, Num), Ws,
                                   Capture(3, LazyText), Sep, SeriesForm(4)]), l);
    AnchoredSpaceNeverMatches(Seq([Capture(1, Num), Lit(".", true), Capture(2, Num), Ws,
                                   Capture(3, LazyText), Sep, SpacedTimesForm(4)]), l);
  }

  /** An exercise found on a trimmed line is never a superset item, whatever the counter. */
  lemma TrimmedLineExercise(l: string)
    requires IsTrimmed(l) && FirstOf(ExercisePatterns, l).Some?
    ensures !(3 <= FirstOf(ExercisePatterns, l).value.0 <= 5)
    ensures forall c :: ExerciseFrom(l, FirstOf(ExercisePatterns, l).value.0, FirstOf(ExercisePatterns, l).value.1, c)
                        == LineExercise(l).value
    ensures LineExercise(l).value.supersetGroup == None && LineExercise(l).value.supersetOrder == 0
  {
    SupersetPatternsNeverMatch(l);
  }

  /** Lines that carry no superset exercise. */
  predicate NoSupersets(ls: seq<LineInfo>) {
    forall k :: 0 <= k < |ls| && ls[k].exercise.Some? ==>
      ls[k].exercise.value.supersetGroup == None && ls[k].exercise.value.supersetOrder == 0
  }

  /** Every recorded exercise has `superset_group` null and `superset_order` 0. */
  lemma {:induction false} RecordedNeverSuperset(ls: seq<LineInfo>)
    requires NoSupersets(ls)
    ensures forall e :: e in Recorded(ls) ==> e.supersetGroup == None && e.supersetOrder == 0
  {
    if ls != [] {
      var before := ls[..|ls| - 1];
      assert forall k :: 0 <= k < |before| ==> before[k] == ls[k];
      RecordedNeverSuperset(before);
    }
  }

  /** The exercises filed under routines are recorded exercises. */
  lemma {:induction false} RoutedAreRecorded(ls: seq<LineInfo>)
    ensures forall e :: e in Routed(ls) ==> e in Recorded(ls)
  {
    if ls != [] {
      RoutedAreRecorded(ls[..|ls| - 1]);
    }
  }

  /** The exercise list is open exactly when some line so far was a routine header or a list marker. */
  lemma {:induction false} ListOpenIff(ls: seq<LineInfo>)
    ensures ListOpen(ls) <==> exists k :: 0 <= k < |ls| && Opens(ls[k])
  {
    if ls != [] {
      var before := ls[..|ls| - 1];
      ListOpenIff(before);
      if ListOpen(before) {
        var k :| 0 <= k < |before| && Opens(before[k]);
        assert ls[k] == before[k];
      }
      if exists k :: 0 <= k < |ls| && Opens(ls[k]) {
        var k :| 0 <= k < |ls| && Opens(ls[k]);
        if k < |before| {
          assert before[k] == ls[k];
        }
      }
    }
  }

  /** An exercise line before any routine header or list marker is ignored. */
  lemma {:induction false} NothingRecordedBeforeOpening(ls: seq<LineInfo>)
    requires forall k :: 0 <= k < |ls| ==> !Opens(ls[k])
    ensures Recorded(ls) == [] && !ListOpen(ls)
  {
    if ls != [] {
      var before := ls[..|ls| - 1];
      assert forall k :: 0 <= k < |before| ==> before[k] == ls[k];
      NothingRecordedBeforeOpening(before);
    }
  }

  /** Nothing is recorded under a header that has not been read yet. */
  lemma {:induction false} NothingUnderLaterHeaders(ls: seq<LineInfo>, k: nat)
    requires k >= |Headers(ls)|
    ensures RecordedUnder(ls, k) == []
  {
    if ls != [] {
      NothingUnderLaterHeaders(ls[..|ls| - 1], k);
    }
  }

  /**
   * The routines are the headers in order, routine `k` holding exactly the
   * exercises recorded from header `k` up to the next header.
   */
  lemma {:induction false} RoutinesHoldTheirExercises(ls: seq<LineInfo>)
    ensures |RoutinesAfter(ls)| == |Headers(ls)|
    ensures forall k :: 0 <= k < |Headers(ls)| ==>
      RoutinesAfter(ls)[k] == AIRoutine(Headers(ls)[k].name, Headers(ls)[k].day, Headers(ls)[k].focus, RecordedUnder(ls, k))
  {
    RoutineCount(ls);
    if ls != [] {
      var before := ls[..|ls| - 1];
      RoutinesHoldTheirExercises(before);
      forall k | 0 <= k < |Headers(ls)|
        ensures RoutinesAfter(ls)[k] ==
          AIRoutine(Headers(ls)[k].name, Headers(ls)[k].day, Headers(ls)[k].focus, RecordedUnder(ls, k))
      {
        RoutineAfterLine(ls, before, k);
      }
    }
  }

  /** One routine per header line. */
  lemma {:induction false} RoutineCount(ls: seq<LineInfo>)
    ensures |RoutinesAfter(ls)| == |Headers(ls)|
  {
    if ls != [] {
      var before, info := ls[..|ls| - 1], ls[|ls| - 1];
      RoutineCount(before);
      assert Headers(ls) == Headers(before) + (if info.blank then [] else OptionToSeq(info.header));
    }
  }

  /** One step of the above: routine `k` after one more line, given all routines before it. */
  lemma RoutineAfterLine(ls: seq<LineInfo>, before: seq<LineInfo>, k: nat)
    requires ls != [] && before == ls[..|ls| - 1] && k < |Headers(ls)|
    requires |RoutinesAfter(before)| == |Headers(before)|
    requires forall j :: 0 <= j < |Headers(before)| ==>
      RoutinesAfter(before)[j] == AIRoutine(Headers(before)[j].name, Headers(before)[j].day, Headers(before)[j].focus,
                                            RecordedUnder(before, j))
    ensures |RoutinesAfter(ls)| == |Headers(ls)|
    ensures RoutinesAfter(ls)[k] ==
      AIRoutine(Headers(ls)[k].name, Headers(ls)[k].day, Headers(ls)[k].focus, RecordedUnder(ls, k))
  {
    var info := ls[|ls| - 1];
    var grown := RoutinesAfter(before) + OpenedBy(info);
    var h := Headers(ls)[k];
    GrownRoutine(ls, before, k);
    var added := Records(before, info) && grown != [];
    assert RoutinesAfter(ls) == if added then AddToLast(grown, info.exercise.value) else grown;
    assert RecordedUnder(ls, k) ==
      RecordedUnder(before, k) + (if Records(before, info) && |Headers(ls)| == k + 1 then [info.exercise.value] else []);
    if added && k == |grown| - 1 {
      assert RoutinesAfter(ls)[k].exercises == grown[k].exercises + [info.exercise.value];
    } else {
      assert RoutinesAfter(ls)[k] == grown[k];
    }
  }

  /** Routine `k` once the line's header, if any, is opened, before its exercise is filed. */
  lemma GrownRoutine(ls: seq<LineInfo>, before: seq<LineInfo>, k: nat)
    requires ls != [] && before == ls[..|ls| - 1] && k < |Headers(ls)|
    requires |RoutinesAfter(before)| == |Headers(before)|
    requires forall j :: 0 <= j < |Headers(before)| ==>
      RoutinesAfter(before)[j] == AIRoutine(Headers(before)[j].name, Headers(before)[j].day, Headers(before)[j].focus,
                                            RecordedUnder(before, j))
    ensures |RoutinesAfter(before) + OpenedBy(ls[|ls| - 1])| == |Headers(ls)|
    ensures (RoutinesAfter(before) + OpenedBy(ls[|ls| - 1]))[k] ==
      AIRoutine(Headers(ls)[k].name, Headers(ls)[k].day, Headers(ls)[k].focus, RecordedUnder(before, k))
  {
    var info := ls[|ls| - 1];
    var hs, rs := Headers(before), RoutinesAfter(before);
    var grown := rs + OpenedBy(info);
    assert Headers(ls) == hs + (if info.blank then [] else OptionToSeq(info.header));
    if k < |hs| {
      assert grown[k] == rs[k] && Headers(ls)[k] == hs[k];
    } else {
      NothingUnderLaterHeaders(before, k);
      assert grown[k] == OpenedBy(info)[0];
    }
  }

  /** The routines carry the routine headers, in order. */
  lemma {:induction false} RoutinesAfterHeaders(ls: seq<LineInfo>)
    ensures HeadersOf(RoutinesAfter(ls)) == Headers(ls)
  {
    RoutinesHoldTheirExercises(ls);
    var rs := RoutinesAfter(ls);
    assert forall k :: 0 <= k < |rs| ==> HeadersOf(rs)[k] == HeaderOf(rs[k]) == Headers(ls)[k];
  }

  /** Read routine after routine, the routines hold the routed exercises in line order. */
  lemma {:induction false} RoutinesAfterFlatten(ls: seq<LineInfo>)
    ensures Flatten(RoutinesAfter(ls)) == Routed(ls)
  {
    if ls != [] {
      var before, info := ls[..|ls| - 1], ls[|ls| - 1];
      RoutinesAfterFlatten(before);
      RoutineCount(before);
      var grown := RoutinesAfter(before) + OpenedBy(info);
      assert |grown| == |Headers(ls)| by {
        assert Headers(ls) == Headers(before) + (if info.blank then [] else OptionToSeq(info.header));
      }
      assert Flatten(grown) == Routed(before) by {
        if OpenedBy(info) == [] {
          assert grown == RoutinesAfter(before);
        } else {
          FlattenAppend(RoutinesAfter(before), OpenedBy(info)[0]);
        }
      }
      var added := Records(before, info) && grown != [];
      assert RoutinesAfter(ls) == if added then AddToLast(grown, info.exercise.value) else grown;
      assert Routed(ls) == Routed(before) + (if added then [info.exercise.value] else []);
    }
  }

  /** Line `k` is the last line that sets the duration. */
  predicate IsLastDurationLine(ls: seq<LineInfo>, k: int) {
    0 <= k < |ls| && SetsDuration(ls[k]) && forall m :: k < m < |ls| ==> !SetsDuration(ls[m])
  }

  /** The duration stays 45 unless a duration line holds a number; then it is the last such number. */
  lemma {:induction false} DurationIsLastNumber(ls: seq<LineInfo>)
    ensures (forall k :: 0 <= k < |ls| ==> !SetsDuration(ls[k])) ==> DurationAfter(ls) == 45
    ensures forall k :: IsLastDurationLine(ls, k) ==> DurationAfter(ls) == ls[k].duration.value
  {
    if ls != [] {
      var before := ls[..|ls| - 1];
      assert forall k :: 0 <= k < |before| ==> before[k] == ls[k];
      DurationIsLastNumber(before);
    }
  }

  /** A routine day is lower-case and trimmed. */
  lemma RoutineDayIsNormalised(l: string)
    requires MatchRoutine(l).Some?
    ensures IsTrimmed(MatchRoutine(l).value.day) && Lower(MatchRoutine(l).value.day) == MatchRoutine(l).value.day
  {
    var f := FirstOf(RoutinePatterns, l).value.1;
    var lowered := Lower(GroupText(l, f, 2));
    var day := Trim(lowered);
    var a := LeadingSpaces(lowered);
    LowerSlice(lowered, a, a + |day|);
    LowerIdempotent(GroupText(l, f, 2));
  }

  // ---------------------------------------------------------------------
  // The extractor
  // ---------------------------------------------------------------------

  /** The reply split on `\n`, each line trimmed. */
  function CleanLines(aiResponse: string): (ls: seq<string>)
    ensures forall k :: 0 <= k < |ls| ==> IsTrimmed(ls[k])
  {
    var lines := SplitOn(aiResponse, '\n');
    seq(|lines|, k requires 0 <= k < |lines| => TrimIsTrimmed(lines[k]); Trim(lines[k]))
  }

  /** The trimmed lines of the reply, classified. */
  function Lines(aiResponse: string): seq<LineInfo> {
    var ls := CleanLines(aiResponse);
    seq(|ls|, k requires 0 <= k < |ls| => Classify(ls[k]))
  }

  /** No line of a reply carries a superset exercise. */
  lemma LinesHaveNoSupersets(aiResponse: string)
    ensures NoSupersets(Lines(aiResponse))
  {
    var ls := CleanLines(aiResponse);
    forall k | 0 <= k < |ls| && Lines(aiResponse)[k].exercise.Some?
      ensures Lines(aiResponse)[k].exercise.value.supersetGroup == None
      ensures Lines(aiResponse)[k].exercise.value.supersetOrder == 0
    {
      TrimmedLineExercise(ls[k]);
    }
  }

  /** A new routine for a header line, with no exercises yet, becomes the current routine. */
  method OpenRoutine(routines: seq<AIRoutine>, header: RoutineHeader) returns (routines': seq<AIRoutine>)
    ensures routines' == routines + [AIRoutine(header.name, header.day, header.focus, [])]
    ensures HeadersOf(routines') == HeadersOf(routines) + [header]
    ensures Flatten(routines') == Flatten(routines)
    ensures routines'[|routines'| - 1].exercises == []
  {
    var routine := AIRoutine(header.name, header.day, header.focus, []);
    FlattenAppend(routines, routine);
    routines' := routines + [routine];
    assert HeadersOf(routines') == HeadersOf(routines) + [header];
  }

  /**
   * An exercise goes into the current routine, when there is one, and into
   * the general list unless an exercise with the same name, ignoring case, is
   * already there.
   */
  method FileExercise(routines: seq<AIRoutine>, exercises: seq<AIExercise>, exercise: AIExercise)
    returns (routines': seq<AIRoutine>, exercises': seq<AIExercise>)
    ensures |routines| > 0 ==> routines' == AddToLast(routines, exercise)
    ensures |routines| == 0 ==> routines' == []
    ensures HeadersOf(routines') == HeadersOf(routines)
    ensures Flatten(routines') == Flatten(routines) + (if |routines| > 0 then [exercise] else [])
    ensures HasNameCI(exercises, exercise.name) ==> exercises' == exercises
    ensures !HasNameCI(exercises, exercise.name) ==> exercises' == exercises + [exercise]
  {
    routines' := routines;
    if |routines| > 0 {
      routines' := AddToLast(routines, exercise);
      assert HeadersOf(routines') == HeadersOf(routines);
    }
    exercises' := exercises;
    if !HasNameCI(exercises, exercise.name) {
      exercises' := exercises + [exercise];
    }
  }

  /**
   * What a non-blank line does to the routines, the general list and the
   * open list: a header opens a routine and the list, a list marker opens
   * the list and ends the line, and an exercise is filed once the list is
   * open.
   */
  method FileLine(routines: seq<AIRoutine>, exercises: seq<AIExercise>, inExerciseList: bool, info: LineInfo)
    returns (routines': seq<AIRoutine>, exercises': seq<AIExercise>, inExerciseList': bool)
    requires !info.blank
    requires |routines| > 0 ==> inExerciseList
    ensures inExerciseList' == (inExerciseList || Opens(info))
    ensures |routines'| > 0 ==> inExerciseList'
    ensures routines' ==
      (var grown := routines + OpenedBy(info);
       if FilesExercise(inExerciseList, info) && grown != [] then AddToLast(grown, info.exercise.value) else grown)
    ensures exercises' ==
      if FilesExercise(inExerciseList, info) && !HasNameCI(exercises, info.exercise.value.name)
      then exercises + [info.exercise.value]
      else exercises
  {
    routines', exercises', inExerciseList' := routines, exercises, inExerciseList;
    if info.header.Some? {
      routines' := OpenRoutine(routines', info.header.value);
      inExerciseList' := true;
    }
    if info.listMarker {
      inExerciseList' := true;
      return;
    }
    if info.exercise.Some? && (|routines'| > 0 || inExerciseList') {
      routines', exercises' := FileExercise(routines', exercises', info.exercise.value);
    }
  }

  /**
   * The line loop of `extractWorkoutData`, over the trimmed and classified
   * lines: the plan fields, the routines with the exercises filed under them,
   * and the general list of exercises.
   */
  method ReadLines(infos: seq<LineInfo>)
    returns (name: string, objective: string, duration: nat, notes: string,
             routines: seq<AIRoutine>, exercises: seq<AIExercise>)
    ensures name == NameAfter(infos) && objective == ObjectiveAfter(infos)
    ensures duration == DurationAfter(infos) && notes == NotesAfter(infos)
    ensures routines == RoutinesAfter(infos)
    ensures HeadersOf(routines) == Headers(infos)
    ensures Flatten(routines) == Routed(infos)
    ensures exercises == DedupCI(Recorded(infos))
  {
    name, objective, duration, notes := "", "", 45, "";
    routines, exercises := [], [];
    var inExerciseList := false;

    for i := 0 to |infos|
      invariant name == NameAfter(infos[..i]) && objective == ObjectiveAfter(infos[..i])
      invariant duration == DurationAfter(infos[..i]) && notes == NotesAfter(infos[..i])
      invariant inExerciseList == ListOpen(infos[..i])
      invariant |routines| > 0 ==> inExerciseList
      invariant routines == RoutinesAfter(infos[..i])
      invariant exercises == DedupCI(Recorded(infos[..i]))
    {
      var info := infos[i];
      ReadLineFields(infos, i);
      ReadLineExercises(infos, i);
      ReadLineRoutines(infos, i);
      if info.blank {
        continue;
      }
      if info.planName.Some? {
        name := info.planName.value;
      }
      if info.objective.Some? {
        objective := info.objective.value;
      }
      if info.duration.Some? {
        duration := info.duration.value;
      }
      routines, exercises, inExerciseList := FileLine(routines, exercises, inExerciseList, info);
      if !info.listMarker && info.notes.Some? {
        notes := info.notes.value;
      }
    }
    assert infos[..|infos|] == infos;
    RoutinesAfterHeaders(infos);
    RoutinesAfterFlatten(infos);
  }

  /**
   * What the text path of `extractWorkoutData` promises about its result for
   * a reply: `None` exactly when no routine header and no exercise was found;
   * otherwise the plan fields of the last lines that set them (or their
   * defaults), the routines of the headers, each holding the exercises
   * recorded up to the next header (or one default routine holding the
   * general list), and the general
   * list: the first exercise of each name, ignoring case, none of them a
   * superset item.
   */
  ghost predicate DescribesText(aiResponse: string, plan: Option<WorkoutPlan>) {
    var ls := Lines(aiResponse);
    && (plan.None? <==> |Headers(ls)| == 0 && |Recorded(ls)| == 0)
    && (plan.Some? ==>
      && plan.value.exercises == DedupCI(Recorded(ls))
      && plan.value.name == OrDefault(NameAfter(ls), "Treino Personalizado")
      && plan.value.objective == OrDefault(ObjectiveAfter(ls), "Treino personalizado")
      && plan.value.estimatedDuration == DurationAfter(ls)
      && plan.value.notes == NotesAfter(ls)
      && (|Headers(ls)| > 0 ==> plan.value.routines == RoutinesAfter(ls))
      && (|Headers(ls)| == 0 ==>
            plan.value.routines == [AIRoutine("Treino Completo", "segunda",
                                              OrDefault(ObjectiveAfter(ls), "Treino geral"), plan.value.exercises)])
      && (forall e :: e in plan.value.exercises ==> e.supersetGroup == None && e.supersetOrder == 0)
      && DistinctNames(plan.value.exercises)
      && (forall e :: e in Flatten(plan.value.routines) ==> HasNameCI(plan.value.exercises, e.name)))
  }

  /** `extractWorkoutData` on a reply without a fenced JSON block. */
  method ExtractFromText(aiResponse: string) returns (plan: Option<WorkoutPlan>)
    ensures DescribesText(aiResponse, plan)
  {
    var infos := Lines(aiResponse);
    var name, objective, duration, notes, routines, exercises := ReadLines(infos);
    LinesHaveNoSupersets(aiResponse);
    RecordedNeverSuperset(infos);
    RoutedAreRecorded(infos);
    DedupSubset(Recorded(infos));
    DedupCovers(Recorded(infos));
    DedupDistinct(Recorded(infos));
    if |Recorded(infos)| > 0 {
      assert HasNameCI(exercises, Recorded(infos)[0].name);
    }

    if |routines| == 0 && |exercises| > 0 {
      routines := [AIRoutine("Treino Completo", "segunda", OrDefault(objective, "Treino geral"), exercises)];
      assert Flatten(routines) == exercises by {
        assert routines[..0] == [];
      }
    }
    if name == [] {
      name := "Treino Personalizado";
    }
    if objective == [] {
      objective := "Treino personalizado";
    }
    if |routines| > 0 || |exercises| > 0 {
      plan := Some(WorkoutPlan(name, objective, duration, routines, exercises, notes));
    } else {
      plan := None;
    }
  }

  /** `/```json\s*([\s\S]*?)\s*```/`: a fenced JSON block. */
  const JsonFence: Re :=
    Seq([Lit("```json", false), Ws, Capture(1, Star(Char(AnyChar), false)), Ws, Lit("```", false)])

  /** The text inside the first fenced JSON block of the reply. */
  function JsonBlock(aiResponse: string): Option<string> {
    match Exec(JsonFence, aiResponse)
    case None => None
    case Some(f) => Some(GroupText(aiResponse, f, 1))
  }

  /**
   * `extractWorkoutData`. `parseJson` stands for `JSON.parse`, `None` when it
   * throws (the `catch` then returns `null`).
   */
  method ExtractWorkoutData(aiResponse: string, parseJson: string -> Option<WorkoutPlan>)
    returns (plan: Option<WorkoutPlan>)
    ensures JsonBlock(aiResponse).Some? ==> plan == parseJson(JsonBlock(aiResponse).value)
    ensures JsonBlock(aiResponse).None? ==> DescribesText(aiResponse, plan)
  {
    var json := JsonBlock(aiResponse);
    if json.Some? {
      return parseJson(json.value);
    }
    plan := ExtractFromText(aiResponse);
  }

  /** How reading line `i` changes the plan fields and the list state. */
  lemma ReadLineFields(ls: seq<LineInfo>, i: nat)
    requires i < |ls|
    ensures NameAfter(ls[..i + 1]) ==
      (if !ls[i].blank && ls[i].planName.Some? then ls[i].planName.value else NameAfter(ls[..i]))
    ensures ObjectiveAfter(ls[..i + 1]) ==
      (if !ls[i].blank && ls[i].objective.Some? then ls[i].objective.value else ObjectiveAfter(ls[..i]))
    ensures DurationAfter(ls[..i + 1]) == (if SetsDuration(ls[i]) then ls[i].duration.value else DurationAfter(ls[..i]))
    ensures NotesAfter(ls[..i + 1]) == (if SetsNotes(ls[i]) then ls[i].notes.value else NotesAfter(ls[..i]))
    ensures ListOpen(ls[..i + 1]) == (ListOpen(ls[..i]) || Opens(ls[i]))
    ensures Headers(ls[..i + 1]) == Headers(ls[..i]) + (if ls[i].blank then [] else OptionToSeq(ls[i].header))
  {
    assert ls[..i + 1][..i] == ls[..i];
  }

  /** How reading line `i` changes the exercises recorded, those routed and the general list. */
  lemma ReadLineExercises(ls: seq<LineInfo>, i: nat)
    requires i < |ls|
    ensures Recorded(ls[..i + 1]) == Recorded(ls[..i]) + (if Records(ls[..i], ls[i]) then [ls[i].exercise.value] else [])
    ensures Routed(ls[..i + 1]) ==
      Routed(ls[..i]) + (if Records(ls[..i], ls[i]) && |Headers(ls[..i + 1])| > 0 then [ls[i].exercise.value] else [])
    ensures DedupCI(Recorded(ls[..i + 1])) ==
      (if !Records(ls[..i], ls[i]) || HasNameCI(DedupCI(Recorded(ls[..i])), ls[i].exercise.value.name)
       then DedupCI(Recorded(ls[..i]))
       else DedupCI(Recorded(ls[..i])) + [ls[i].exercise.value])
  {
    assert ls[..i + 1][..i] == ls[..i];
    var r := Recorded(ls[..i + 1]);
    if Records(ls[..i], ls[i]) {
      assert r[..|r| - 1] == Recorded(ls[..i]);
    } else {
      assert r == Recorded(ls[..i]);
    }
  }

  /** How reading line `i` changes the routines. */
  lemma ReadLineRoutines(ls: seq<LineInfo>, i: nat)
    requires i < |ls|
    ensures RoutinesAfter(ls[..i + 1]) ==
      (var grown := RoutinesAfter(ls[..i]) + OpenedBy(ls[i]);
       if Records(ls[..i], ls[i]) && grown != [] then AddToLast(grown, ls[i].exercise.value) else grown)
  {
    assert ls[..i + 1][..i] == ls[..i];
  }
}

=== FILE: text.dfy ===
/**
 * The JavaScript string operations the core relies on: `toLowerCase`, `trim`,
 * `includes`, `startsWith`, `endsWith`, `indexOf`, `split` on a character,
 * `parseInt` of a digit run and number-to-string conversion.
 */
module Text {
  import opened Common

  /** ECMAScript WhiteSpace and LineTerminator code points: what `\s` matches and `trim` strips. */
  predicate IsSpace(c: char) {
    c == '\t' || c == '\n' || c == '\U{B}' || c == '\U{C}' || c == '\r' || c == ' '
    || c == '\U{A0}' || c == '\U{1680}' || ('\U{2000}' <= c <= '\U{200A}')
    || c == '\U{2028}' || c == '\U{2029}' || c == '\U{202F}' || c == '\U{205F}'
    || c == '\U{3000}' || c == '\U{FEFF}'
  }

  /** The characters that `.` (without the `s` flag) refuses and that end a line for `$` with `m`. */
  predicate IsLineTerminator(c: char) {
    c == '\n' || c == '\r' || c == '\U{2028}' || c == '\U{2029}'
  }

  predicate IsDigit(c: char) {
    '0' <= c <= '9'
  }

  /**
   * Lower-casing of one character. Covers ASCII and the Latin-1 capitals
   * (U+00C0..U+00DE without U+00D7), which is every capital the Portuguese
   * keywords of the model can meet; other scripts are left unchanged.
   */
  function LowerChar(c: char): (r: char)
    ensures IsSpace(r) <==> IsSpace(c)
    ensures IsDigit(r) <==> IsDigit(c)
  {
    if 'A' <= c <= 'Z' then (c as int + 32) as char
    else if '\U{C0}' <= c <= '\U{DE}' && c != '\U{D7}' then (c as int + 32) as char
    else c
  }

  lemma LowerCharIdempotent(c: char)
    ensures LowerChar(LowerChar(c)) == LowerChar(c)
  {
  }

  /** `s.toLowerCase()` */
  function Lower(s: string): (r: string)
    ensures |r| == |s|
    ensures forall i :: 0 <= i < |s| ==> r[i] == LowerChar(s[i])
  {
    seq(|s|, i requires 0 <= i < |s| => LowerChar(s[i]))
  }

  lemma LowerIdempotent(s: string)
    ensures Lower(Lower(s)) == Lower(s)
  {
    forall i | 0 <= i < |s| ensures Lower(Lower(s))[i] == Lower(s)[i] {
      LowerCharIdempotent(s[i]);
    }
  }

  lemma LowerAppend(a: string, b: string)
    ensures Lower(a + b) == Lower(a) + Lower(b)
  {
  }

  lemma LowerSlice(s: string, i: nat, j: nat)
    requires i <= j <= |s|
    ensures Lower(s[i..j]) == Lower(s)[i..j]
  {
  }

  /** `s.startsWith(p)` */
  predicate StartsWith(s: string, p: string) {
    |p| <= |s| && s[..|p|] == p
  }

  lemma PrefixOfPrefix(a: string, b: string, c: string)
    requires StartsWith(a, b) && StartsWith(b, c)
    ensures StartsWith(a, c)
  {
    assert a[..|c|] == b[..|c|];
  }

  /** `s.endsWith(p)` */
  predicate EndsWith(s: string, p: string) {
    |p| <= |s| && s[|s| - |p|..] == p
  }

  /** `s.indexOf(p, from)`: the first position at or after `from` where `p` occurs. */
  function IndexFrom(s: string, p: string, from: nat): (r: Option<nat>)
    requires from <= |s|
    ensures r.Some? ==> from <= r.value && r.value + |p| <= |s| && s[r.value..r.value + |p|] == p
    ensures r.Some? ==> forall j :: from <= j < r.value ==> !StartsWith(s[j..], p)
    ensures r.None? ==> forall j :: from <= j <= |s| ==> !StartsWith(s[j..], p)
    decreases |s| - from
  {
    if StartsWith(s[from..], p) then Some(from)
    else if from == |s| then None
    else IndexFrom(s, p, from + 1)
  }

  /** `s.indexOf(p)`, with `None` for `-1`. */
  function IndexOf(s: string, p: string): Option<nat> {
    IndexFrom(s, p, 0)
  }

  /** `s.includes(p)` */
  predicate Contains(s: string, p: string) {
    IndexOf(s, p).Some?
  }

  lemma ContainsAt(s: string, p: string, i: nat)
    requires i + |p| <= |s| && s[i..i + |p|] == p
    ensures Contains(s, p)
  {
    assert StartsWith(s[i..], p);
  }

  lemma ContainsPrefix(s: string, p: string, k: nat)
    requires k <= |s| && Contains(s[..k], p)
    ensures Contains(s, p)
  {
    var i := IndexOf(s[..k], p).value;
    assert s[..k][i..i + |p|] == s[i..i + |p|];
    ContainsAt(s, p, i);
  }

  /** Leading characters of `s` that satisfy `IsSpace`, counted. */
  function LeadingSpaces(s: string): (n: nat)
    ensures n <= |s|
    ensures forall i :: 0 <= i < n ==> IsSpace(s[i])
    ensures n < |s| ==> !IsSpace(s[n])
  {
    if |s| == 0 || !IsSpace(s[0]) then 0 else 1 + LeadingSpaces(s[1..])
  }

  /** Trailing characters of `s` that satisfy `IsSpace`, counted. */
  function TrailingSpaces(s: string): (n: nat)
    ensures n <= |s|
    ensures forall i :: |s| - n <= i < |s| ==> IsSpace(s[i])
    ensures n < |s| ==> !IsSpace(s[|s| - n - 1])
  {
    if |s| == 0 || !IsSpace(s[|s| - 1]) then 0 else 1 + TrailingSpaces(s[..|s| - 1])
  }

  /** `s.trim()` */
  function Trim(s: string): (r: string)
    ensures |r| <= |s|
    ensures r != [] ==> !IsSpace(r[0]) && !IsSpace(r[|r| - 1])
    ensures LeadingSpaces(s) + |r| <= |s| && r == s[LeadingSpaces(s)..LeadingSpaces(s) + |r|]
  {
    var a := LeadingSpaces(s);
    var rest := s[a..];
    var b := TrailingSpaces(rest);
    assert rest[..|rest| - b] == s[a..a + |rest| - b];
    rest[..|rest| - b]
  }

  /** A string that `trim` leaves as it is. */
  predicate IsTrimmed(s: string) {
    s == [] || (!IsSpace(s[0]) && !IsSpace(s[|s| - 1]))
  }

  lemma TrimIsTrimmed(s: string)
    ensures IsTrimmed(Trim(s))
  {
  }

  /** `s.split(c)` for a one-character separator. */
  function SplitOn(s: string, c: char): (parts: seq<string>)
    ensures |parts| >= 1
    ensures forall k :: 0 <= k < |parts| ==> c !in parts[k]
    decreases |s|
  {
    if c !in s then [s]
    else
      var i := IndexOfChar(s, c);
      [s[..i]] + SplitOn(s[i + 1..], c)
  }

  /** The first position of `c` in `s`. */
  function IndexOfChar(s: string, c: char): (i: nat)
    requires c in s
    ensures i < |s| && s[i] == c && c !in s[..i]
  {
    if s[0] == c then 0 else 1 + IndexOfChar(s[1..], c)
  }

  /** The value of a run of decimal digits: `parseInt` of a string that `\d+` matched. */
  function DecimalValue(ds: string): (n: nat)
    decreases |ds|
  {
    if ds == [] then 0
    else DecimalValue(ds[..|ds| - 1]) * 10 + DigitValue(ds[|ds| - 1])
  }

  function DigitValue(c: char): (d: nat)
    ensures d <= 9
  {
    if IsDigit(c) then c as int - '0' as int else 0
  }

  /** Decimal rendering of a natural number, as a template literal `${n}` prints it. */
  function NatToString(n: nat): (s: string)
    ensures |s| >= 1
    ensures forall i :: 0 <= i < |s| ==> IsDigit(s[i])
    decreases n
  {
    if n < 10 then [DigitChar(n)] else NatToString(n / 10) + [DigitChar(n % 10)]
  }

  function DigitChar(d: nat): (c: char)
    requires d <= 9
    ensures IsDigit(c) && DigitValue(c) == d
  {
    ('0' as int + d) as char
  }

  /** `parseInt` reads back what `NatToString` wrote. */
  lemma {:induction false} DecimalValueOfNatToString(n: nat)
    ensures DecimalValue(NatToString(n)) == n
    decreases n
  {
    if n >= 10 {
      DecimalValueOfNatToString(n / 10);
      var s := NatToString(n / 10) + [DigitChar(n % 10)];
      assert s[..|s| - 1] == NatToString(n / 10);
    } else {
      assert [DigitChar(n)][..0] == [];
    }
  }

  /** The leading run of digits of `s`. */
  function LeadingDigits(s: string): (n: nat)
    ensures n <= |s|
    ensures forall i :: 0 <= i < n ==> IsDigit(s[i])
    ensures n < |s| ==> !IsDigit(s[n])
  {
    if |s| == 0 || !IsDigit(s[0]) then 0 else 1 + LeadingDigits(s[1..])
  }

  /**
   * `s.match(/\d+/)` or `s.match(/(\d+)/)` read with `parseInt`: the value of the
   * first maximal run of digits, `None` when `s` holds no digit.
   */
  function FirstNumber(s: string): (r: Option<nat>)
    ensures r.None? <==> forall i :: 0 <= i < |s| ==> !IsDigit(s[i])
    decreases |s|
  {
    if |s| == 0 then None
    else if IsDigit(s[0]) then Some(DecimalValue(s[..LeadingDigits(s)]))
    else
      var r := FirstNumber(s[1..]);
      assert forall i :: 1 <= i < |s| ==> s[i] == s[1..][i - 1];
      r
  }

  /** `s || fallback` for a string: the empty string is falsy. */
  function OrDefault(s: string, fallback: string): (r: string)
    ensures s != [] ==> r == s
    ensures s == [] ==> r == fallback
  {
    if s != [] then s else fallback
  }

  /** `s.replace(/[...]/g, '')`: `s` with every character of `cs` removed, the rest kept in order. */
  function Without(s: string, cs: seq<char>): (r: string)
    ensures |r| <= |s|
    ensures forall i :: 0 <= i < |r| ==> r[i] !in cs
    ensures (forall i :: 0 <= i < |s| ==> s[i] !in cs) ==> r == s
    decreases |s|
  {
    if s == [] then []
    else (if s[0] in cs then [] else [s[0]]) + Without(s[1..], cs)
  }
}

=== FILE: video_cache.dfy ===
/**
 * The client-side cache of exercise-video URLs: an insertion-ordered map
 * from a normalised exercise name to the URL found for it and the time it
 * was stored, kept for 24 hours and capped at 100 entries by evicting the
 * oldest key.
 */
module VideoCache {
  import opened Common
  import opened Text

  /** Time to live of an entry, in milliseconds. */
  const CacheTtl: int := 24 * 60 * 60 * 1000
  /** Largest number of entries kept after an insertion. */
  const MaxEntries: nat := 100

  datatype CacheEntry = CacheEntry(url: string, timestamp: int)

  /**
   * What the `youtube-search` function answered: a failure (an error
   * object or an exception), or its list of video URLs, empty when the
   * answer had no `videos` field.
   */
  datatype SearchAnswer = Failed | Videos(urls: seq<string>)

  /** One line of the statistics; the ISO date of `timestamp` is not modelled. */
  datatype StatsEntry = StatsEntry(exercise: string, timestamp: int, url: string)
  datatype CacheStats = CacheStats(size: nat, entries: seq<StatsEntry>)

  predicate Distinct(ks: seq<string>) {
    forall i, j :: 0 <= i < j < |ks| ==> ks[i] != ks[j]
  }

  /**
   * The state of a JavaScript `Map`: its keys in insertion order and its
   * entries.
   */
  datatype Store = Store(keys: seq<string>, entries: map<string, CacheEntry>) {
    ghost predicate Valid() {
      Distinct(keys) && forall k :: k in entries <==> k in keys
    }

    /** `videoCache.size` */
    function Size(): nat {
      |entries|
    }
  }

  lemma {:induction false} DistinctCard(ks: seq<string>)
    requires Distinct(ks)
    ensures |set k | k in ks| == |ks|
  {
    if ks != [] {
      var init := ks[..|ks| - 1];
      var last := ks[|ks| - 1];
      assert Distinct(init);
      DistinctCard(init);
      assert (set k | k in ks) == (set k | k in init) + {last};
      assert last !in (set k | k in init);
    }
  }

  /** In a valid store the map holds exactly one entry per listed key. */
  lemma SizeIsKeyCount(s: Store)
    requires s.Valid()
    ensures s.Size() == |s.keys|
  {
    DistinctCard(s.keys);
    assert s.entries.Keys == set k | k in s.keys;
  }

  /** The cache key of an exercise name: lower-cased, then trimmed. */
  function CacheKey(name: string): string {
    Trim(Lower(name))
  }

  /**
   * `Map.set` (a new key goes last, an existing key keeps its place)
   * followed by the eviction of the first key once the map holds more
   * than `MaxEntries` entries.
   */
  function Put(s: Store, key: string, e: CacheEntry): (r: Store)
    requires s.Valid()
    ensures r.Valid()
  {
    var keys := if key in s.entries then s.keys else s.keys + [key];
    var entries := s.entries[key := e];
    assert Store(keys, entries).Valid();
    SizeIsKeyCount(Store(keys, entries));
    if |entries| > MaxEntries then Store(keys[1..], entries - {keys[0]})
    else Store(keys, entries)
  }

  /** The store after a search, and the URL the search returned. */
  datatype Outcome = Outcome(store: Store, url: Option<string>)

  /** An entry for `key` exists and is younger than `CacheTtl` at `now`. */
  predicate IsHit(s: Store, key: string, now: int) {
    key in s.entries && now - s.entries[key].timestamp < CacheTtl
  }

  /**
   * `searchVideo`: `now` is the clock at the lookup, `answer` what the
   * remote search returned on a miss, `savedAt` the clock when the found
   * URL is stored.
   */
  function Search(s: Store, name: string, now: int, answer: SearchAnswer, savedAt: int): (r: Outcome)
    requires s.Valid()
    ensures r.store.Valid()
  {
    var key := CacheKey(name);
    if IsHit(s, key, now) then Outcome(s, Some(s.entries[key].url))
    else match answer
      case Failed => Outcome(s, None)
      case Videos(urls) =>
        if |urls| > 0 then Outcome(Put(s, key, CacheEntry(urls[0], savedAt)), Some(urls[0]))
        else Outcome(s, None)
  }

  /** `getCacheStats`: the size and the entries in insertion order. */
  function Stats(s: Store): CacheStats
    requires s.Valid()
  {
    CacheStats(s.Size(), seq(|s.keys|, i requires 0 <= i < |s.keys| =>
      StatsEntry(s.keys[i], s.entries[s.keys[i]].timestamp, s.entries[s.keys[i]].url)))
  }

  /** Names that differ only in case or surrounding white space share an entry. */
  lemma {:induction false} CacheKeyIgnoresCaseAndSpace(name: string, pre: string, post: string)
    requires forall i :: 0 <= i < |pre| ==> IsSpace(pre[i])
    requires forall i :: 0 <= i < |post| ==> IsSpace(post[i])
    ensures CacheKey(pre + Lower(name) + post) == CacheKey(name)
  {
    LowerAppend(pre + Lower(name), post);
    LowerAppend(pre, Lower(name));
    LowerIdempotent(name);
    var lp := Lower(pre);
    var lq := Lower(post);
    assert forall i :: 0 <= i < |lp| ==> IsSpace(lp[i]);
    assert forall i :: 0 <= i < |lq| ==> IsSpace(lq[i]);
    TrimSurroundingSpace(lp, Lower(name), lq);
  }

  lemma AllSpaceTrimsToEmpty(u: string)
    requires forall i :: 0 <= i < |u| ==> IsSpace(u[i])
    ensures Trim(u) == []
  {
  }

  lemma TrimSteps(s: string)
    ensures Trim(s) == s[LeadingSpaces(s)..][..|s| - LeadingSpaces(s) - TrailingSpaces(s[LeadingSpaces(s)..])]
  {
  }

  /** A leading white-space character does not change the trimmed text. */
  lemma TrimConsSpace(c: char, s: string)
    requires IsSpace(c)
    ensures Trim([c] + s) == Trim(s)
  {
    var u := [c] + s;
    assert u[1..] == s;
    assert LeadingSpaces(u) == 1 + LeadingSpaces(s);
    assert u[LeadingSpaces(u)..] == s[LeadingSpaces(s)..];
    TrimSteps(u);
    TrimSteps(s);
  }

  lemma LeadingSpacesSnoc(s: string, c: char)
    requires LeadingSpaces(s) < |s|
    ensures LeadingSpaces(s + [c]) == LeadingSpaces(s)
  {
    var a := LeadingSpaces(s);
    assert (s + [c])[a] == s[a];
    assert forall i :: 0 <= i < a ==> (s + [c])[i] == s[i];
  }

  lemma TrailingSpacesSnoc(s: string, c: char)
    requires IsSpace(c)
    ensures TrailingSpaces(s + [c]) == 1 + TrailingSpaces(s)
  {
    assert (s + [c])[..|s|] == s;
  }

  /** A trailing white-space character does not change the trimmed text. */
  lemma TrimSnocSpace(s: string, c: char)
    requires IsSpace(c)
    ensures Trim(s + [c]) == Trim(s)
  {
    var a := LeadingSpaces(s);
    if a == |s| {
      assert forall i :: 0 <= i < |s + [c]| ==> IsSpace((s + [c])[i]);
      AllSpaceTrimsToEmpty(s + [c]);
      AllSpaceTrimsToEmpty(s);
    } else {
      LeadingSpacesSnoc(s, c);
      assert (s + [c])[a..] == s[a..] + [c];
      TrailingSpacesSnoc(s[a..], c);
      TrimSteps(s + [c]);
      TrimSteps(s);
    }
  }

  lemma {:induction false} TrimSpacePrefix(pre: string, s: string)
    requires forall i :: 0 <= i < |pre| ==> IsSpace(pre[i])
    ensures Trim(pre + s) == Trim(s)
  {
    if pre != [] {
      TrimSpacePrefix(pre[1..], s);
      assert pre + s == [pre[0]] + (pre[1..] + s);
      TrimConsSpace(pre[0], pre[1..] + s);
    } else {
      assert pre + s == s;
    }
  }

  lemma {:induction false} TrimSpaceSuffix(s: string, post: string)
    requires forall i :: 0 <= i < |post| ==> IsSpace(post[i])
    ensures Trim(s + post) == Trim(s)
  {
    if post != [] {
      var init := post[..|post| - 1];
      TrimSpaceSuffix(s, init);
      assert s + post == (s + init) + [post[|post| - 1]];
      TrimSnocSpace(s + init, post[|post| - 1]);
    } else {
      assert s + post == s;
    }
  }

  /** `trim` drops any white space added around a string. */
  lemma TrimSurroundingSpace(pre: string, t: string, post: string)
    requires forall i :: 0 <= i < |pre| ==> IsSpace(pre[i])
    requires forall i :: 0 <= i < |post| ==> IsSpace(post[i])
    ensures Trim(pre + t + post) == Trim(t)
  {
    TrimSpaceSuffix(pre + t, post);
    TrimSpacePrefix(pre, t);
  }

  /** A hit returns the stored URL and leaves the cache as it is, whatever the remote search would say. */
  lemma HitSkipsSearch(s: Store, name: string, now: int, answer: SearchAnswer, savedAt: int)
    requires s.Valid() && IsHit(s, CacheKey(name), now)
    ensures Search(s, name, now, answer, savedAt) == Outcome(s, Some(s.entries[CacheKey(name)].url))
  {
  }

  /** A miss whose search failed or found nothing returns nothing and changes nothing. */
  lemma MissWithoutVideoChangesNothing(s: Store, name: string, now: int, answer: SearchAnswer, savedAt: int)
    requires s.Valid() && !IsHit(s, CacheKey(name), now)
    requires answer == Failed || answer == Videos([])
    ensures Search(s, name, now, answer, savedAt) == Outcome(s, None)
  {
  }

  /** The size bound holds after every search. */
  lemma SearchKeepsBound(s: Store, name: string, now: int, answer: SearchAnswer, savedAt: int)
    requires s.Valid() && s.Size() <= MaxEntries
    ensures Search(s, name, now, answer, savedAt).store.Size() <= MaxEntries
  {
    var key := CacheKey(name);
    if !IsHit(s, key, now) && answer.Videos? && |answer.urls| > 0 {
      var e := CacheEntry(answer.urls[0], savedAt);
      var entries := s.entries[key := e];
      if |entries| > MaxEntries {
        var keys := if key in s.entries then s.keys else s.keys + [key];
        SizeIsKeyCount(Store(keys, entries));
        assert keys[0] in entries;
        assert |entries - {keys[0]}| == |entries| - 1;
      }
    }
  }

  /**
   * A miss whose search found videos stores the first URL under the key
   * and returns it; every other entry keeps its value.
   */
  lemma MissStoresFirstVideo(s: Store, name: string, now: int, urls: seq<string>, savedAt: int)
    requires s.Valid() && s.Size() <= MaxEntries
    requires !IsHit(s, CacheKey(name), now) && urls != []
    ensures Search(s, name, now, Videos(urls), savedAt).url == Some(urls[0])
    ensures CacheKey(name) in Search(s, name, now, Videos(urls), savedAt).store.entries
    ensures Search(s, name, now, Videos(urls), savedAt).store.entries[CacheKey(name)]
      == CacheEntry(urls[0], savedAt)
    ensures forall k :: k in Search(s, name, now, Videos(urls), savedAt).store.entries && k != CacheKey(name) ==>
      k in s.entries && Search(s, name, now, Videos(urls), savedAt).store.entries[k] == s.entries[k]
  {
    PutKeepsKey(s, CacheKey(name), CacheEntry(urls[0], savedAt));
  }

  /** Storing into a cache within its bound never evicts the stored key, and leaves the other values alone. */
  lemma PutKeepsKey(s: Store, key: string, e: CacheEntry)
    requires s.Valid() && s.Size() <= MaxEntries
    ensures key in Put(s, key, e).entries && Put(s, key, e).entries[key] == e
    ensures forall k :: k in Put(s, key, e).entries && k != key ==>
      k in s.entries && Put(s, key, e).entries[k] == s.entries[k]
  {
    var keys := if key in s.entries then s.keys else s.keys + [key];
    var entries := s.entries[key := e];
    SizeIsKeyCount(s);
    SizeIsKeyCount(Store(keys, entries));
    if |entries| > MaxEntries {
      assert key !in s.entries;
      assert keys[0] != key;
    }
  }

  /**
   * A new key arriving at a full cache evicts the first key in insertion
   * order and goes last.
   */
  lemma OverflowEvictsOldest(s: Store, key: string, e: CacheEntry)
    requires s.Valid() && s.Size() == MaxEntries && key !in s.entries
    ensures Put(s, key, e).keys == s.keys[1..] + [key]
    ensures forall k :: k in Put(s, key, e).entries <==> k == key || (k in s.entries && k != s.keys[0])
  {
    SizeIsKeyCount(s);
    SizeIsKeyCount(Store(s.keys + [key], s.entries[key := e]));
    assert (s.keys + [key])[1..] == s.keys[1..] + [key];
  }

  /** The statistics list one entry per cached key, in insertion order. */
  lemma StatsListEveryEntry(s: Store)
    requires s.Valid()
    ensures Stats(s).size == |Stats(s).entries|
    ensures forall i :: 0 <= i < |Stats(s).entries| ==>
      Stats(s).entries[i].exercise in s.entries && Stats(s).entries[i].url == s.entries[Stats(s).entries[i].exercise].url
    ensures forall k :: k in s.entries ==> exists i :: 0 <= i < |Stats(s).entries| && Stats(s).entries[i].exercise == k
  {
    SizeIsKeyCount(s);
    forall k | k in s.entries
      ensures exists i :: 0 <= i < |Stats(s).entries| && Stats(s).entries[i].exercise == k
    {
      var i :| 0 <= i < |s.keys| && s.keys[i] == k;
      assert Stats(s).entries[i].exercise == k;
    }
  }

  /** The module-level `videoCache` map of the service. */
  class VideoCache {
    var keys: seq<string>
    var entries: map<string, CacheEntry>

    function Contents(): Store
      reads this
    {
      Store(keys, entries)
    }

    ghost predicate Valid()
      reads this
    {
      Contents().Valid() && Contents().Size() <= MaxEntries
    }

    constructor ()
      ensures Valid() && Contents() == Store([], map[])
    {
      keys := [];
      entries := map[];
    }

    method SearchVideo(exerciseName: string, now: int, answer: SearchAnswer, savedAt: int)
      returns (url: Option<string>)
      requires Valid()
      modifies this
      ensures Valid()
      ensures Contents() == Search(old(Contents()), exerciseName, now, answer, savedAt).store
      ensures url == Search(old(Contents()), exerciseName, now, answer, savedAt).url
    {
      ghost var before := Contents();
      var cacheKey := CacheKey(exerciseName);
      if cacheKey in entries && now - entries[cacheKey].timestamp < CacheTtl {
        return Some(entries[cacheKey].url);
      }
      if answer.Failed? {
        return None;
      }
      var videos := answer.urls;
      if |videos| > 0 {
        var videoUrl := videos[0];
        if cacheKey !in entries {
          keys := keys + [cacheKey];
        }
        entries := entries[cacheKey := CacheEntry(videoUrl, savedAt)];
        if |entries| > MaxEntries {
          assert cacheKey in keys;
          var oldestKey := keys[0];
          keys := keys[1..];
          entries := entries - {oldestKey};
        }
        SearchKeepsBound(before, exerciseName, now, answer, savedAt);
        return Some(videoUrl);
      }
      return None;
    }

    method ClearCache()
      modifies this
      ensures Valid() && Contents() == Store([], map[])
    {
      keys := [];
      entries := map[];
    }

    method GetCacheStats() returns (stats: CacheStats)
      requires Valid()
      ensures stats == Stats(Contents())
      ensures stats.size == |stats.entries|
    {
      StatsListEveryEntry(Contents());
      stats := Stats(Contents());
    }
  }
}

=== FILE: youtube_search.dfy ===
/**
 * The `youtube-search` edge function: the ISO 8601 duration label of a
 * video, the filter that keeps only embeddable videos, and the order in
 * which the handler checks its API key, the search answer and the list
 * of video ids.
 */
module YoutubeSearch {
  import opened Common
  import opened Text

  // ---------------------------------------------------------------------
  // formatDuration
  // ---------------------------------------------------------------------

  /**
   * `(\d+X)?` tried at position `i`: the digits of the designator and the
   * position after its letter, or `None` and `i` when the group is
   * skipped. The greedy `\d+` takes the whole run of digits, and a shorter
   * run is always followed by a digit, never by the letter, so the group
   * is present exactly when the whole run is followed by `letter`.
   */
  function Designator(s: string, i: nat, letter: char): (r: (Option<string>, nat))
    requires i <= |s|
    ensures i <= r.1 <= |s|
  {
    var n := DigitRun(s, i);
    if n > 0 && i + n < |s| && s[i + n] == letter then (Some(s[i..i + n]), i + n + 1)
    else (None, i)
  }

  /** The length of the run of decimal digits that starts at `s[i]`. */
  function DigitRun(s: string, i: nat): (n: nat)
    requires i <= |s|
    ensures i + n <= |s|
    decreases |s| - i
  {
    if i < |s| && IsDigit(s[i]) then 1 + DigitRun(s, i + 1) else 0
  }

  /** The first position at or after `from` where `PT` starts. */
  function FindPT(s: string, from: nat): (r: Option<nat>)
    requires from <= |s|
    ensures r.Some? ==> from <= r.value && r.value + 2 <= |s|
    decreases |s| - from
  {
    if from + 2 <= |s| && s[from] == 'P' && s[from + 1] == 'T' then Some(from)
    else if from + 2 >= |s| then None
    else FindPT(s, from + 1)
  }

  /** The search finds the first occurrence of `PT`, as `indexOf` does. */
  lemma {:induction false} FindPTIsIndexOf(s: string, from: nat)
    requires from <= |s|
    ensures FindPT(s, from) == IndexFrom(s, "PT", from)
    decreases |s| - from
  {
    if from + 2 <= |s| && s[from] == 'P' && s[from + 1] == 'T' {
      assert StartsWith(s[from..], "PT");
    } else {
      assert !StartsWith(s[from..], "PT");
      if from + 2 < |s| {
        FindPTIsIndexOf(s, from + 1);
      }
    }
  }

  /** The optional groups `(\d+X)?` for each letter `X` of `letters`, tried one after the other from `i`. */
  function Groups(s: string, i: nat, letters: string): (g: seq<Option<string>>)
    requires i <= |s|
    ensures |g| == |letters|
    decreases letters
  {
    if letters == [] then []
    else
      var d := Designator(s, i, letters[0]);
      [d.0] + Groups(s, d.1, letters[1..])
  }

  /** The groups of `duration.match(/PT(\d+H)?(\d+M)?(\d+S)?/)` without their letters. */
  datatype DurationMatch = DurationMatch(hours: Option<string>, minutes: Option<string>, seconds: Option<string>)

  /**
   * The first match of `PT(\d+H)?(\d+M)?(\d+S)?`. Every group is optional,
   * so the match starts at the first `PT` of the text and never fails
   * after it.
   */
  function MatchDuration(s: string): Option<DurationMatch> {
    match FindPT(s, 0)
    case None => None
    case Some(p) =>
      var g := Groups(s, p + 2, "HMS");
      Some(DurationMatch(g[0], g[1], g[2]))
  }

  /** `x.padStart(2, '0')` */
  function Pad2(x: string): string {
    if |x| >= 2 then x else if |x| == 1 then "0" + x else "00"
  }

  /** The label of a match: `h:` when the hours group is non-empty, then `mm:ss`. */
  function MatchLabel(m: DurationMatch): string {
    (if m.hours.GetOr("") != "" then m.hours.GetOr("") + ":" else "")
    + Pad2(m.minutes.GetOr("")) + ":" + Pad2(m.seconds.GetOr(""))
  }

  /** What `formatDuration` returns for `duration`. */
  function DurationLabel(duration: string): string {
    match MatchDuration(duration)
    case None => ""
    case Some(m) => MatchLabel(m)
  }

  /** `formatDuration`, building the label by appending as the function does. */
  method FormatDuration(duration: string) returns (formatted: string)
    ensures formatted == DurationLabel(duration)
  {
    var found := MatchDuration(duration);
    if found.None? {
      return "";
    }
    var hours := found.value.hours.GetOr("");
    var minutes := found.value.minutes.GetOr("");
    var seconds := found.value.seconds.GetOr("");
    formatted := "";
    if hours != "" {
      formatted := formatted + hours + ":";
    }
    assert formatted == if hours != "" then hours + ":" else "";
    formatted := formatted + Pad2(minutes) + ":" + Pad2(seconds);
    assert formatted == MatchLabel(found.value);
  }

  /** The label is empty exactly when the text holds no `PT`. */
  lemma EmptyLabelIffNoPT(duration: string)
    ensures DurationLabel(duration) == "" <==> !Contains(duration, "PT")
  {
    FindPTIsIndexOf(duration, 0);
    if Contains(duration, "PT") {
      var m := MatchDuration(duration).value;
      var text := DurationLabel(duration);
      assert |text| >= |Pad2(m.minutes.GetOr("")) + ":"| > 0;
    }
  }

  /** Padding yields at least two characters, ends with the original, and fills with zeros. */
  lemma Pad2Pads(x: string)
    ensures |Pad2(x)| == if |x| >= 2 then |x| else 2
    ensures EndsWith(Pad2(x), x)
    ensures forall i :: 0 <= i < |Pad2(x)| - |x| ==> Pad2(x)[i] == '0'
  {
    assert Pad2(x)[|Pad2(x)| - |x|..] == x;
  }

  /** The components of an hours-minutes-seconds duration in the designator format. */
  datatype Duration = Duration(hours: Option<nat>, minutes: Option<nat>, seconds: Option<nat>)

  /** One designator: the decimal number followed by its letter, or nothing. */
  function Part(n: Option<nat>, letter: char): string {
    match n
    case None => ""
    case Some(v) => NatToString(v) + [letter]
  }

  /** The designators of `ps`, with the letters `letters`, written one after the other. */
  function Tail(ps: seq<Option<nat>>, letters: string): string
    requires |ps| == |letters|
  {
    if ps == [] then "" else Part(ps[0], letters[0]) + Tail(ps[1..], letters[1..])
  }

  /** `PTnHnMnS`, each component written only when present. */
  function Iso(d: Duration): string {
    "PT" + Tail([d.hours, d.minutes, d.seconds], "HMS")
  }

  /** Digits followed by a non-digit form a run exactly as long as the digits. */
  lemma {:induction false} DigitRunBeforeLetter(s: string, i: nat, ds: string, c: char)
    requires i + |ds| < |s| && s[i..i + |ds|] == ds && s[i + |ds|] == c
    requires forall k :: 0 <= k < |ds| ==> IsDigit(ds[k])
    requires !IsDigit(c)
    ensures DigitRun(s, i) == |ds|
    decreases |ds|
  {
    if ds != [] {
      assert s[i] == ds[0];
      assert s[i + 1..i + 1 + |ds[1..]|] == ds[1..];
      DigitRunBeforeLetter(s, i + 1, ds[1..], c);
    }
  }

  /** The group for `letter` tried where a present designator with letter `c` begins. */
  lemma DesignatorAtPart(pre: string, v: nat, c: char, rest: string, letter: char)
    requires !IsDigit(c)
    ensures Designator(pre + (Part(Some(v), c) + rest), |pre|, letter)
      == if c == letter then (Some(NatToString(v)), |pre| + |Part(Some(v), c)|) else (None, |pre|)
  {
    var ds := NatToString(v);
    var s := pre + (Part(Some(v), c) + rest);
    assert s[|pre| + |ds|] == c;
    assert s[|pre|..|pre| + |ds|] == ds;
    DigitRunBeforeLetter(s, |pre|, ds, c);
  }

  /** No designator letter is a digit. */
  predicate NoDigitLetters(letters: string) {
    letters == [] || (!IsDigit(letters[0]) && NoDigitLetters(letters[1..]))
  }

  /** A group whose letter does not occur among the written designators is skipped. */
  lemma {:induction false} SkipAbsent(pre: string, ps: seq<Option<nat>>, letters: string, letter: char)
    requires |ps| == |letters| && NoDigitLetters(letters) && letter !in letters
    ensures Designator(pre + Tail(ps, letters), |pre|, letter) == (None, |pre|)
  {
    if ps == [] {
      assert pre + Tail(ps, letters) == pre;
    } else if ps[0].Some? {
      DesignatorAtPart(pre, ps[0].value, letters[0], Tail(ps[1..], letters[1..]), letter);
    } else {
      assert Tail(ps, letters) == Tail(ps[1..], letters[1..]);
      SkipAbsent(pre, ps[1..], letters[1..], letter);
    }
  }

  /** The group of the first written letter reads back that designator's number. */
  lemma ReadFirst(pre: string, ps: seq<Option<nat>>, letters: string)
    requires |ps| == |letters| > 0 && NoDigitLetters(letters) && letters[0] !in letters[1..]
    ensures Designator(pre + Tail(ps, letters), |pre|, letters[0])
      == (Written(ps[0]), |pre + Part(ps[0], letters[0])|)
  {
    if ps[0].Some? {
      DesignatorAtPart(pre, ps[0].value, letters[0], Tail(ps[1..], letters[1..]), letters[0]);
    } else {
      assert Tail(ps, letters) == Tail(ps[1..], letters[1..]);
      SkipAbsent(pre, ps[1..], letters[1..], letters[0]);
    }
  }

  /** No designator letter occurs twice. */
  predicate DistinctLetters(letters: string) {
    letters == [] || (letters[0] !in letters[1..] && DistinctLetters(letters[1..]))
  }

  /** The group read back from each written designator is its number; absent ones read back as `None`. */
  lemma {:induction false} GroupsOfTail(pre: string, ps: seq<Option<nat>>, letters: string)
    requires |ps| == |letters| && NoDigitLetters(letters) && DistinctLetters(letters)
    ensures Groups(pre + Tail(ps, letters), |pre|, letters) == WrittenAll(ps)
    decreases |ps|
  {
    if ps != [] {
      ReadFirst(pre, ps, letters);
      var next := pre + Part(ps[0], letters[0]);
      AppendAssoc(pre, Part(ps[0], letters[0]), Tail(ps[1..], letters[1..]));
      GroupsOfTail(next, ps[1..], letters[1..]);
    }
  }

  /** The group a present component is read back as. */
  function Written(n: Option<nat>): Option<string> {
    match n
    case None => None
    case Some(v) => Some(NatToString(v))
  }

  function WrittenAll(ps: seq<Option<nat>>): (r: seq<Option<string>>)
    ensures |r| == |ps|
  {
    if ps == [] then [] else [Written(ps[0])] + WrittenAll(ps[1..])
  }

  /** Reading a designator string back gives the digits that were written, and `None` for the absent parts. */
  lemma MatchIso(d: Duration)
    ensures MatchDuration(Iso(d)) == Some(DurationMatch(Written(d.hours), Written(d.minutes), Written(d.seconds)))
  {
    MatchAfterPT(Iso(d));
    GroupsOfIso(d);
    WrittenThree(d.hours, d.minutes, d.seconds);
  }

  /** A string that starts with `PT` is matched from its third character. */
  lemma MatchAfterPT(s: string)
    requires |s| >= 2 && s[0] == 'P' && s[1] == 'T'
    ensures var g := Groups(s, 2, "HMS");
      MatchDuration(s) == Some(DurationMatch(g[0], g[1], g[2]))
  {
    assert FindPT(s, 0) == Some(0);
  }

  lemma GroupsOfIso(d: Duration)
    ensures |Iso(d)| >= 2 && Iso(d)[0] == 'P' && Iso(d)[1] == 'T'
    ensures Groups(Iso(d), 2, "HMS") == WrittenAll([d.hours, d.minutes, d.seconds])
  {
    assert NoDigitLetters("HMS") && DistinctLetters("HMS");
    GroupsOfTail("PT", [d.hours, d.minutes, d.seconds], "HMS");
  }

  lemma WrittenThree(a: Option<nat>, b: Option<nat>, c: Option<nat>)
    ensures WrittenAll([a, b, c]) == [Written(a), Written(b), Written(c)]
  {
    assert [a, b, c][1..] == [b, c];
    assert [b, c][1..] == [c];
    assert [c][1..] == [];
    assert WrittenAll([c]) == [Written(c)];
    assert WrittenAll([b, c]) == [Written(b)] + [Written(c)];
  }

  /**
   * A duration written in the designator format is labelled `h:mm:ss`
   * when it has hours and `mm:ss` otherwise: the hours unpadded, minutes
   * and seconds padded to two digits, absent parts as `00`.
   */
  lemma LabelOfIso(d: Duration)
    ensures DurationLabel(Iso(d)) ==
      (if d.hours.Some? then NatToString(d.hours.value) + ":" else "")
      + Pad2(Written(d.minutes).GetOr("")) + ":" + Pad2(Written(d.seconds).GetOr(""))
  {
    MatchIso(d);
  }

  lemma FourMinutesThirteen(d: Duration)
    requires d.hours == None && d.minutes == Some(4) && d.seconds == Some(13)
    ensures DurationLabel(Iso(d)) == "04:13"
  {
    LabelOfIso(d);
    LabelText(None, 4, 13, "04:13");
  }

  lemma OneHourTwoMinutesThree(d: Duration)
    requires d.hours == Some(1) && d.minutes == Some(2) && d.seconds == Some(3)
    ensures DurationLabel(Iso(d)) == "1:02:03"
  {
    LabelOfIso(d);
    LabelText(Some(1), 2, 3, "1:02:03");
  }

  /** The two worked examples' labels, computed on their own. */
  lemma LabelText(h: Option<nat>, m: nat, s: nat, text: string)
    requires (h, m, s, text) == (None, 4, 13, "04:13") || (h, m, s, text) == (Some(1), 2, 3, "1:02:03")
    ensures (if h.Some? then NatToString(h.value) + ":" else "")
      + Pad2(NatToString(m)) + ":" + Pad2(NatToString(s)) == text
  {
    if h.Some? {
      assert NatToString(1) == "1" && NatToString(2) == "2" && NatToString(3) == "3";
    } else {
      assert NatToString(4) == "4" && NatToString(13) == "13";
    }
  }

  // ---------------------------------------------------------------------
  // Embeddable filter
  // ---------------------------------------------------------------------

  /** An item of the `videos` details answer; `embeddable` is `status?.embeddable`. */
  datatype VideoItem = VideoItem(
    id: string,
    embeddable: Option<bool>,
    title: string,
    thumbnail: string,
    channelTitle: string,
    duration: string)

  /** A video as the function returns it. */
  datatype Video = Video(
    videoId: string,
    title: string,
    thumbnail: string,
    channelTitle: string,
    duration: string,
    url: string)

  const WatchPrefix: string := "https://www.youtube.com/watch?v="

  /** `item.status?.embeddable === true`: a missing status or flag does not pass. */
  predicate IsEmbeddable(item: VideoItem) {
    item.embeddable == Some(true)
  }

  /** `items.filter(...)` */
  function KeepEmbeddable(items: seq<VideoItem>): seq<VideoItem> {
    if items == [] then []
    else (if IsEmbeddable(items[0]) then [items[0]] else []) + KeepEmbeddable(items[1..])
  }

  function ToVideo(item: VideoItem): Video {
    Video(item.id, item.title, item.thumbnail, item.channelTitle, DurationLabel(item.duration), WatchPrefix + item.id)
  }

  /** `items.map(...)` */
  function ToVideos(items: seq<VideoItem>): (r: seq<Video>)
    ensures |r| == |items|
    ensures forall i :: 0 <= i < |items| ==> r[i] == ToVideo(items[i])
  {
    if items == [] then [] else [ToVideo(items[0])] + ToVideos(items[1..])
  }

  /** `detailsData.items?.filter(...)?.map(...) || []` */
  function EmbeddableVideos(items: Option<seq<VideoItem>>): seq<Video> {
    match items
    case None => []
    case Some(xs) => ToVideos(KeepEmbeddable(xs))
  }

  /** The filter keeps exactly the embeddable items. */
  lemma {:induction false} KeepEmbeddableSelects(items: seq<VideoItem>)
    ensures forall x :: x in KeepEmbeddable(items) <==> x in items && IsEmbeddable(x)
  {
    if items != [] {
      KeepEmbeddableSelects(items[1..]);
      assert forall x :: x in items <==> x == items[0] || x in items[1..];
    }
  }

  /** The filter keeps the order of the items: filtering a concatenation concatenates the filtered parts. */
  lemma {:induction false} KeepEmbeddableAppend(a: seq<VideoItem>, b: seq<VideoItem>)
    ensures KeepEmbeddable(a + b) == KeepEmbeddable(a) + KeepEmbeddable(b)
  {
    if a != [] {
      assert (a + b)[1..] == a[1..] + b;
      KeepEmbeddableAppend(a[1..], b);
      AppendAssoc(if IsEmbeddable(a[0]) then [a[0]] else [], KeepEmbeddable(a[1..]), KeepEmbeddable(b));
    } else {
      assert a + b == b;
    }
  }

  /**
   * Every returned video comes from an embeddable item and links to its
   * watch page; every embeddable item gives a video.
   */
  lemma EmbeddableVideosAreEmbeddable(items: seq<VideoItem>)
    ensures forall v :: v in EmbeddableVideos(Some(items)) ==>
      v.url == WatchPrefix + v.videoId && exists x :: x in items && IsEmbeddable(x) && x.id == v.videoId
    ensures forall x :: x in items && IsEmbeddable(x) ==> ToVideo(x) in EmbeddableVideos(Some(items))
  {
    KeepEmbeddableSelects(items);
    var kept := KeepEmbeddable(items);
    var vs := EmbeddableVideos(Some(items));
    forall v | v in vs
      ensures v.url == WatchPrefix + v.videoId && exists x :: x in items && IsEmbeddable(x) && x.id == v.videoId
    {
      var i :| 0 <= i < |vs| && vs[i] == v;
      assert v == ToVideo(kept[i]) && kept[i] in kept;
    }
    forall x | x in items && IsEmbeddable(x) ensures ToVideo(x) in vs {
      var i :| 0 <= i < |kept| && kept[i] == x;
      assert vs[i] == ToVideo(x);
    }
  }

  // ---------------------------------------------------------------------
  // Handler
  // ---------------------------------------------------------------------

  /**
   * The answer of the search request: `searchResponse.ok`,
   * `searchData.error?.message`, and the `id.videoId` of each item of
   * `searchData.items` (`None` when the list is missing).
   */
  datatype SearchAnswer = SearchAnswer(ok: bool, errorMessage: Option<string>, videoIds: Option<seq<string>>)

  /** The JSON body and status of the response. */
  datatype Reply = Videos(videos: seq<Video>) | Failure(status: int, error: string)

  /** `ids.join(',')` */
  function JoinComma(ids: seq<string>): string {
    if ids == [] then ""
    else if |ids| == 1 then ids[0]
    else ids[0] + "," + JoinComma(ids[1..])
  }

  /** The joined id list is empty exactly when there is no id or a single empty one. */
  lemma {:induction false} JoinCommaEmpty(ids: seq<string>)
    ensures JoinComma(ids) == "" <==> ids == [] || ids == [""]
  {
    if |ids| > 1 {
      assert |JoinComma(ids)| >= |ids[0] + ","| > 0;
    }
  }

  /**
   * The handler after the request body was read: `apiKey` is the
   * configured key, `search` the search answer, `details` the items of the
   * details answer.
   */
  function Handle(apiKey: Option<string>, search: SearchAnswer, details: Option<seq<VideoItem>>): Reply {
    if apiKey.GetOr("") == "" then Failure(500, "YouTube API key not configured")
    else if !search.ok then Failure(500, "YouTube API error: " + OrDefault(search.errorMessage.GetOr(""), "Unknown error"))
    else if search.videoIds.None? || JoinComma(search.videoIds.value) == "" then Videos([])
    else Videos(EmbeddableVideos(details))
  }

  /**
   * The handler answers with videos only when the key is configured, the
   * search succeeded and returned at least one id; an empty id list gives
   * an empty video list, and the videos returned are the embeddable ones.
   */
  lemma HandleOutcome(apiKey: Option<string>, search: SearchAnswer, details: Option<seq<VideoItem>>)
    ensures Handle(apiKey, search, details).Videos? <==> apiKey.GetOr("") != "" && search.ok
    ensures apiKey.GetOr("") != "" && search.ok && (search.videoIds == None || search.videoIds == Some([]))
      ==> Handle(apiKey, search, details) == Videos([])
    ensures apiKey.GetOr("") != "" && search.ok && search.videoIds.Some? && search.videoIds.value != [] && search.videoIds.value != [""]
      ==> Handle(apiKey, search, details) == Videos(EmbeddableVideos(details))
    ensures Handle(apiKey, search, details).Failure? ==> Handle(apiKey, search, details).status == 500
  {
    if search.videoIds.Some? {
      JoinCommaEmpty(search.videoIds.value);
    }
  }
}
